=== FILE: README.md ===
# spring-graphql-2-jpa: projection shapes, join fetches and schema rules

This project models in Dafny the core of spring-graphql-2-jpa, a Spring
GraphQL service that answers a query with JPA entities loaded in the shape
of the query's selection. The model covers four parts of the program.

- **Shape identifiers and the projection cache** (`GraphQLDAOImpl`). Two
  textual identifiers are derived from a selection tree:
  - the *shallow* identifier is built from the selection alone;
  - the *full* identifier walks the template class's declared fields and
    adds the `@Id` fields even when they are not selected.

  `getMinimalClass` looks a request up under the shallow identifier first,
  then under the full one. On a miss it builds a minimal class. That class
  declares only the selected or `@Id` fields, with related entities
  narrowed recursively. The class is registered under both keys and added
  to the managed classes of the persistence unit. A top-level build also
  rebuilds the persistence context and schedules the old one for close.
  The DAO is modelled as a sequential state machine (`DaoState`).
  The shallow identifier spells result keys (aliases), while the minimal
  class keeps fields by name. So `{a: name}` followed by `{a: isbn}` gives
  the second request the class built for the first, which has no `isbn`
  field (`ProjectionCache.AliasedLeavesShareClass`,
  `Fixtures.AliasedIsbnGetsNameClass`). The model keeps this behaviour.
- **The join-fetch builder** (`GraphQLEntityFetchTranslator`). Every
  selected relation becomes a `left join fetch parent.field alias` clause.
  The alias is the lower-cased first letter of the field name plus a
  counter kept per letter. The clauses are modelled as `FetchJoin` records
  in pre-order.
- **The schema rules** (`GraphQLConfig`):
  - the Java-class-to-scalar table and the `ID` rule for attributes;
  - enum, input and output types built once per class and registered in
    `ComplexTypes`;
  - the naming of new types (`nextAvailableName`);
  - the `Query` fields generated from query-mapped methods.
- **The combination helpers** of the controller tests
  (`BookGraphQLControllerTests`):
  - `combinations(list, r)`, the index-tuple algorithm, written as Dafny
    methods with loop invariants;
  - `combinations(list)`, every sub-list by size.

| file | module | models |
|---|---|---|
| wrappers.dfy | Wrappers | `Option` |
| strings.dfy | Strings | `String.compareTo`, sorting, joining, decimal counters, `isBlank`, ASCII `toLowerCase` |
| javatypes.dfy | JavaTypes | classes, declared fields, `@Id`, generic collection fields and their raw class, `getRealFieldType` |
| selection.dfy | Selection | a GraphQL selection set as a tree of selected fields, `findFirst` by name |
| identifiers.dfy | ShapeIdentifiers | the shallow and full selection identifiers |
| projection.dfy | ProjectionCache | `getMinimalClass`, `buildMinimalClass`, `appendField`, the persistence context |
| fetch.dfy | FetchTranslator | `buildFetch` |
| typenames.dfy | TypeNames | `ComplexTypes` and its type naming |
| schema.dfy | SchemaRules | `getBestScalar`, `getOrBuildEnumType`, `getOrBuildOutputType` and `getOrBuildInputType` |
| generate.dfy | SchemaGeneration | `generateSchema` and `getArguments` |
| combinations.dfy | Combinations | the two `combinations` helpers |
| fixtures.dfy | Fixtures | the `Book`, `Person`, `Quote` and `Country` entities and the test entity `NonExistingEntity`, with worked requests |

## Model

| member | source | states |
|---|---|---|
| Strings.Sort | src/main/java/com/fradantim/graphql2jpa/dao/impl/GraphQLDAOImpl.java:135 | the identifier tokens come out in `String.compareTo` order, and they are a permutation of the tokens that went in |
| Strings.SortedUnique | src/main/java/com/fradantim/graphql2jpa/dao/impl/GraphQLDAOImpl.java:99 | two sorted token lists that hold the same tokens are the same list |
| Strings.SortCanonical | src/main/java/com/fradantim/graphql2jpa/dao/impl/GraphQLDAOImpl.java:94-101 | the sorted order of the tokens depends only on which tokens there are, not on the order the fields arrived in |
| Strings.ParseNatToString | src/main/java/com/fradantim/graphql2jpa/dao/impl/GraphQLDAOImpl.java:183 | the decimal rendering of the class counter reads back as the same number |
| Strings.NatToStringInjective | src/main/java/com/fradantim/graphql2jpa/dao/impl/GraphQLDAOImpl.java:183 | distinct counter values give distinct `$copy` suffixes |
| Selection.FindByName | src/main/java/com/fradantim/graphql2jpa/dao/impl/GraphQLDAOImpl.java:120-121 | `findFirst` by name finds a field exactly when some immediate field has that name, and the one it finds is the first such field |
| ShapeIdentifiers.ReordersSameTokens | src/main/java/com/fradantim/graphql2jpa/dao/impl/GraphQLDAOImpl.java:93-99 | two selections that differ only in the order of fields, at any depth, produce the same tokens |
| ShapeIdentifiers.SameFieldSameToken | src/main/java/com/fradantim/graphql2jpa/dao/impl/GraphQLDAOImpl.java:94-98 | one field whose sub-selection is only reordered gives the same token |
| ShapeIdentifiers.ShallowKeyOrderIndependent | src/main/java/com/fradantim/graphql2jpa/dao/impl/GraphQLDAOImpl.java:88-102 | reordering the fields at any depth never changes the shallow identifier |
| ShapeIdentifiers.FullKeyDropsUndeclared | src/main/java/com/fradantim/graphql2jpa/dao/impl/GraphQLDAOImpl.java:114-137 | a selected name that the class does not declare leaves the full identifier as it is without that name |
| ShapeIdentifiers.TokensAgree | src/main/java/com/fradantim/graphql2jpa/dao/impl/GraphQLDAOImpl.java:114-137 | when, at every level, the selection names only declared fields, each once and without an alias, and names every `@Id` field, the full tokens and the shallow tokens are the same tokens |
| ShapeIdentifiers.CanonicalSelectionKeysCoincide | src/main/java/com/fradantim/graphql2jpa/dao/impl/GraphQLDAOImpl.java:148-149 | for such a selection, at every level, the full identifier equals the shallow one, so the lookup takes no alias step |
| JavaTypes.RawType | src/main/java/com/fradantim/graphql2jpa/dao/impl/GraphQLDAOImpl.java:207 | `Field.getType()`: a parameterised collection type erases to its raw collection interface, and a plain class is its own raw class |
| ProjectionCache.Init | src/main/java/com/fradantim/graphql2jpa/dao/impl/GraphQLDAOImpl.java:47-56 | a new DAO starts from the JVM-wide class and context counters it is given, which are static and so are not reset. It has an empty cache and no context yet, and satisfies the invariant: every cached class is managed, and the current context knows every managed class |
| ProjectionCache.KeptFieldsMembers | src/main/java/com/fradantim/graphql2jpa/dao/impl/GraphQLDAOImpl.java:187-197 | a declared field is kept in the minimal class exactly when it is selected by name or is an `@Id` field |
| ProjectionCache.KeptFieldsInOrder | src/main/java/com/fradantim/graphql2jpa/dao/impl/GraphQLDAOImpl.java:187 | the kept fields keep the template's declaration order |
| ProjectionCache.GetMinimalClass | src/main/java/com/fradantim/graphql2jpa/dao/impl/GraphQLDAOImpl.java:139-180 | the cache never loses or overwrites an entry. The answer ends up cached under the shallow identifier. Cached classes stay managed. A nested (non-first-entry) lookup never touches the persistence context |
| ProjectionCache.LookupHit | src/main/java/com/fradantim/graphql2jpa/dao/impl/GraphQLDAOImpl.java:142-146 | a shallow hit returns the cached class and changes nothing |
| ProjectionCache.LookupAlias | src/main/java/com/fradantim/graphql2jpa/dao/impl/GraphQLDAOImpl.java:148-156 | a miss on the shallow identifier with a hit on a different full identifier returns the class cached for the full identifier. The only change is the new alias entry under the shallow identifier |
| ProjectionCache.LookupMiss | src/main/java/com/fradantim/graphql2jpa/dao/impl/GraphQLDAOImpl.java:158-178 | a miss on both identifiers builds a class named `<template>$copy<counter>`, advances the counter, stores the class under the full identifier and appends it to the managed classes. A top-level request also opens a new context that knows the class |
| ShapeIdentifiers.OneLeafKey | src/main/java/com/fradantim/graphql2jpa/dao/impl/GraphQLDAOImpl.java:93-100 | a one-leaf selection is keyed as the class name and its result key in brackets; the field's name does not enter the key |
| ProjectionCache.SharedShallowKeyHits | src/main/java/com/fradantim/graphql2jpa/dao/impl/GraphQLDAOImpl.java:139-146 | after one request, any request with the same shallow key is a hit returning the first request's class and state |
| ProjectionCache.FindSharedKeySameClass | src/main/java/com/fradantim/graphql2jpa/dao/impl/GraphQLDAOImpl.java:72-75 | two `find` calls whose requests share a shallow key query the same class |
| ProjectionCache.AliasedLeavesShareClass | src/main/java/com/fradantim/graphql2jpa/dao/impl/GraphQLDAOImpl.java:93-99 | two one-leaf requests that give the same result key to different fields share a shallow key, so the second gets exactly the class and state of the first |
| ProjectionCache.RepeatedRequestHits | src/main/java/com/fradantim/graphql2jpa/dao/impl/GraphQLDAOImpl.java:139-146 | asking again for the same template and selection returns the same class and leaves the state unchanged |
| ProjectionCache.ReorderedRequestHits | src/main/java/com/fradantim/graphql2jpa/dao/impl/GraphQLDAOImpl.java:142-146 | after a top-level request, the same selection with its fields reordered is a cache hit on the same class |
| ProjectionCache.TopLevelKeepsValid | src/main/java/com/fradantim/graphql2jpa/dao/impl/GraphQLDAOImpl.java:170-177 | a top-level lookup keeps the invariant: cached classes are managed, and the current context was built with every managed class |
| ProjectionCache.Register | src/main/java/com/fradantim/graphql2jpa/dao/impl/GraphQLDAOImpl.java:170-177 | registering a built class writes only the full and shallow keys and appends the class to the managed classes. Only a first entry rebuilds the context, and then from all managed classes |
| ProjectionCache.BuildMinimalClass | src/main/java/com/fradantim/graphql2jpa/dao/impl/GraphQLDAOImpl.java:182-200 | the built class takes a fresh `$copy` name from the counter. Its fields are the kept template fields, one for one, typed by the `appendField` rule. The persistence context is left alone |
| ProjectionCache.AppendFields | src/main/java/com/fradantim/graphql2jpa/dao/impl/GraphQLDAOImpl.java:187-197 | the appended fields are the kept fields in order, each typed by the `appendField` rule against the final cache |
| ProjectionCache.AppendField | src/main/java/com/fradantim/graphql2jpa/dao/impl/GraphQLDAOImpl.java:202-232 | a field that is unselected, or selected without a sub-selection, gets the raw class of its template type (`Field.getType()`, so `Set<X>` becomes `Set`). A field selected with a sub-selection gets the minimal class cached for its element class: a plain field becomes that class, and a collection becomes the same collection of it |
| ProjectionCache.RefreshEntityManager | src/main/java/com/fradantim/graphql2jpa/dao/impl/GraphQLDAOImpl.java:246-264 | the refresh opens context number `counter+1` built from every managed class. When a previous context exists, its close is scheduled with the configured delay. The cache and the managed classes are untouched |
| ProjectionCache.GetEntityManager | src/main/java/com/fradantim/graphql2jpa/dao/impl/GraphQLDAOImpl.java:266-282 | the current context is returned as it is when it is open; otherwise a new one is opened. Either way the answer is open and knows every managed class, the cache, the managed classes and the class counter are unchanged, and earlier contexts are kept |
| ProjectionCache.Close | src/main/java/com/fradantim/graphql2jpa/dao/impl/GraphQLDAOImpl.java:83-86 | closing the DAO closes the current context when there is one and changes nothing else: earlier contexts, the scheduled closes, the cache and the counters stay as they were; with no context it is a no-op |
| ProjectionCache.Find | src/main/java/com/fradantim/graphql2jpa/dao/impl/GraphQLDAOImpl.java:72-80 | the class `find` queries is the one the cache now holds under the request's shallow key, it is known to the open context it queries through, and the invariant holds afterwards |
| FetchTranslator.Alias | src/main/java/com/fradantim/graphql2jpa/utils/GraphQLEntityFetchTranslator.java:40-41 | an alias is its letter followed by the decimal digits of its join's number |
| FetchTranslator.AliasReadsBack | src/main/java/com/fradantim/graphql2jpa/utils/GraphQLEntityFetchTranslator.java:40-41 | the characters after an alias's letter are all digits, and they read back as the join's number |
| FetchTranslator.RenderAll | src/main/java/com/fradantim/graphql2jpa/utils/GraphQLEntityFetchTranslator.java:31 | the clause text is empty exactly when there are no joins |
| FetchTranslator.Walk | src/main/java/com/fradantim/graphql2jpa/utils/GraphQLEntityFetchTranslator.java:26-34 | a letter that has been counted stays counted |
| FetchTranslator.BuildFetch | src/main/java/com/fradantim/graphql2jpa/utils/GraphQLEntityFetchTranslator.java:19-24 | the fetch clause is empty exactly when no immediate field has a sub-selection |
| FetchTranslator.NoComplexNoNodes | src/main/java/com/fradantim/graphql2jpa/utils/GraphQLEntityFetchTranslator.java:28 | a selection has no relation to join at any depth exactly when none of its immediate fields has a sub-selection |
| FetchTranslator.WalkFollowsPreorder | src/main/java/com/fradantim/graphql2jpa/utils/GraphQLEntityFetchTranslator.java:28-33 | there is one join per field with a sub-selection, at any depth, in pre-order, and each join names that field. A top-level field's join hangs off the root alias, and the joins of a field's sub-selection follow its own join and hang off its alias |
| FetchTranslator.WalkNumbering | src/main/java/com/fradantim/graphql2jpa/utils/GraphQLEntityFetchTranslator.java:30-41 | each join's number is one more than the last number its letter got, or 0 for a new letter. The counters afterwards hold each letter's last number |
| FetchTranslator.AliasesDistinct | src/main/java/com/fradantim/graphql2jpa/utils/GraphQLEntityFetchTranslator.java:19-41 | within one `buildFetch`, no two joins share an alias |
| FetchTranslator.FreshCallNumbering | src/main/java/com/fradantim/graphql2jpa/utils/GraphQLEntityFetchTranslator.java:21 | each call starts from an empty counter map: the k-th join with a given letter is numbered k-1 |
| FetchTranslator.AliasLetters | src/main/java/com/fradantim/graphql2jpa/utils/GraphQLEntityFetchTranslator.java:30 | every alias letter is the lower-cased first letter of the joined field's name |
| FetchTranslator.ParentsIntroducedEarlier | src/main/java/com/fradantim/graphql2jpa/utils/GraphQLEntityFetchTranslator.java:31-32 | every join hangs off the root alias or off the alias of an earlier join, so every alias is declared before it is used |
| FetchTranslator.AuthorQuotesJoins | src/main/java/com/fradantim/graphql2jpa/repository/BookRepository.java:35 | for a book with author and quotes selected, `b.author` is joined as `a0` and `b.quotes` as `q0` |
| FetchTranslator.SharedLetterCounts | src/main/java/com/fradantim/graphql2jpa/utils/GraphQLEntityFetchTranslator.java:40-41 | two `country` relations under different parents share the letter `c` and are numbered `c0` and `c1` |
| TypeNames.Store | src/main/java/com/fradantim/graphql2jpa/config/GraphQLConfig.java:293-303 | adding a type writes its own registry at that class and leaves the other two registries alone |
| TypeNames.StoreFreshKeepsUnique | src/main/java/com/fradantim/graphql2jpa/config/GraphQLConfig.java:293-303 | adding a type under an unused name keeps the registered names pairwise distinct |
| TypeNames.StoreKeepsAllNamed | src/main/java/com/fradantim/graphql2jpa/config/GraphQLConfig.java:293-303 | adding a named type keeps every registered type named |
| TypeNames.NextAvailableName | src/main/java/com/fradantim/graphql2jpa/config/GraphQLConfig.java:288-291 | the proposed name is the simple name itself or the simple name followed by `_` |
| TypeNames.UnsharedPrefixIsFree | src/main/java/com/fradantim/graphql2jpa/config/GraphQLConfig.java:263-291 | when no registered name has the prefix, the proposal is the bare simple name, and that name is unused |
| TypeNames.StoreCountsOneMore | src/main/java/com/fradantim/graphql2jpa/config/GraphQLConfig.java:263-274 | registering one more type with the prefix raises the prefix count by one |
| TypeNames.UnsharedPrefixSequence | src/main/java/com/fradantim/graphql2jpa/config/GraphQLConfig.java:288-291 | classes sharing a simple name are named `T`, `T_2`, `T_3` in turn |
| TypeNames.AsWrittenNameClash | src/main/java/com/fradantim/graphql2jpa/config/GraphQLConfig.java:288-291 | with an existing type named `Foo_2`, the proposal for `Foo` is the already used `Foo_2` |
| TypeNames.FreshName | src/main/java/com/fradantim/graphql2jpa/config/GraphQLConfig.java:288-291 | the corrected name is unused and carries the prefix. It equals the source's proposal whenever that proposal is free |
| TypeNames.FreshNameAgreesWhenUnshared | src/main/java/com/fradantim/graphql2jpa/config/GraphQLConfig.java:288-291 | with no name sharing the prefix, the corrected name is the bare simple name, as in the source |
| TypeNames.CorrectedNameAvoidsClash | src/main/java/com/fradantim/graphql2jpa/config/GraphQLConfig.java:288-291 | with an existing `Foo_2`, the corrected name for `Foo` is `Foo_3` |
| SchemaRules.FirstMatch | src/main/java/com/fradantim/graphql2jpa/config/GraphQLConfig.java:139-142 | the first matching table entry is an entry assignable from the class. No answer means no entry is assignable |
| SchemaRules.AtMostOneEntryMatches | src/main/java/com/fradantim/graphql2jpa/config/GraphQLConfig.java:128-137 | no class is assignable to two entries of the scalar table |
| SchemaRules.TableCovers | src/main/java/com/fradantim/graphql2jpa/config/GraphQLConfig.java:128-137 | a class with a scalar has a table entry assignable from it that gives that scalar |
| SchemaRules.TableOrderIrrelevant | src/main/java/com/fradantim/graphql2jpa/config/GraphQLConfig.java:128-142 | scanning the table's entries in any order gives the same scalar, so `Map.of`'s unspecified iteration order does not matter |
| SchemaRules.BestScalar | src/main/java/com/fradantim/graphql2jpa/config/GraphQLConfig.java:144-152 | a class gets a scalar exactly when the table maps it. The scalar is `ID` exactly when the class is mapped and the attribute is `id`, `ids`, ends in `Id` or `Ids`, or carries `@Id`. Otherwise it is the table's scalar |
| SchemaRules.EnumTypeFor | src/main/java/com/fradantim/graphql2jpa/config/GraphQLConfig.java:155-167 | an enum type is built once per class and shared. A new one is named freshly and lists the enum's constants in order. The input and output registries are untouched, with new types named by the corrected naming (see Findings) |
| SchemaRules.StoreNewEnum | src/main/java/com/fradantim/graphql2jpa/config/GraphQLConfig.java:157-163 | registering a new enum type adds exactly that entry, under a name no registered type uses, with new types named by the corrected naming (see Findings) |
| SchemaRules.Resolve | src/main/java/com/fradantim/graphql2jpa/config/GraphQLConfig.java:169-236 | resolving a class never loses or overwrites a registered type. It keeps names distinct, keeps every type named and of its registry's direction, and registers only classes nested in the resolved one. `ID` arises only for a scalar class with an id-naming attribute, with new types named by the corrected naming (see Findings) |
| SchemaRules.BuildType | src/main/java/com/fradantim/graphql2jpa/config/GraphQLConfig.java:182-199 | for a class that is neither an enum nor scalar-mapped, which is the only case resolution reaches this step, a built object or input object type is registered under its class in the registry of its direction, with new types named by the corrected naming (see Findings) |
| SchemaRules.ResolveFields | src/main/java/com/fradantim/graphql2jpa/config/GraphQLConfig.java:182-192 | resolving the declared fields yields one schema field per declared field and keeps the registry facts, with new types named by the corrected naming (see Findings) |
| SchemaRules.ResolvedFieldsFollow | src/main/java/com/fradantim/graphql2jpa/config/GraphQLConfig.java:182-192 | each schema field carries its declared field's name. Over typed registries its type is the type its element class resolves to with the field as attribute, against the registries left behind (which that resolution leaves unchanged), wrapped in a list when the field is a collection. It is a list exactly when the field is a collection, and `ID` only when the field names an id |
| SchemaRules.ListedIf | src/main/java/com/fradantim/graphql2jpa/config/GraphQLConfig.java:184-190 | a collection's type is a list of its element type, and any other field's type is its element type itself |
| SchemaRules.ResolveStable | src/main/java/com/fradantim/graphql2jpa/config/GraphQLConfig.java:169-180 | once a class is resolved, resolving it again against any typed registries grown from the result gives the same type and changes nothing, whether it was registered, an enum, a scalar or newly built |
| SchemaRules.BuiltFieldsFollow | src/main/java/com/fradantim/graphql2jpa/config/GraphQLConfig.java:182-199 | over typed registries, every field of a newly built type has the type its declared field resolves to in the registries left after the type is registered |
| SchemaRules.ResolveHit | src/main/java/com/fradantim/graphql2jpa/config/GraphQLConfig.java:171-173 | a class already registered for the direction is answered from the registry with no change |
| SchemaRules.ResolveEnum | src/main/java/com/fradantim/graphql2jpa/config/GraphQLConfig.java:175-176 | an enum class resolves to its shared enum type, whose values are the enum's constants in order |
| SchemaRules.EnumSharedAcrossDirections | src/main/java/com/fradantim/graphql2jpa/config/GraphQLConfig.java:155-167 | an enum first resolved as output resolves as input to the same type with no change, and the other way round |
| SchemaRules.ResolveScalar | src/main/java/com/fradantim/graphql2jpa/config/GraphQLConfig.java:178-180 | a scalar class registers nothing. It is `ID` exactly when the attribute names an id, and otherwise the table's scalar |
| SchemaRules.NeverIdWithoutScalarOrAttribute | src/main/java/com/fradantim/graphql2jpa/config/GraphQLConfig.java:144-152 | a class without a table scalar, or a lookup without an attribute, is never typed `ID` |
| SchemaRules.ResolveIdempotent | src/main/java/com/fradantim/graphql2jpa/config/GraphQLConfig.java:169-236 | resolving the same class a second time returns the same type and changes nothing |
| SchemaRules.ResolveObject | src/main/java/com/fradantim/graphql2jpa/config/GraphQLConfig.java:182-199 | a new entity class becomes a type of the right direction with one field per declared field, named alike and in order. Its name carries the class's simple name, is unused, and is registered under the class. Over typed registries, each field's type is its element class's resolved type, as a list for a collection field. New types are named by the corrected naming (see Findings) |
| SchemaGeneration.Annotated | src/main/java/com/fradantim/graphql2jpa/config/GraphQLConfig.java:109 | the arguments come from exactly the `@Argument` parameters, in the order the method declares them |
| SchemaGeneration.Arguments | src/main/java/com/fradantim/graphql2jpa/config/GraphQLConfig.java:108-126 | there is one argument per `@Argument` parameter, and the registries keep their facts, with new types named by the corrected naming (see Findings) |
| SchemaGeneration.ArgumentsFollowParams | src/main/java/com/fradantim/graphql2jpa/config/GraphQLConfig.java:108-126 | each argument takes the annotation's name, or the parameter's name when that is blank. Its type is the input type the parameter's element class resolves to against the registries left behind, as a list when the parameter is a collection. It is a list exactly when the parameter is a collection, and `ID` only when the parameter names an id |
| SchemaGeneration.QueryFieldFor | src/main/java/com/fradantim/graphql2jpa/config/GraphQLConfig.java:80-100 | a query field takes the mapping's name, or the method's name when that is blank. Its type is the output type the return type's element class resolves to, as a list exactly when the method returns a collection, and is never `ID`. Its arguments follow the parameters. All of this holds against the registries left behind, with new types named by the corrected naming (see Findings) |
| SchemaGeneration.QueryFields | src/main/java/com/fradantim/graphql2jpa/config/GraphQLConfig.java:76-101 | there is one query field per method, over registries shared by all methods, with new types named by the corrected naming (see Findings) |
| SchemaGeneration.QueryFieldsFollow | src/main/java/com/fradantim/graphql2jpa/config/GraphQLConfig.java:76-101 | the i-th query field follows the i-th method against the final registries: its name, its resolved return type (a list for a collection) and its arguments with their resolved input types |
| SchemaGeneration.GenerateSchema | src/main/java/com/fradantim/graphql2jpa/config/GraphQLConfig.java:69-106 | the generated schema registers types under pairwise distinct names, each in the registry of its kind, and has one query field per method that follows that method against the final registries: the method's name rule, its resolved return type and its resolved argument types. New types are named by the corrected naming (see Findings) |
| Combinations.CombosValid | src/test/java/com/fradantim/graphql2jpa/controller/BookGraphQLControllerTests.java:301-321 | every index tuple has length r and strictly increasing indices within range |
| Combinations.CombosComplete | src/test/java/com/fradantim/graphql2jpa/controller/BookGraphQLControllerTests.java:305-322 | every strictly increasing in-range tuple of length r appears |
| Combinations.CombosAscending | src/test/java/com/fradantim/graphql2jpa/controller/BookGraphQLControllerTests.java:305-322 | the tuples appear in strictly increasing lexicographic order, so none repeats |
| Combinations.CombosCount | src/test/java/com/fradantim/graphql2jpa/controller/BookGraphQLControllerTests.java:305-322 | there are C(n, r) tuples |
| Combinations.PivotFrom | src/test/java/com/fradantim/graphql2jpa/controller/BookGraphQLControllerTests.java:311-314 | the pivot is the last position not yet at its maximum `i+n-r`; every later position is at its maximum |
| Combinations.PivotUnique | src/test/java/com/fradantim/graphql2jpa/controller/BookGraphQLControllerTests.java:311-314 | any position with the pivot's defining property is the pivot |
| Combinations.CombosChain | src/test/java/com/fradantim/graphql2jpa/controller/BookGraphQLControllerTests.java:301-321 | starting from `0..r-1`, the increment-and-reset step visits the reference list of tuples one after another and stops at the last one |
| Combinations.Pick | src/test/java/com/fradantim/graphql2jpa/controller/BookGraphQLControllerTests.java:306-308 | a combination lists the pool elements at the tuple's indices, in order |
| Combinations.PickAll | src/test/java/com/fradantim/graphql2jpa/controller/BookGraphQLControllerTests.java:306-309 | each tuple is turned into its combination, in order |
| Combinations.PickTuple | src/test/java/com/fradantim/graphql2jpa/controller/BookGraphQLControllerTests.java:306-308 | the loop collects exactly the picked elements |
| Combinations.FindPivot | src/test/java/com/fradantim/graphql2jpa/controller/BookGraphQLControllerTests.java:311-314 | the backward scan stops at the pivot, or at -1 when every position is at its maximum |
| Combinations.Advance | src/test/java/com/fradantim/graphql2jpa/controller/BookGraphQLControllerTests.java:319-321 | the increment-and-reset loop yields the next tuple |
| Combinations.Combinations | src/test/java/com/fradantim/graphql2jpa/controller/BookGraphQLControllerTests.java:294-325 | the result is every r-element combination of the pool in lexicographic index order, C(n, r) of them. It is empty when r exceeds n, and a single empty combination when r is 0 |
| Combinations.AllCombinations | src/test/java/com/fradantim/graphql2jpa/controller/BookGraphQLControllerTests.java:328-336 | the result lists the combinations of every size from 0 to n, by size, 2^n of them |
| Combinations.BinomialRowSum | src/test/java/com/fradantim/graphql2jpa/controller/BookGraphQLControllerTests.java:330-333 | the binomial coefficients of a row add up to 2^n |
| Combinations.ThreeLettersExample | src/test/java/com/fradantim/graphql2jpa/controller/BookGraphQLControllerTests.java:327 | [A,B,C] gives [[],[A],[B],[C],[A,B],[A,C],[B,C],[A,B,C]] |
| Fixtures.IdsTestKeptFields | src/test/java/com/fradantim/graphql2jpa/controller/BookGraphQLControllerTests.java:121-143 | selecting name, author, quotes and reviewers of a book keeps exactly id, name, author, quotes and reviewers |
| Fixtures.IdsTestPersonKept | src/test/java/com/fradantim/graphql2jpa/controller/BookGraphQLControllerTests.java:145-146 | a person selected by name keeps id and name |
| Fixtures.IdsTestQuoteKept | src/test/java/com/fradantim/graphql2jpa/controller/BookGraphQLControllerTests.java:148-151 | a quote selected by text keeps id and text |
| Fixtures.AliasedIsbnGetsNameClass | src/main/java/com/fradantim/graphql2jpa/dao/impl/GraphQLDAOImpl.java:72-75 | on a new DAO, `find` with `{a: name}` and then with `{a: isbn}` returns the same Book class both times, with fields id and name only, although the second request selects isbn |
| Fixtures.FirstIdsRequestBuildsBookCopy | src/test/java/com/fradantim/graphql2jpa/controller/BookGraphQLControllerTests.java:121-157 | the first such request on a new DAO builds `Book$copy<n>`, where n is the class counter the DAO starts from (0 in the first DAO of the JVM), with fields id, name, author, quotes and reviewers, known to the context it is read through |
| Fixtures.NameOnlyTokens | src/main/java/com/fradantim/graphql2jpa/dao/impl/GraphQLDAOImpl.java:93-137 | a book selected by name alone has the shallow tokens [name] and the full tokens [id, name]. The two identifiers differ, and this is the case the alias step serves |
| Fixtures.QuoteBookIdIsId | src/main/java/com/fradantim/graphql2jpa/config/GraphQLConfig.java:144-152 | the `Integer bookId` attribute of a quote is typed `ID` |
| Fixtures.QuoteTextIsString | src/main/java/com/fradantim/graphql2jpa/config/GraphQLConfig.java:128-152 | the `String text` attribute of a quote is typed `String` |

## Left out

- Concurrency is not modelled: `synchronized`, `ConcurrentHashMap`, the atomic counters and the scheduler thread. The DAO is sequential. The re-check of the full key under the lock in `getMinimalClass` (GraphQLDAOImpl.java:157-163) is dropped: sequentially it never hits, because the shallow key was just found absent and a different full key was just found absent too.
- The shallow identifier's spelling by result keys is kept as written, including the alias sharing shown by AliasedLeavesShareClass. No corrected key is modelled: stating that a corrected key tells different field sets apart would need a proof that the bracketed spelling can be read back, which this model does not contain.
- Runtime class generation and loading (ByteBuddy) and annotation copying are not modelled. A generated class is modelled by its declaration: a name and a typed field list.
- Hibernate is not modelled: `em.find`, `detach`, the primary key and JPQL execution. A persistence context is the set of class names it was built with. The delayed close is recorded as data (context number and delay), not executed.
- The `evict` flag of `find` only detaches the loaded row, so it does not appear in the model.
- Reflection, classpath scanning for query-mapped methods, `SchemaPrinter` and Spring bean wiring are not modelled. The methods and classes are given as data. The `Query` object type's name and the printed schema text are left out.
- The controllers, the repositories (apart from the alias root `b`), startup seeding, logging and timing are not modelled. `OffsetDateTime.now()` only feeds log lines.
- Java's Unicode `toLowerCase` is modelled on ASCII letters only. Other characters are kept as they are.
- `String.compareTo` compares UTF-16 units. The model compares code points, which differ only for supplementary characters.
- Cyclic class graphs cannot be represented, because a class embeds its declaration. The DAO itself needs no cycle handling: its recursion follows the request's selection tree, which is finite, so it terminates whatever the class graph. Schema generation on a cycle would recurse, and nested generic types would make the source throw.
- Interleaving with other DAOs is not modelled. The class and context counters are static and shared by every DAO of the JVM, so a new DAO takes their current values as parameters, and only its own increments are modelled afterwards.
- Templates that declare a field of a raw collection type are not modelled: the schema rules would throw `ClassCastException` on them. The raw collection class appears only as the type of a generated field.
- The fetch aliases have one counter per first letter, so author and quotes are joined as `a0` and `q0`, not `a0` and `a1`.
- FetchTranslator.BuildFetch: requires every field name to be non-empty. On an empty name, `substring(0, 1)` throws in the source, and GraphQL names are never empty.
- FetchTranslator.ParentsIntroducedEarlier: states only that each parent alias is the root or an earlier alias. Which alias it is, the alias of the join for the field's own parent node, is stated by WalkFollowsPreorder.
- FetchTranslator.Walk: its own contract states only that the counter map never loses a letter. What it emits is stated by WalkFollowsPreorder, WalkNumbering, AliasLetters and ParentsIntroducedEarlier.
- ProjectionCache.Find: requires the DAO invariant (`Valid`), which Init establishes and every DAO operation keeps. The source states no such precondition.
- ProjectionCache.GetMinimalClass: its own contract states what every lookup keeps. The three cases (hit, alias, build) are stated by LookupHit, LookupAlias and LookupMiss.
- SchemaRules.EnumTypeFor: names a new enum type with the corrected TypeNames.FreshName, not with the source's `nextAvailableName`. Its promise of distinct or unused names holds for the corrected program. The two namings agree whenever the source's proposal is unused (the third ensures of FreshName), and differ exactly on inputs like the one under Findings.
- SchemaRules.StoreNewEnum: registers a new enum type under a name with the corrected TypeNames.FreshName, not with the source's `nextAvailableName`. Its promise of distinct or unused names holds for the corrected program. The two namings agree whenever the source's proposal is unused (the third ensures of FreshName), and differ exactly on inputs like the one under Findings.
- SchemaRules.BuildType: names a new object or input object type with the corrected TypeNames.FreshName, not with the source's `nextAvailableName`. Its promise of distinct or unused names holds for the corrected program. The two namings agree whenever the source's proposal is unused (the third ensures of FreshName), and differ exactly on inputs like the one under Findings.
- SchemaRules.Resolve: names every new type it registers with the corrected TypeNames.FreshName, not with the source's `nextAvailableName`. Its promise of distinct or unused names holds for the corrected program. The two namings agree whenever the source's proposal is unused (the third ensures of FreshName), and differ exactly on inputs like the one under Findings.
- SchemaRules.ResolveFields: its own contract states the field count and the registry facts. The field types are stated by ResolvedFieldsFollow, because a contract that resolves again would recurse into the resolution it belongs to.
- SchemaGeneration.Arguments: its own contract states the argument count and the registry facts. The argument names and types are stated by ArgumentsFollowParams.
- SchemaRules.ResolveFields: names the types it registers for the fields with the corrected TypeNames.FreshName, not with the source's `nextAvailableName`. Its promise of distinct or unused names holds for the corrected program. The two namings agree whenever the source's proposal is unused (the third ensures of FreshName), and differ exactly on inputs like the one under Findings.
- SchemaRules.ResolveObject: names a new entity type with the corrected TypeNames.FreshName, not with the source's `nextAvailableName`. Its promise of distinct or unused names holds for the corrected program. The two namings agree whenever the source's proposal is unused (the third ensures of FreshName), and differ exactly on inputs like the one under Findings.
- SchemaGeneration.Arguments: names the types it registers for the arguments with the corrected TypeNames.FreshName, not with the source's `nextAvailableName`. Its promise of distinct or unused names holds for the corrected program. The two namings agree whenever the source's proposal is unused (the third ensures of FreshName), and differ exactly on inputs like the one under Findings.
- SchemaGeneration.QueryFieldFor: names the types it registers for a query field with the corrected TypeNames.FreshName, not with the source's `nextAvailableName`. Its promise of distinct or unused names holds for the corrected program. The two namings agree whenever the source's proposal is unused (the third ensures of FreshName), and differ exactly on inputs like the one under Findings.
- SchemaGeneration.QueryFields: names the types it registers for the query fields with the corrected TypeNames.FreshName, not with the source's `nextAvailableName`. Its promise of distinct or unused names holds for the corrected program. The two namings agree whenever the source's proposal is unused (the third ensures of FreshName), and differ exactly on inputs like the one under Findings.
- SchemaGeneration.GenerateSchema: names every type of the schema with the corrected TypeNames.FreshName, not with the source's `nextAvailableName`. Its promise of distinct or unused names holds for the corrected program. The two namings agree whenever the source's proposal is unused (the third ensures of FreshName), and differ exactly on inputs like the one under Findings.
- TypeNames.NextAvailableName: its contract states only the shape of the name. The clash it can produce is recorded under Findings.
- Combinations.Combinations: r is a `nat`. A negative r makes the Java `new int[r]` throw, and the model does not represent it. The index array is a sequence.
- Repeated `buildFetch` calls on the same selection give the same text, because `BuildFetch` is a function.

## Findings

| source | as written | input that shows it | evidently intended | confidence | as-written member | corrected member |
|---|---|---|---|---|---|---|
| src/main/java/com/fradantim/graphql2jpa/config/GraphQLConfig.java:288-291 | `nextAvailableName(T)` answers `T_(count+1)`, where count is the number of registered names equal to `T` or starting with `T_` | a type named `Foo_2` is registered, for example for a class whose simple name is `Foo_2`; then a class named `Foo` asks for a name and gets `Foo_2`, a name already in use | a name no registered type uses | not executed | TypeNames.AsWrittenNameClash | TypeNames.FreshName |

=== FILE: combinations.dfy ===
/**
 The two `combinations` helpers of the controller tests, in the manner of
 Python's `itertools.combinations`.

 `Combinations(pool, r)` walks an index array through the r-element index
 tuples in lexicographic order: it emits the current tuple's elements, finds
 the last position that has not reached its largest possible value, bumps
 it and resets every later position to the smallest increasing run.
 `AllCombinations(pool)` concatenates the sizes 0, 1, ..., |pool|.

 The reference is `CombosFrom`, the Pascal-rule list of increasing index
 tuples; the method is proved to produce exactly its picks.
 */
module Combinations {

  /* ---------------------------------------------------------------------
     Index tuples
     --------------------------------------------------------------------- */

  /** lo, lo + 1, ..., lo + len - 1. */
  function Range(lo: int, len: nat): (r: seq<int>)
    decreases len
    ensures |r| == len
    ensures forall j :: 0 <= j < len ==> r[j] == lo + j
  {
    if len == 0 then [] else [lo] + Range(lo + 1, len - 1)
  }

  /** Strictly increasing indices, all in [lo, n). */
  predicate IncreasingIn(t: seq<int>, lo: int, n: int)
  {
    && (forall j :: 0 <= j < |t| ==> lo <= t[j] < n)
    && (forall a, b :: 0 <= a < b < |t| ==> t[a] < t[b])
  }

  /** Lexicographic order on index tuples (Dafny's `<` on sequences is the
      proper-prefix order, so it is spelled out). */
  predicate LexLess(a: seq<int>, b: seq<int>)
  {
    a != [] && b != [] && (a[0] < b[0] || (a[0] == b[0] && LexLess(a[1..], b[1..])))
  }

  ghost predicate StrictlyAscending(L: seq<seq<int>>)
  {
    forall a, b :: 0 <= a < b < |L| ==> LexLess(L[a], L[b])
  }

  function Prepend(x: int, L: seq<seq<int>>): (r: seq<seq<int>>)
    ensures |r| == |L|
    ensures forall j :: 0 <= j < |L| ==> r[j] == [x] + L[j]
  {
    seq(|L|, j requires 0 <= j < |L| => [x] + L[j])
  }

  /** The r-element increasing index tuples over [lo, n), in lexicographic
      order, by Pascal's rule: those starting with `lo`, then the others. */
  function CombosFrom(lo: int, n: int, r: nat): seq<seq<int>>
    decreases r, n - lo
  {
    if r == 0 then [[]]
    else if lo + r > n then []
    else Prepend(lo, CombosFrom(lo + 1, n, r - 1)) + CombosFrom(lo + 1, n, r)
  }

  /** Binomial coefficient, by Pascal's rule. */
  function Binomial(m: nat, r: nat): nat
  {
    if r == 0 then 1
    else if m == 0 then 0
    else Binomial(m - 1, r - 1) + Binomial(m - 1, r)
  }

  function Pow2(m: nat): nat
  {
    if m == 0 then 1 else 2 * Pow2(m - 1)
  }

  /* ---------------------------------------------------------------------
     The reference list: contents, order, size
     --------------------------------------------------------------------- */

  /** An increasing tuple over [lo, n) needs room: lo + |t| <= n. */
  lemma {:induction false} IncreasingNeedsRoom(t: seq<int>, lo: int, n: int)
    requires IncreasingIn(t, lo, n)
    ensures t != [] ==> lo + |t| <= n
    decreases |t|
  {
    if t != [] {
      assert lo <= t[0] < n;
      if |t| > 1 {
        assert forall j :: 0 <= j < |t| - 1 ==> t[1..][j] == t[j + 1] && t[0] < t[j + 1];
        assert IncreasingIn(t[1..], t[0] + 1, n);
        IncreasingNeedsRoom(t[1..], t[0] + 1, n);
      }
    }
  }

  /** Every listed tuple has r increasing indices in [lo, n). */
  lemma {:induction false} CombosValid(lo: int, n: int, r: nat)
    ensures forall t :: t in CombosFrom(lo, n, r) ==> |t| == r && IncreasingIn(t, lo, n)
    decreases r, n - lo
  {
    if r > 0 && lo + r <= n {
      CombosValid(lo + 1, n, r - 1);
      CombosValid(lo + 1, n, r);
      PrependIncreasing(lo, CombosFrom(lo + 1, n, r - 1), n, r);
      WidenIncreasing(CombosFrom(lo + 1, n, r), lo, n, r);
    }
  }

  /** `lo` before increasing (r - 1)-tuples over [lo + 1, n) gives
      increasing r-tuples over [lo, n). */
  lemma PrependIncreasing(lo: int, A: seq<seq<int>>, n: int, r: nat)
    requires 0 < r && lo < n
    requires forall t :: t in A ==> |t| == r - 1 && IncreasingIn(t, lo + 1, n)
    ensures forall t :: t in Prepend(lo, A) ==> |t| == r && IncreasingIn(t, lo, n)
  {
    forall t | t in Prepend(lo, A)
      ensures |t| == r && IncreasingIn(t, lo, n)
    {
      var j :| 0 <= j < |A| && t == [lo] + A[j];
      assert A[j] in A;
    }
  }

  lemma WidenIncreasing(B: seq<seq<int>>, lo: int, n: int, r: nat)
    requires forall t :: t in B ==> |t| == r && IncreasingIn(t, lo + 1, n)
    ensures forall t :: t in B ==> |t| == r && IncreasingIn(t, lo, n)
  {
  }

  /** Every increasing r-tuple over [lo, n) is listed. */
  lemma {:induction false} CombosComplete(lo: int, n: int, r: nat, t: seq<int>)
    requires |t| == r && IncreasingIn(t, lo, n)
    ensures t in CombosFrom(lo, n, r)
    decreases r, n - lo
  {
    if r > 0 {
      IncreasingNeedsRoom(t, lo, n);
      var A := CombosFrom(lo + 1, n, r - 1);
      if t[0] == lo {
        assert IncreasingIn(t[1..], lo + 1, n);
        CombosComplete(lo + 1, n, r - 1, t[1..]);
        var j :| 0 <= j < |A| && A[j] == t[1..];
        assert Prepend(lo, A)[j] == t;
      } else {
        CombosComplete(lo + 1, n, r, t);
      }
    }
  }

  lemma PrependKeepsOrder(x: int, u: seq<int>, v: seq<int>)
    requires LexLess(u, v)
    ensures LexLess([x] + u, [x] + v)
  {
    assert ([x] + u)[1..] == u && ([x] + v)[1..] == v;
  }

  /** The list is strictly ascending: each tuple appears once, in
      lexicographic order. */
  lemma {:induction false} CombosAscending(lo: int, n: int, r: nat)
    ensures StrictlyAscending(CombosFrom(lo, n, r))
    decreases r, n - lo
  {
    if r > 0 && lo + r <= n {
      CombosAscending(lo + 1, n, r - 1);
      CombosAscending(lo + 1, n, r);
      CombosValid(lo + 1, n, r);
      var A := CombosFrom(lo + 1, n, r - 1);
      var B := CombosFrom(lo + 1, n, r);
      var P := Prepend(lo, A);
      var L := P + B;
      forall a, b | 0 <= a < b < |L|
        ensures LexLess(L[a], L[b])
      {
        if b < |P| {
          PrependKeepsOrder(lo, A[a], A[b]);
        } else if a >= |P| {
          assert L[a] == B[a - |P|] && L[b] == B[b - |P|];
        } else {
          assert B[b - |P|] in B;
          assert L[a][0] == lo && L[b] == B[b - |P|];
        }
      }
    }
  }

  lemma {:induction false} BinomialTooLarge(m: nat, r: nat)
    requires m < r
    ensures Binomial(m, r) == 0
  {
    if m > 0 {
      BinomialTooLarge(m - 1, r - 1);
      BinomialTooLarge(m - 1, r);
    }
  }

  /** The list has C(n - lo, r) entries. */
  lemma {:induction false} CombosCount(lo: int, n: int, r: nat)
    requires lo <= n
    ensures |CombosFrom(lo, n, r)| == Binomial(n - lo, r)
    decreases r, n - lo
  {
    if r > 0 {
      if lo + r > n {
        BinomialTooLarge(n - lo, r);
      } else {
        CombosCount(lo + 1, n, r - 1);
        CombosCount(lo + 1, n, r);
      }
    }
  }

  /* ---------------------------------------------------------------------
     The successor step of the index array
     --------------------------------------------------------------------- */

  /** The pivot search, scanning down from position `from`: the last
      position up to `from` that is still below its largest possible value
      `i + n - |t|`, or -1 when every such position is at its maximum. */
  function PivotFrom(t: seq<int>, n: int, from: int): (p: int)
    requires -1 <= from < |t|
    decreases from + 1
    ensures -1 <= p <= from
    ensures p >= 0 ==> t[p] != p + n - |t|
    ensures forall j :: p < j <= from ==> t[j] == j + n - |t|
  {
    if from < 0 then -1
    else if t[from] != from + n - |t| then from
    else PivotFrom(t, n, from - 1)
  }

  function Pivot(t: seq<int>, n: int): int
  {
    PivotFrom(t, n, |t| - 1)
  }

  /** The pivot is the only position with its two properties. */
  lemma PivotUnique(t: seq<int>, n: int, q: int)
    requires -1 <= q < |t|
    requires q >= 0 ==> t[q] != q + n - |t|
    requires forall j :: q < j < |t| ==> t[j] == j + n - |t|
    ensures Pivot(t, n) == q
  {
  }

  /** The successor of a tuple: the pivot position goes up by one and every
      later position is reset to one more than the position before it. */
  function Step(t: seq<int>, n: int): (s: seq<int>)
    requires Pivot(t, n) >= 0
    ensures |s| == |t|
  {
    var p := Pivot(t, n);
    t[..p] + Range(t[p] + 1, |t| - p)
  }

  /** A walk through `L`: each tuple but the last has a pivot and steps to
      the next; the last has none. */
  ghost predicate Chain(L: seq<seq<int>>, n: int)
  {
    && L != []
    && Steps(L, n)
    && Pivot(L[|L| - 1], n) == -1
  }

  /** Each tuple but the last has a pivot and steps to the next one. */
  ghost predicate Steps(L: seq<seq<int>>, n: int)
  {
    forall j :: 0 <= j < |L| - 1 ==> StepsTo(L[j], L[j + 1], n)
  }

  /** `t` has a pivot and steps to `u`. */
  predicate StepsTo(t: seq<int>, u: seq<int>, n: int)
  {
    Pivot(t, n) >= 0 && Step(t, n) == u
  }

  lemma PivotPrepend(x: int, t: seq<int>, n: int)
    ensures Pivot(t, n) >= 0 ==> Pivot([x] + t, n) == Pivot(t, n) + 1
    ensures Pivot(t, n) < 0 && x != n - |t| - 1 ==> Pivot([x] + t, n) == 0
    ensures Pivot(t, n) < 0 && x == n - |t| - 1 ==> Pivot([x] + t, n) == -1
  {
    var s := [x] + t;
    var p := Pivot(t, n);
    assert forall j :: 0 <= j < |t| ==> s[j + 1] == t[j];
    if p >= 0 {
      PivotUnique(s, n, p + 1);
    } else if x != n - |t| - 1 {
      PivotUnique(s, n, 0);
    } else {
      PivotUnique(s, n, -1);
    }
  }

  lemma StepPrepend(x: int, t: seq<int>, n: int)
    requires Pivot(t, n) >= 0
    ensures Pivot([x] + t, n) >= 0 && Step([x] + t, n) == [x] + Step(t, n)
  {
    PivotPrepend(x, t, n);
    var p := Pivot(t, n);
    var s := [x] + t;
    assert s[..p + 1] == [x] + t[..p];
  }

  /** The largest tuple of length r: every position at its maximum. */
  lemma TopHasNoPivot(n: int, r: nat)
    ensures Pivot(Range(n - r, r), n) == -1
  {
    PivotUnique(Range(n - r, r), n, -1);
  }

  lemma ChainPrepend(x: int, L: seq<seq<int>>, n: int)
    requires Chain(L, n)
    ensures Steps(Prepend(x, L), n)
  {
    var P := Prepend(x, L);
    forall j | 0 <= j < |P| - 1
      ensures StepsTo(P[j], P[j + 1], n)
    {
      assert StepsTo(L[j], L[j + 1], n);
      StepPrepend(x, L[j], n);
    }
  }

  lemma ChainAppend(X: seq<seq<int>>, Y: seq<seq<int>>, n: int)
    requires X != [] && Y != []
    requires Steps(X, n)
    requires Pivot(X[|X| - 1], n) >= 0 && Step(X[|X| - 1], n) == Y[0]
    requires Chain(Y, n)
    ensures Chain(X + Y, n)
  {
    var L := X + Y;
    forall j | 0 <= j < |L| - 1
      ensures StepsTo(L[j], L[j + 1], n)
    {
      if j >= |X| {
        assert L[j] == Y[j - |X|] && L[j + 1] == Y[j + 1 - |X|];
        assert StepsTo(Y[j - |X|], Y[j - |X| + 1], n);
      } else if j + 1 < |X| {
        assert StepsTo(X[j], X[j + 1], n);
      }
    }
  }

  /** After the last tuple that starts with `lo` comes the first tuple that
      starts with `lo + 1`. */
  lemma BoundaryStep(lo: int, n: int, r: nat)
    requires 0 < r && lo + r < n
    ensures Pivot([lo] + Range(n - (r - 1), r - 1), n) == 0
    ensures Step([lo] + Range(n - (r - 1), r - 1), n) == Range(lo + 1, r)
  {
    TopHasNoPivot(n, r - 1);
    PivotPrepend(lo, Range(n - (r - 1), r - 1), n);
  }

  /** The largest tuple is `n - r` followed by the largest shorter one. */
  lemma TopPrepend(n: int, r: nat)
    requires 0 < r
    ensures [n - r] + Range(n - (r - 1), r - 1) == Range(n - r, r)
  {
  }

  /** What `CombosChain` states of one list. */
  ghost predicate WalkFromTo(L: seq<seq<int>>, n: int, first: seq<int>, last: seq<int>)
  {
    Chain(L, n) && L[0] == first && L[|L| - 1] == last
  }

  /** The reference list of length-r tuples from `lo` is one walk, from
      the least tuple to the largest. */
  ghost predicate WalksFrom(lo: int, n: int, r: nat)
  {
    WalkFromTo(CombosFrom(lo, n, r), n, Range(lo, r), Range(n - r, r))
  }

  /** The steps through the tuples that start with `lo`, from the least to
      `lo` followed by the largest shorter tuple. */
  ghost predicate LoWalk(P: seq<seq<int>>, n: int, lo: int, r: nat)
    requires 0 < r
  {
    P != [] && Steps(P, n) && P[0] == Range(lo, r) && P[|P| - 1] == [lo] + Range(n - (r - 1), r - 1)
  }

  /** The tuples starting with `lo`: `lo` before each tuple of the shorter
      walk. */
  lemma PrependWalk(lo: int, n: int, r: nat)
    requires 0 < r && lo + r <= n
    requires WalksFrom(lo + 1, n, r - 1)
    ensures LoWalk(Prepend(lo, CombosFrom(lo + 1, n, r - 1)), n, lo, r)
  {
    ChainPrepend(lo, CombosFrom(lo + 1, n, r - 1), n);
  }

  /** Starting from `Range(lo, r)` and stepping until no pivot is left walks
      exactly the reference list, ending at the largest tuple. */
  lemma {:induction false} CombosChain(lo: int, n: int, r: nat)
    requires lo + r <= n
    ensures WalksFrom(lo, n, r)
    decreases r, n - lo, 1
  {
    if r == 0 {
      PivotUnique([], n, -1);
    } else {
      ChainRec(lo, n, r);
    }
  }

  /** The case r > 0 of `CombosChain`, by Pascal's rule. */
  lemma {:induction false} ChainRec(lo: int, n: int, r: nat)
    requires 0 < r && lo + r <= n
    ensures WalksFrom(lo, n, r)
    decreases r, n - lo, 0
  {
    CombosChain(lo + 1, n, r - 1);
    if lo + r < n {
      CombosChain(lo + 1, n, r);
      ChainGrow(lo, n, r);
    } else {
      ChainGrow(lo, n, r);
    }
  }

  /** One step of `CombosChain`: the walk of length-r tuples from `lo` is
      built from the shorter walk from `lo + 1` and, when there is room, the
      walk of length-r tuples from `lo + 1`. */
  lemma ChainGrow(lo: int, n: int, r: nat)
    requires 0 < r && lo + r <= n
    requires WalksFrom(lo + 1, n, r - 1)
    requires lo + r < n ==> WalksFrom(lo + 1, n, r)
    ensures WalksFrom(lo, n, r)
  {
    PrependWalk(lo, n, r);
    if lo + r < n {
      JoinWalks(lo, n, r);
    } else {
      TopWalk(lo, n, r);
    }
  }

  lemma JoinWalks(lo: int, n: int, r: nat)
    requires 0 < r && lo + r < n
    requires LoWalk(Prepend(lo, CombosFrom(lo + 1, n, r - 1)), n, lo, r)
    requires WalksFrom(lo + 1, n, r)
    ensures WalksFrom(lo, n, r)
  {
    var P := Prepend(lo, CombosFrom(lo + 1, n, r - 1));
    var B := CombosFrom(lo + 1, n, r);
    assert CombosFrom(lo, n, r) == P + B;
    JoinLists(P, B, lo, n, r);
  }

  /** The walk through the tuples starting with `lo`, then the walk from
      `Range(lo + 1, r)`, is one walk. */
  lemma JoinLists(P: seq<seq<int>>, B: seq<seq<int>>, lo: int, n: int, r: nat)
    requires 0 < r && lo + r < n
    requires LoWalk(P, n, lo, r)
    requires WalkFromTo(B, n, Range(lo + 1, r), Range(n - r, r))
    ensures WalkFromTo(P + B, n, Range(lo, r), Range(n - r, r))
  {
    BoundaryStep(lo, n, r);
    ChainAppend(P, B, n);
    var L := P + B;
    assert L[|L| - 1] == B[|B| - 1];
  }

  lemma TopWalk(lo: int, n: int, r: nat)
    requires 0 < r && lo + r == n
    requires LoWalk(Prepend(lo, CombosFrom(lo + 1, n, r - 1)), n, lo, r)
    ensures WalksFrom(lo, n, r)
  {
    var P := Prepend(lo, CombosFrom(lo + 1, n, r - 1));
    assert CombosFrom(lo, n, r) == P;
    TopPrepend(n, r);
    assert P[|P| - 1] == Range(n - r, r);
    TopHasNoPivot(n, r);
  }

  /* ---------------------------------------------------------------------
     Picking pool elements
     --------------------------------------------------------------------- */

  predicate IndicesIn(t: seq<int>, n: int)
  {
    forall j :: 0 <= j < |t| ==> 0 <= t[j] < n
  }

  /** The pool elements the index tuple names, in the tuple's order. */
  function Pick<T>(pool: seq<T>, t: seq<int>): (c: seq<T>)
    requires IndicesIn(t, |pool|)
    ensures |c| == |t| && forall j :: 0 <= j < |t| ==> c[j] == pool[t[j]]
  {
    seq(|t|, j requires 0 <= j < |t| => pool[t[j]])
  }

  function PickAll<T>(pool: seq<T>, L: seq<seq<int>>): (cs: seq<seq<T>>)
    requires forall t :: t in L ==> IndicesIn(t, |pool|)
    ensures |cs| == |L| && forall j :: 0 <= j < |L| ==> cs[j] == Pick(pool, L[j])
  {
    seq(|L|, j requires 0 <= j < |L| => Pick(pool, L[j]))
  }

  /** The index tuples `combinations(pool, r)` walks through. */
  function IndexTuples(n: nat, r: nat): (L: seq<seq<int>>)
    ensures forall t :: t in L ==> IndicesIn(t, n)
  {
    CombosValid(0, n, r);
    CombosFrom(0, n, r)
  }

  /* ---------------------------------------------------------------------
     combinations(iterable, r) and combinations(ogList)
     --------------------------------------------------------------------- */

  /** Along a walk, a tuple without a pivot is the last one, and a tuple
      with one steps to its successor. */
  lemma WalkNext(L: seq<seq<int>>, n: int, k: nat)
    requires Chain(L, n) && k < |L|
    ensures Pivot(L[k], n) < 0 ==> k == |L| - 1
    ensures Pivot(L[k], n) >= 0 ==> k + 1 < |L| && Step(L[k], n) == L[k + 1]
  {
    if k < |L| - 1 {
      assert StepsTo(L[k], L[k + 1], n);
    }
  }

  lemma PickAllSnoc<T>(pool: seq<T>, L: seq<seq<int>>, k: nat)
    requires k < |L| && forall t :: t in L ==> IndicesIn(t, |pool|)
    ensures PickAll(pool, L[..k + 1]) == PickAll(pool, L[..k]) + [Pick(pool, L[k])]
  {
    assert L[..k + 1] == L[..k] + [L[k]];
  }

  /** Collects the pool element at each index of the tuple, left to right. */
  method PickTuple<T>(pool: seq<T>, indices: seq<int>) returns (combination: seq<T>)
    requires IndicesIn(indices, |pool|)
    ensures combination == Pick(pool, indices)
  {
    combination := [];
    var j := 0;
    while j < |indices|
      invariant 0 <= j <= |indices|
      invariant combination == Pick(pool, indices[..j])
    {
      combination := combination + [pool[indices[j]]];
      j := j + 1;
    }
    assert indices[..j] == indices;
  }

  /** Scans from the last position down to the first and stops at the first
      position found below its largest possible value. */
  method FindPivot(indices: seq<int>, n: int) returns (p: int)
    ensures p == Pivot(indices, n)
  {
    p := |indices| - 1;
    while p >= 0 && indices[p] == p + n - |indices|
      invariant -1 <= p < |indices|
      invariant PivotFrom(indices, n, p) == Pivot(indices, n)
    {
      p := p - 1;
    }
  }

  /** Raises the pivot position by one, then sets each later position to one
      more than the position before it. */
  method Advance(indices: seq<int>, n: int, p: int) returns (next: seq<int>)
    requires 0 <= p && p == Pivot(indices, n)
    ensures next == Step(indices, n)
  {
    next := indices[p := indices[p] + 1];
    var q := p + 1;
    while q < |indices|
      invariant p + 1 <= q <= |indices| == |next|
      invariant next == indices[..p] + Range(indices[p] + 1, q - p) + indices[q..]
    {
      next := next[q := next[q - 1] + 1];
      q := q + 1;
    }
  }

  /** combinations(pool, r): the picks of every increasing r-tuple of pool
      positions, in lexicographic order of the tuples; C(|pool|, r) lists in
      all, none when r > |pool|, one empty list when r = 0. */
  method Combinations<T>(pool: seq<T>, r: nat) returns (result: seq<seq<T>>)
    ensures result == PickAll(pool, IndexTuples(|pool|, r))
    ensures |result| == Binomial(|pool|, r)
    ensures r > |pool| ==> result == []
    ensures r == 0 ==> result == [[]]
  {
    var n := |pool|;
    CombosCount(0, n, r);
    if r > n {
      return [];
    }
    var indices := Range(0, r);
    ghost var L := IndexTuples(n, r);
    CombosChain(0, n, r);
    ghost var k := 0;
    result := [];
    while true
      invariant 0 <= k < |L|
      invariant indices == L[k]
      invariant result == PickAll(pool, L[..k])
      decreases |L| - k
    {
      assert L[k] in L;
      var combination := PickTuple(pool, indices);
      PickAllSnoc(pool, L, k);
      result := result + [combination];
      var p := FindPivot(indices, n);
      WalkNext(L, n, k);
      if p < 0 {
        assert L[..k + 1] == L;
        break;
      }
      indices := Advance(indices, n, p);
      k := k + 1;
    }
  }

  /** combinations(ogList): sizes 0, 1, ..., |pool| in turn. */
  function AllCombos<T>(pool: seq<T>, upTo: nat): (cs: seq<seq<T>>)
  {
    if upTo == 0 then []
    else AllCombos(pool, upTo - 1) + PickAll(pool, IndexTuples(|pool|, upTo - 1))
  }

  /** combinations(ogList): all sub-lists, by increasing size, 2^|pool| in
      all. */
  method AllCombinations<T>(pool: seq<T>) returns (result: seq<seq<T>>)
    ensures result == AllCombos(pool, |pool| + 1)
    ensures |result| == Pow2(|pool|)
  {
    result := [];
    var i := 0;
    while i < |pool| + 1
      invariant 0 <= i <= |pool| + 1
      invariant result == AllCombos(pool, i)
    {
      var sized := Combinations(pool, i);
      result := result + sized;
      i := i + 1;
    }
    AllCombosCount(pool, |pool| + 1);
    BinomialRowSum(|pool|);
  }

  /* ---------------------------------------------------------------------
     Counting all sizes
     --------------------------------------------------------------------- */

  /** C(m, 0) + ... + C(m, k - 1). */
  function RowSum(m: nat, k: nat): nat
  {
    if k == 0 then 0 else RowSum(m, k - 1) + Binomial(m, k - 1)
  }

  lemma {:induction false} AllCombosCount<T>(pool: seq<T>, upTo: nat)
    ensures |AllCombos(pool, upTo)| == RowSum(|pool|, upTo)
  {
    if upTo > 0 {
      AllCombosCount(pool, upTo - 1);
      CombosCount(0, |pool|, upTo - 1);
    }
  }

  /** Pascal's rule summed along a row. */
  lemma {:induction false} RowSumStep(m: nat, k: nat)
    ensures RowSum(m + 1, k + 1) == RowSum(m, k) + RowSum(m, k + 1)
  {
    if k > 0 {
      RowSumStep(m, k - 1);
    }
  }

  /** The binomials of row m add up to 2^m. */
  lemma {:induction false} BinomialRowSum(m: nat)
    ensures RowSum(m, m + 1) == Pow2(m)
  {
    if m > 0 {
      BinomialRowSum(m - 1);
      RowSumStep(m - 1, m);
      BinomialTooLarge(m - 1, m);
    }
  }

  lemma PrependExample(x: int, L: seq<seq<int>>, R: seq<seq<int>>)
    requires |R| == |L| && forall j :: 0 <= j < |L| ==> R[j] == [x] + L[j]
    ensures Prepend(x, L) == R
  {
  }

  /** The index tuples over three positions, size by size. */
  lemma TuplesOverThree()
    ensures IndexTuples(3, 0) == [[]]
    ensures IndexTuples(3, 1) == [[0], [1], [2]]
    ensures IndexTuples(3, 2) == [[0, 1], [0, 2], [1, 2]]
    ensures IndexTuples(3, 3) == [[0, 1, 2]]
  {
    PrependExample(2, [[]], [[2]]);
    assert CombosFrom(2, 3, 1) == [[2]];
    PrependExample(1, [[]], [[1]]);
    assert CombosFrom(1, 3, 1) == [[1], [2]];
    PrependExample(0, [[]], [[0]]);
    PrependExample(1, [[2]], [[1, 2]]);
    assert CombosFrom(1, 3, 2) == [[1, 2]];
    PrependExample(0, [[1], [2]], [[0, 1], [0, 2]]);
    PrependExample(0, [[1, 2]], [[0, 1, 2]]);
  }

  const Letters: seq<char> := ['A', 'B', 'C']

  lemma LettersBySize()
    ensures PickAll(Letters, IndexTuples(3, 0)) == [[]]
    ensures PickAll(Letters, IndexTuples(3, 1)) == [['A'], ['B'], ['C']]
    ensures PickAll(Letters, IndexTuples(3, 2)) == [['A', 'B'], ['A', 'C'], ['B', 'C']]
    ensures PickAll(Letters, IndexTuples(3, 3)) == [['A', 'B', 'C']]
  {
    TuplesOverThree();
    LettersPickOne();
    LettersPickTwo();
    assert Pick(Letters, [0, 1, 2]) == ['A', 'B', 'C'];
  }

  lemma LettersPickOne()
    ensures PickAll(Letters, [[0], [1], [2]]) == [['A'], ['B'], ['C']]
  {
    assert Pick(Letters, [0]) == ['A'] && Pick(Letters, [1]) == ['B'] && Pick(Letters, [2]) == ['C'];
  }

  lemma LettersPickTwo()
    ensures PickAll(Letters, [[0, 1], [0, 2], [1, 2]]) == [['A', 'B'], ['A', 'C'], ['B', 'C']]
  {
    assert Pick(Letters, [0, 1]) == ['A', 'B'] && Pick(Letters, [0, 2]) == ['A', 'C'] && Pick(Letters, [1, 2]) == ['B', 'C'];
  }

  /** The documented example: [A, B, C] gives
      [[], [A], [B], [C], [A, B], [A, C], [B, C], [A, B, C]]. */
  lemma ThreeLettersExample()
    ensures AllCombos(Letters, 4) ==
      [[], ['A'], ['B'], ['C'], ['A', 'B'], ['A', 'C'], ['B', 'C'], ['A', 'B', 'C']]
  {
    LettersBySize();
    assert AllCombos(Letters, 1) == [[]];
    assert AllCombos(Letters, 2) == [[], ['A'], ['B'], ['C']];
    assert AllCombos(Letters, 3) == [[], ['A'], ['B'], ['C'], ['A', 'B'], ['A', 'C'], ['B', 'C']];
  }
}

=== FILE: fetch.dfy ===
/**
 GraphQLEntityFetchTranslator: turns a selection tree into the JPQL
 `left join fetch` clauses that load every selected relation in one query.

 Every selected field that has a sub-selection is joined from its parent's
 alias under a fresh alias made of the lower-cased first letter of the field
 name and a per-letter counter; its own sub-selection is then joined from
 that alias. One counter map serves the whole tree.
 */
module FetchTranslator {

  import opened Strings
  import opened Selection

  /** One emitted clause: `parent.field` joined under alias `prefix` + `num`. */
  datatype FetchJoin = FetchJoin(parent: string, field: string, prefix: char, num: nat)

  /** getNextAlias: the letter followed by the decimal number. */
  function Alias(j: FetchJoin): (a: string)
    ensures |a| >= 2 && a[0] == j.prefix
  {
    [j.prefix] + NatToString(j.num)
  }

  /** An alias is its letter followed by decimal digits that read back as
      the join's number. */
  lemma AliasReadsBack(j: FetchJoin)
    ensures var a := Alias(j);
      && a[0] == j.prefix
      && (forall i :: 1 <= i < |a| ==> IsDigit(a[i]))
      && ParseNat(a[1..]) == j.num
  {
    var digits := NatToString(j.num);
    ParseNatToString(j.num);
    assert Alias(j)[1..] == digits;
  }

  function Render(j: FetchJoin): string
  {
    " left join fetch " + j.parent + "." + j.field + " " + Alias(j)
  }

  function RenderAll(js: seq<FetchJoin>): (r: string)
    ensures r == [] <==> js == []
  {
    if js == [] then "" else Render(js[0]) + RenderAll(js[1..])
  }

  /** The alias counter: for each first letter, the number it handed out
      last. A letter that was never used is absent. */
  type Counters = map<char, nat>

  /** The number the counter hands out next for `p` (getNextAlias). */
  function NextNum(counters: Counters, p: char): nat
  {
    if p in counters then counters[p] + 1 else 0
  }

  /** isComplexObject: the field has immediate sub-fields of its own. */
  predicate IsComplexObject(f: SelField)
  {
    f.sub != []
  }

  /** Every field name in the tree is non-empty (a GraphQL name always is);
      the translator takes the first character of the names it joins. */
  predicate AllNamed(sel: seq<SelField>)
    decreases SizeOf(sel)
  {
    sel != [] ==> sel[0].name != [] && AllNamed(sel[0].sub) && AllNamed(sel[1..])
  }

  datatype Walked = Walked(joins: seq<FetchJoin>, counters: Counters)

  /** The private recursive buildFetch: the joins for `sel` under `parent`,
      and the counter map afterwards. */
  function Walk(parent: string, sel: seq<SelField>, counters: Counters): (w: Walked)
    requires AllNamed(sel)
    decreases SizeOf(sel)
    ensures forall p :: p in counters ==> p in w.counters
  {
    if sel == [] then Walked([], counters)
    else if IsComplexObject(sel[0]) then
      var p := ToLowerAscii(sel[0].name[0]);
      var n := NextNum(counters, p);
      var j := FetchJoin(parent, sel[0].name, p, n);
      var inner := Walk(Alias(j), sel[0].sub, counters[p := n]);
      var rest := Walk(parent, sel[1..], inner.counters);
      Walked([j] + inner.joins + rest.joins, rest.counters)
    else
      Walk(parent, sel[1..], counters)
  }

  /** The public buildFetch: a fresh counter map per call. */
  function BuildFetch(parentAlias: string, sel: seq<SelField>): (r: string)
    requires AllNamed(sel)
    ensures r == [] <==> forall i :: 0 <= i < |sel| ==> !IsComplexObject(sel[i])
  {
    WalkFollowsPreorder(parentAlias, sel, map[]);
    NoComplexNoNodes(sel);
    RenderAll(Walk(parentAlias, sel, map[]).joins)
  }

  /* ---------------------------------------------------------------------
     Which joins, in which order
     --------------------------------------------------------------------- */

  /** Independent description of the joined fields: the non-leaf nodes of
      the tree in depth-first pre-order, the root itself excluded. */
  function NonLeafNodes(sel: seq<SelField>): seq<SelField>
    decreases SizeOf(sel)
  {
    if sel == [] then []
    else (if sel[0].sub != [] then [sel[0]] + NonLeafNodes(sel[0].sub) else []) + NonLeafNodes(sel[1..])
  }

  lemma NoComplexNoNodes(sel: seq<SelField>)
    ensures NonLeafNodes(sel) == [] <==> forall i :: 0 <= i < |sel| ==> !IsComplexObject(sel[i])
    decreases SizeOf(sel)
  {
    if sel != [] {
      NoComplexNoNodes(sel[1..]);
      if sel[0].sub == [] {
        assert forall i :: 1 <= i < |sel| ==> sel[i] == sel[1..][i - 1];
      }
    }
  }

  /** The joins follow the non-leaf nodes one to one, in pre-order, each
      naming its field by the field name (never the result key). */
  predicate JoinsFollow(js: seq<FetchJoin>, nodes: seq<SelField>)
  {
    |js| == |nodes| && forall i :: 0 <= i < |js| ==> js[i].field == nodes[i].name
  }

  lemma FollowConcat(j: FetchJoin, x: SelField, A: seq<FetchJoin>, C: seq<SelField>, B: seq<FetchJoin>, D: seq<SelField>)
    requires j.field == x.name && JoinsFollow(A, C) && JoinsFollow(B, D)
    ensures JoinsFollow([j] + A + B, [x] + C + D)
  {
    var js, ns := [j] + A + B, [x] + C + D;
    forall i | 0 <= i < |js| ensures js[i].field == ns[i].name {
      if 1 <= i <= |A| {
        assert js[i] == A[i - 1] && ns[i] == C[i - 1];
      } else if i > |A| {
        assert js[i] == B[i - 1 - |A|] && ns[i] == D[i - 1 - |A|];
      }
    }
  }

  /** The joins of a top-level complex field hang off `root`; the joins of
      its sub-selection follow its own join directly and hang off its alias. */
  predicate HangsFromTree(js: seq<FetchJoin>, sel: seq<SelField>, root: string)
    decreases SizeOf(sel)
  {
    if sel == [] then js == []
    else if sel[0].sub == [] then HangsFromTree(js, sel[1..], root)
    else
      var k := 1 + |NonLeafNodes(sel[0].sub)|;
      && k <= |js| && js[0].parent == root
      && HangsFromTree(js[1..k], sel[0].sub, Alias(js[0]))
      && HangsFromTree(js[k..], sel[1..], root)
  }

  /** The joins follow the non-leaf nodes in pre-order, and each hangs off
      the alias of the join made for its own parent node (the root alias for
      a top-level field). */
  lemma {:induction false} WalkFollowsPreorder(parent: string, sel: seq<SelField>, counters: Counters)
    requires AllNamed(sel)
    decreases SizeOf(sel)
    ensures JoinsFollow(Walk(parent, sel, counters).joins, NonLeafNodes(sel))
    ensures HangsFromTree(Walk(parent, sel, counters).joins, sel, parent)
  {
    if sel != [] {
      if IsComplexObject(sel[0]) {
        var p := ToLowerAscii(sel[0].name[0]);
        var n := NextNum(counters, p);
        var j := FetchJoin(parent, sel[0].name, p, n);
        var inner := Walk(Alias(j), sel[0].sub, counters[p := n]);
        var rest := Walk(parent, sel[1..], inner.counters);
        WalkFollowsPreorder(Alias(j), sel[0].sub, counters[p := n]);
        WalkFollowsPreorder(parent, sel[1..], inner.counters);
        assert Walk(parent, sel, counters).joins == [j] + inner.joins + rest.joins;
        assert NonLeafNodes(sel) == [sel[0]] + NonLeafNodes(sel[0].sub) + NonLeafNodes(sel[1..]);
        FollowConcat(j, sel[0], inner.joins, NonLeafNodes(sel[0].sub), rest.joins, NonLeafNodes(sel[1..]));
        var js := [j] + inner.joins + rest.joins;
        var k := 1 + |NonLeafNodes(sel[0].sub)|;
        assert js[0] == j && js[1..k] == inner.joins && js[k..] == rest.joins;
      } else {
        WalkFollowsPreorder(parent, sel[1..], counters);
        assert Walk(parent, sel, counters) == Walk(parent, sel[1..], counters);
        assert NonLeafNodes(sel) == NonLeafNodes(sel[1..]);
      }
    }
  }

  /* ---------------------------------------------------------------------
     Alias numbering
     --------------------------------------------------------------------- */

  /** How many of `js` use first letter `p`. */
  function CountPrefix(js: seq<FetchJoin>, p: char): nat
  {
    if js == [] then 0 else (if js[0].prefix == p then 1 else 0) + CountPrefix(js[1..], p)
  }

  lemma CountPrefixAppend(a: seq<FetchJoin>, b: seq<FetchJoin>, p: char)
    ensures CountPrefix(a + b, p) == CountPrefix(a, p) + CountPrefix(b, p)
  {
    if a == [] {
      assert a + b == b;
    } else {
      assert (a + b)[1..] == a[1..] + b;
    }
  }

  /** The counter after a walk has advanced by exactly the joins that used
      each letter, and each join got the counter's next number at its turn:
      the letter's starting number plus the earlier joins with that letter. */
  predicate Advanced(before: Counters, after: Counters, js: seq<FetchJoin>)
  {
    forall q :: NextNum(after, q) == NextNum(before, q) + CountPrefix(js, q)
  }

  predicate NumberedFrom(before: Counters, js: seq<FetchJoin>)
  {
    forall i :: 0 <= i < |js| ==> js[i].num == NextNum(before, js[i].prefix) + CountPrefix(js[..i], js[i].prefix)
  }

  /** One join numbered `n` = the next number for its letter, followed by
      two walks that continue from the counter each left behind. */
  lemma NumberingCompose(j: FetchJoin, inner: seq<FetchJoin>, rest: seq<FetchJoin>,
                         c0: Counters, c1: Counters, c2: Counters, c3: Counters)
    requires j.num == NextNum(c0, j.prefix) && c1 == c0[j.prefix := j.num]
    requires Advanced(c1, c2, inner) && NumberedFrom(c1, inner)
    requires Advanced(c2, c3, rest) && NumberedFrom(c2, rest)
    ensures Advanced(c0, c3, [j] + inner + rest) && NumberedFrom(c0, [j] + inner + rest)
  {
    var js := [j] + inner + rest;
    assert forall q :: NextNum(c1, q) == NextNum(c0, q) + CountPrefix([j], q);
    forall q ensures NextNum(c3, q) == NextNum(c0, q) + CountPrefix(js, q) {
      CountPrefixAppend([j], inner, q);
      CountPrefixAppend([j] + inner, rest, q);
    }
    forall i | 0 <= i < |js|
      ensures js[i].num == NextNum(c0, js[i].prefix) + CountPrefix(js[..i], js[i].prefix)
    {
      var q := js[i].prefix;
      if i == 0 {
        assert js[..i] == [];
      } else if i <= |inner| {
        var k := i - 1;
        assert js[i] == inner[k];
        assert js[..i] == [j] + inner[..k];
        CountPrefixAppend([j], inner[..k], q);
      } else {
        var k := i - 1 - |inner|;
        assert js[i] == rest[k];
        assert js[..i] == ([j] + inner) + rest[..k];
        CountPrefixAppend([j] + inner, rest[..k], q);
        CountPrefixAppend([j], inner, q);
      }
    }
  }

  /** The counter after a walk has advanced by exactly the joins that used
      each letter, and each join got the counter's next number at its turn:
      the letter's starting number plus the earlier joins with that letter. */
  lemma {:induction false} WalkNumbering(parent: string, sel: seq<SelField>, counters: Counters)
    requires AllNamed(sel)
    decreases SizeOf(sel)
    ensures Advanced(counters, Walk(parent, sel, counters).counters, Walk(parent, sel, counters).joins)
    ensures NumberedFrom(counters, Walk(parent, sel, counters).joins)
  {
    if sel == [] {
      assert forall q :: CountPrefix([], q) == 0;
    } else if IsComplexObject(sel[0]) {
      var p := ToLowerAscii(sel[0].name[0]);
      var n := NextNum(counters, p);
      var j := FetchJoin(parent, sel[0].name, p, n);
      var c1 := counters[p := n];
      var inner := Walk(Alias(j), sel[0].sub, c1);
      var rest := Walk(parent, sel[1..], inner.counters);
      WalkNumbering(Alias(j), sel[0].sub, c1);
      WalkNumbering(parent, sel[1..], inner.counters);
      NumberingCompose(j, inner.joins, rest.joins, counters, c1, inner.counters, rest.counters);
      assert Walk(parent, sel, counters) == Walked([j] + inner.joins + rest.joins, rest.counters);
    } else {
      WalkNumbering(parent, sel[1..], counters);
      assert Walk(parent, sel, counters) == Walk(parent, sel[1..], counters);
    }
  }

  lemma CountPrefixGrows(js: seq<FetchJoin>, i: nat, k: nat)
    requires i < k <= |js|
    ensures CountPrefix(js[..k], js[i].prefix) > CountPrefix(js[..i], js[i].prefix)
  {
    assert js[..k] == js[..i] + [js[i]] + js[i + 1..k];
    CountPrefixAppend(js[..i] + [js[i]], js[i + 1..k], js[i].prefix);
    CountPrefixAppend(js[..i], [js[i]], js[i].prefix);
  }

  predicate AliasesUnique(js: seq<FetchJoin>)
  {
    forall i, k :: 0 <= i < k < |js| ==> Alias(js[i]) != Alias(js[k])
  }

  /** The aliases of one buildFetch call are pairwise distinct, since one
      counter map is shared across the whole tree. */
  lemma AliasesDistinct(parentAlias: string, sel: seq<SelField>)
    requires AllNamed(sel)
    ensures AliasesUnique(Walk(parentAlias, sel, map[]).joins)
  {
    var js := Walk(parentAlias, sel, map[]).joins;
    WalkNumbering(parentAlias, sel, map[]);
    forall i, k | 0 <= i < k < |js| ensures Alias(js[i]) != Alias(js[k]) {
      if Alias(js[i]) == Alias(js[k]) {
        assert js[i].prefix == js[k].prefix;
        assert NatToString(js[i].num) == Alias(js[i])[1..] == Alias(js[k])[1..] == NatToString(js[k].num);
        NatToStringInjective(js[i].num, js[k].num);
        CountPrefixGrows(js, i, k);
        assert false;
      }
    }
  }

  predicate CountsFromZero(js: seq<FetchJoin>)
  {
    forall i :: 0 <= i < |js| ==> js[i].num == CountPrefix(js[..i], js[i].prefix)
  }

  /** In one public call every letter counts from 0: a join's number is how
      many earlier joins of the same output used its letter. */
  lemma FreshCallNumbering(parentAlias: string, sel: seq<SelField>)
    requires AllNamed(sel)
    ensures CountsFromZero(Walk(parentAlias, sel, map[]).joins)
  {
    WalkNumbering(parentAlias, sel, map[]);
  }

  /** Each alias letter is the lower-cased first letter of its field name. */
  predicate LettersFromFields(js: seq<FetchJoin>)
  {
    forall i :: 0 <= i < |js| ==> js[i].field != [] && js[i].prefix == ToLowerAscii(js[i].field[0])
  }

  lemma {:induction false} AliasLetters(parent: string, sel: seq<SelField>, counters: Counters)
    requires AllNamed(sel)
    decreases SizeOf(sel)
    ensures LettersFromFields(Walk(parent, sel, counters).joins)
  {
    if sel != [] {
      if IsComplexObject(sel[0]) {
        var p := ToLowerAscii(sel[0].name[0]);
        var n := NextNum(counters, p);
        var j := FetchJoin(parent, sel[0].name, p, n);
        var inner := Walk(Alias(j), sel[0].sub, counters[p := n]);
        var rest := Walk(parent, sel[1..], inner.counters);
        AliasLetters(Alias(j), sel[0].sub, counters[p := n]);
        AliasLetters(parent, sel[1..], inner.counters);
        var js := [j] + inner.joins + rest.joins;
        assert Walk(parent, sel, counters).joins == js;
        forall i | 0 <= i < |js| ensures js[i].field != [] && js[i].prefix == ToLowerAscii(js[i].field[0]) {
          if 1 <= i <= |inner.joins| {
            assert js[i] == inner.joins[i - 1];
          } else if i > |inner.joins| {
            assert js[i] == rest.joins[i - 1 - |inner.joins|];
          }
        }
      } else {
        AliasLetters(parent, sel[1..], counters);
        assert Walk(parent, sel, counters) == Walk(parent, sel[1..], counters);
      }
    }
  }

  /* ---------------------------------------------------------------------
     Parents
     --------------------------------------------------------------------- */

  /** Every join hangs off the root alias or off an alias introduced by an
      earlier join of the same output. */
  predicate ParentsEarlier(js: seq<FetchJoin>, root: string)
  {
    forall i :: 0 <= i < |js| ==> js[i].parent == root || exists k :: 0 <= k < i && js[i].parent == Alias(js[k])
  }

  /** A join from the root, then the joins under its alias, then further
      joins from the root: each part's parents stay introduced earlier. */
  lemma ParentsCompose(j: FetchJoin, inner: seq<FetchJoin>, rest: seq<FetchJoin>, root: string)
    requires j.parent == root
    requires ParentsEarlier(inner, Alias(j)) && ParentsEarlier(rest, root)
    ensures ParentsEarlier([j] + inner + rest, root)
  {
    var js := [j] + inner + rest;
    forall i | 1 <= i <= |inner|
      ensures js[i].parent == root || exists k :: 0 <= k < i && js[i].parent == Alias(js[k])
    {
      InnerParent(j, inner, rest, i - 1);
    }
    forall i | |inner| < i < |js|
      ensures js[i].parent == root || exists k :: 0 <= k < i && js[i].parent == Alias(js[k])
    {
      RestParent(j, inner, rest, root, i - 1 - |inner|);
    }
  }

  lemma InnerParent(j: FetchJoin, inner: seq<FetchJoin>, rest: seq<FetchJoin>, m: nat)
    requires ParentsEarlier(inner, Alias(j)) && m < |inner|
    ensures var js := [j] + inner + rest;
      exists k :: 0 <= k < m + 1 && js[m + 1].parent == Alias(js[k])
  {
    var js := [j] + inner + rest;
    assert js[m + 1] == inner[m] && js[0] == j;
    if inner[m].parent != Alias(j) {
      var k :| 0 <= k < m && inner[m].parent == Alias(inner[k]);
      assert js[k + 1] == inner[k];
    }
  }

  lemma RestParent(j: FetchJoin, inner: seq<FetchJoin>, rest: seq<FetchJoin>, root: string, m: nat)
    requires ParentsEarlier(rest, root) && m < |rest|
    ensures var js := [j] + inner + rest;
      var i := m + 1 + |inner|;
      js[i].parent == root || exists k :: 0 <= k < i && js[i].parent == Alias(js[k])
  {
    var js := [j] + inner + rest;
    var i := m + 1 + |inner|;
    assert js[i] == rest[m];
    if rest[m].parent != root {
      var k :| 0 <= k < m && rest[m].parent == Alias(rest[k]);
      assert js[k + 1 + |inner|] == rest[k];
    }
  }

  lemma {:induction false} ParentsIntroducedEarlier(parent: string, sel: seq<SelField>, counters: Counters)
    requires AllNamed(sel)
    decreases SizeOf(sel)
    ensures ParentsEarlier(Walk(parent, sel, counters).joins, parent)
  {
    if sel != [] {
      if IsComplexObject(sel[0]) {
        var p := ToLowerAscii(sel[0].name[0]);
        var n := NextNum(counters, p);
        var j := FetchJoin(parent, sel[0].name, p, n);
        var inner := Walk(Alias(j), sel[0].sub, counters[p := n]);
        ParentsIntroducedEarlier(Alias(j), sel[0].sub, counters[p := n]);
        ParentsIntroducedEarlier(parent, sel[1..], inner.counters);
        ParentsCompose(j, inner.joins, Walk(parent, sel[1..], inner.counters).joins, parent);
      } else {
        ParentsIntroducedEarlier(parent, sel[1..], counters);
        assert Walk(parent, sel, counters) == Walk(parent, sel[1..], counters);
      }
    }
  }

  /* ---------------------------------------------------------------------
     The Book repository's query
     --------------------------------------------------------------------- */

  /** The selection `author { name } quotes { text } name`. */
  function AuthorQuotesName(): seq<SelField>
  {
    [SelField("author", "author", [SelField("name", "name", [])]),
     SelField("quotes", "quotes", [SelField("text", "text", [])]),
     SelField("name", "name", [])]
  }

  /** Its walk from root alias `b` (the Book repository's query): two joins,
      `b.author a0` and `b.quotes q0`, each relation starting its own
      letter's counter at 0. */
  lemma AuthorQuotesJoins()
    ensures AllNamed(AuthorQuotesName())
    ensures Walk("b", AuthorQuotesName(), map[]).joins
            == [FetchJoin("b", "author", 'a', 0), FetchJoin("b", "quotes", 'q', 0)]
  {
    var name := SelField("name", "name", []);
    var text := SelField("text", "text", []);
    var author := SelField("author", "author", [name]);
    var quotes := SelField("quotes", "quotes", [text]);
    assert NatToString(0) == "0";
    assert ToLowerAscii('a') == 'a' && ToLowerAscii('q') == 'q';
    var ja := FetchJoin("b", "author", 'a', 0);
    var jq := FetchJoin("b", "quotes", 'q', 0);
    assert Alias(ja) == "a0" && Alias(jq) == "q0";
    var c1: Counters := map['a' := 0];
    var c2: Counters := c1['q' := 0];
    assert [name][1..] == [] && [text][1..] == [];
    assert AllNamed([name]) && AllNamed([text]);
    assert [quotes, name][1..] == [name];
    assert AllNamed([quotes, name]);
    assert Walk("a0", [name], c1) == Walked([], c1);
    assert Walk("q0", [text], c2) == Walked([], c2);
    assert Walk("b", [name], c2) == Walked([], c2);
    assert Walk("b", [quotes, name], c1) == Walked([jq], c2);
    assert [author, quotes, name][1..] == [quotes, name];
    assert Walk("b", [author, quotes, name], map[]) == Walked([ja, jq], c2);
  }

  /** `reviewers { country { name } } author { country { name } }`: the
      letter `c` is shared across the tree, so the second country join is
      `c1`, and each hangs off its own parent's alias. */
  lemma SharedLetterCounts()
    ensures Walk("b", [SelField("reviewers", "reviewers", [SelField("country", "country", [SelField("name", "name", [])])]),
                       SelField("author", "author", [SelField("country", "country", [SelField("name", "name", [])])])], map[]).joins
            == [FetchJoin("b", "reviewers", 'r', 0), FetchJoin("r0", "country", 'c', 0),
                FetchJoin("b", "author", 'a', 0), FetchJoin("a0", "country", 'c', 1)]
  {
    var name := SelField("name", "name", []);
    var country := SelField("country", "country", [name]);
    var reviewers := SelField("reviewers", "reviewers", [country]);
    var author := SelField("author", "author", [country]);
    assert NatToString(0) == "0" && NatToString(1) == "1";
    assert ToLowerAscii('r') == 'r' && ToLowerAscii('a') == 'a' && ToLowerAscii('c') == 'c';
    var jr := FetchJoin("b", "reviewers", 'r', 0);
    var jc0 := FetchJoin("r0", "country", 'c', 0);
    var ja := FetchJoin("b", "author", 'a', 0);
    var jc1 := FetchJoin("a0", "country", 'c', 1);
    assert Alias(jr) == "r0" && Alias(ja) == "a0" && Alias(jc0) == "c0" && Alias(jc1) == "c1";
    var c1: Counters := map['r' := 0];
    var c2: Counters := c1['c' := 0];
    var c3: Counters := c2['a' := 0];
    var c4: Counters := c3['c' := 1];
    assert [name][1..] == [] && [country][1..] == [];
    assert AllNamed([name]);
    assert AllNamed([country]);
    assert [author][1..] == [];
    assert AllNamed([author]);
    assert [reviewers, author][1..] == [author];
    assert Walk("c0", [name], c2) == Walked([], c2);
    assert Walk("r0", [country], c1) == Walked([jc0], c2);
    assert Walk("c1", [name], c4) == Walked([], c4);
    assert Walk("a0", [country], c3) == Walked([jc1], c4);
    assert [author][1..] == [];
    assert Walk("b", [author], c2) == Walked([ja, jc1], c4);
    assert [reviewers, author][1..] == [author];
    assert Walk("b", [reviewers, author], map[]) == Walked([jr, jc0, ja, jc1], c4);
  }
}

=== FILE: fixtures.dfy ===
/**
 The sample entities (Book, Person, Quote, Country) as templates, and what
 the core makes of them for the requests the application's own tests and
 repository send.

 `NonExistingEntity`, the element class of `Book.missingOneToMany`, is a
 test entity mapped to a table that does not exist.
 */
module Fixtures {

  import opened Wrappers
  import opened Strings
  import opened JavaTypes
  import opened Selection
  import opened ShapeIdentifiers
  import opened ProjectionCache
  import opened TypeNames
  import opened SchemaRules

  const Pkg := "com.fradantim.graphql2jpa.entity."

  const IntegerType := Plain(Boxed(IntegerClass))
  const StringType := Plain(Boxed(StringClass))

  const CountryDecl := ClassDecl(Pkg + "Country", "Country",
    [FieldDecl("id", IntegerType, true), FieldDecl("name", StringType, false)])

  const PersonId := FieldDecl("id", IntegerType, true)
  const PersonName := FieldDecl("name", StringType, false)
  const PersonCountry := FieldDecl("country", Plain(Entity(CountryDecl)), false)
  const PersonDecl := ClassDecl(Pkg + "Person", "Person", [PersonId, PersonName, PersonCountry])

  const QuoteId := FieldDecl("id", IntegerType, true)
  const QuoteBookId := FieldDecl("bookId", IntegerType, false)
  const QuoteText := FieldDecl("text", StringType, false)
  const QuoteDecl := ClassDecl(Pkg + "Quote", "Quote", [QuoteId, QuoteBookId, QuoteText])

  const NonExistingDecl := ClassDecl(Pkg + "NonExistingEntity", "NonExistingEntity",
    [FieldDecl("id", IntegerType, true), FieldDecl("nonExistingColumnA", StringType, false),
     FieldDecl("nonExistingColumnB", StringType, false)])

  const BookId := FieldDecl("id", IntegerType, true)
  const BookName := FieldDecl("name", StringType, false)
  const BookIsbn := FieldDecl("isbn", StringType, false)
  const BookColumnA := FieldDecl("nonExistingColumnA", StringType, false)
  const BookColumnB := FieldDecl("nonExistingColumnB", StringType, false)
  const BookAuthor := FieldDecl("author", Plain(Entity(PersonDecl)), false)
  const BookQuotes := FieldDecl("quotes", Generic(SetOf, Entity(QuoteDecl)), false)
  const BookReviewers := FieldDecl("reviewers", Generic(SetOf, Entity(PersonDecl)), false)
  const BookMissing := FieldDecl("missingOneToMany", Generic(SetOf, Entity(NonExistingDecl)), false)
  const BookDecl := ClassDecl(Pkg + "Book", "Book",
    [BookId, BookName, BookIsbn, BookColumnA, BookColumnB, BookAuthor, BookQuotes, BookReviewers, BookMissing])

  function Leaf(name: string): SelField
  {
    SelField(name, name, [])
  }

  function Node(name: string, sub: seq<SelField>): SelField
  {
    SelField(name, name, sub)
  }

  /** `name author {name} quotes {text} reviewers {name}`: the request of
      the test that checks ids are always loaded. */
  function IdsTestSelection(): seq<SelField>
  {
    [Leaf("name"), Node("author", [Leaf("name")]), Node("quotes", [Leaf("text")]),
     Node("reviewers", [Leaf("name")])]
  }

  function FieldNames(fs: seq<FieldDecl>): (r: seq<string>)
    ensures |r| == |fs| && forall i :: 0 <= i < |fs| ==> r[i] == fs[i].name
  {
    seq(|fs|, i requires 0 <= i < |fs| => fs[i].name)
  }

  /** A built field list has the names of the kept fields, in order. */
  lemma {:induction false} ShapedNames(built: seq<FieldDecl>, kept: seq<FieldDecl>, sel: seq<SelField>, cache: map<string, ClassDecl>)
    requires ShapedAs(built, kept, sel, cache)
    ensures FieldNames(built) == FieldNames(kept)
  {
    if kept != [] {
      ShapedNames(built[1..], kept[1..], sel, cache);
      assert FieldNames(built) == [built[0].name] + FieldNames(built[1..]);
      assert FieldNames(kept) == [kept[0].name] + FieldNames(kept[1..]);
    }
  }

  /** A selected or mandatory field is kept in front of the later ones. */
  lemma KeptIn(fields: seq<FieldDecl>, sel: seq<SelField>, i: nat)
    requires i < |fields| && (Selects(sel, fields[i].name) || IsMandatory(fields[i]))
    ensures KeptFields(fields[i..], sel) == [fields[i]] + KeptFields(fields[i + 1..], sel)
  {
    assert fields[i..][0] == fields[i] && fields[i..][1..] == fields[i + 1..];
  }

  /** Any other field is dropped. */
  lemma KeptOut(fields: seq<FieldDecl>, sel: seq<SelField>, i: nat)
    requires i < |fields| && !Selects(sel, fields[i].name) && !IsMandatory(fields[i])
    ensures KeptFields(fields[i..], sel) == KeptFields(fields[i + 1..], sel)
  {
    assert fields[i..][0] == fields[i] && fields[i..][1..] == fields[i + 1..];
  }

  lemma KeptNone(fields: seq<FieldDecl>, sel: seq<SelField>)
    ensures KeptFields(fields[|fields|..], sel) == []
  {
    assert fields[|fields|..] == [];
  }

  lemma KeptAll(fields: seq<FieldDecl>, sel: seq<SelField>)
    ensures KeptFields(fields[0..], sel) == KeptFields(fields, sel)
  {
    assert fields[0..] == fields;
  }

  /** The Book fields the test request selects. */
  lemma IdsTestSelected()
    ensures Selects(IdsTestSelection(), BookName.name) && Selects(IdsTestSelection(), BookAuthor.name)
    ensures Selects(IdsTestSelection(), BookQuotes.name) && Selects(IdsTestSelection(), BookReviewers.name)
  {
    var sel := IdsTestSelection();
    assert sel[0].name == BookName.name;
    assert sel[1].name == BookAuthor.name;
    assert sel[2].name == BookQuotes.name;
    assert sel[3].name == BookReviewers.name;
  }

  /** The Book fields it does not select. */
  lemma IdsTestNotSelected()
    ensures !Selects(IdsTestSelection(), BookIsbn.name) && !Selects(IdsTestSelection(), BookColumnA.name)
    ensures !Selects(IdsTestSelection(), BookColumnB.name) && !Selects(IdsTestSelection(), BookMissing.name)
  {
  }

  lemma IdsTestKeptRelations()
    ensures KeptFields(BookDecl.fields[5..], IdsTestSelection()) == [BookAuthor, BookQuotes, BookReviewers]
  {
    var sel := IdsTestSelection();
    var fs := BookDecl.fields;
    IdsTestSelected();
    IdsTestNotSelected();
    KeptNone(fs, sel);
    KeptOut(fs, sel, 8);
    KeptIn(fs, sel, 7);
    KeptIn(fs, sel, 6);
    KeptIn(fs, sel, 5);
  }

  lemma IdsTestDropsColumns()
    ensures KeptFields(BookDecl.fields[2..], IdsTestSelection()) == KeptFields(BookDecl.fields[5..], IdsTestSelection())
  {
    var sel := IdsTestSelection();
    var fs := BookDecl.fields;
    IdsTestNotSelected();
    KeptOut(fs, sel, 4);
    KeptOut(fs, sel, 3);
    KeptOut(fs, sel, 2);
  }

  lemma Cons2<T>(a: T, b: T, rest: seq<T>)
    ensures [a] + ([b] + rest) == [a, b] + rest
  {
  }

  /** For that request the Book level keeps its `@Id` field besides the
      selected ones: id, name, author, quotes and reviewers, in declaration
      order; isbn, the two unmapped columns and missingOneToMany are left
      out. */
  lemma IdsTestKeptFields()
    ensures KeptFields(BookDecl.fields, IdsTestSelection()) == [BookId, BookName] + [BookAuthor, BookQuotes, BookReviewers]
  {
    var sel := IdsTestSelection();
    var fs := BookDecl.fields;
    IdsTestSelected();
    IdsTestKeptRelations();
    IdsTestDropsColumns();
    var relations := [BookAuthor, BookQuotes, BookReviewers];
    assert KeptFields(fs[2..], sel) == relations;
    KeptIn(fs, sel, 1);
    assert KeptFields(fs[1..], sel) == [BookName] + relations;
    KeptIn(fs, sel, 0);
    KeptAll(fs, sel);
    Cons2(BookId, BookName, relations);
  }

  /** The Person level of that request keeps id next to name, and not
      country. */
  lemma IdsTestPersonKept()
    ensures KeptFields(PersonDecl.fields, [Leaf("name")]) == [PersonId, PersonName]
  {
    var ps := PersonDecl.fields;
    var sel := [Leaf("name")];
    assert Selects(sel, "name") by { assert sel[0].name == "name"; }
    assert !Selects(sel, "country");
    KeptNone(ps, sel);
    KeptOut(ps, sel, 2);
    KeptIn(ps, sel, 1);
    KeptIn(ps, sel, 0);
    KeptAll(ps, sel);
  }

  /** The Quote level keeps id next to text, and not bookId. */
  lemma IdsTestQuoteKept()
    ensures KeptFields(QuoteDecl.fields, [Leaf("text")]) == [QuoteId, QuoteText]
  {
    var qs := QuoteDecl.fields;
    var sel := [Leaf("text")];
    assert Selects(sel, "text") by { assert sel[0].name == "text"; }
    assert !Selects(sel, "bookId");
    KeptNone(qs, sel);
    KeptIn(qs, sel, 2);
    KeptOut(qs, sel, 1);
    KeptIn(qs, sel, 0);
    KeptAll(qs, sel);
  }

  lemma FieldNamesOfFive(a: FieldDecl, b: FieldDecl, c: FieldDecl, d: FieldDecl, e: FieldDecl)
    ensures FieldNames([a, b] + [c, d, e]) == [a.name, b.name, c.name, d.name, e.name]
  {
  }

  /** The first such request on a new DAO builds `Book$copy<n>`, n being the
      class counter the DAO starts from (0 for the first DAO of the JVM),
      with exactly the fields id, name, author, quotes and reviewers, and
      finds it in a context that knows that class. */
  lemma FirstIdsRequestBuildsBookCopy(n: nat, connections: nat)
    ensures var res := Find(Init(DefaultCloseDelayMillis, n, connections), Entity(BookDecl), IdsTestSelection());
            && res.1.name == CopyName(Entity(BookDecl), n)
            && FieldNames(res.1.fields) == ["id", "name", "author", "quotes", "reviewers"]
            && res.1.name in res.2.known
  {
    var st := Init(DefaultCloseDelayMillis, n, connections);
    var model := Entity(BookDecl);
    var sel := IdsTestSelection();
    LookupMiss(st, model, sel, true);
    var built := BuildMinimalClass(st, model, sel);
    ShapedNames(built.1.fields, KeptFields(DeclaredFields(model), sel), sel, built.0.cache);
    IdsTestKeptFields();
    FieldNamesOfFive(BookId, BookName, BookAuthor, BookQuotes, BookReviewers);
  }

  /** Requesting `a: name` keeps id and name; every later Book field is
      neither selected by name nor `@Id`. */
  lemma AliasedNameKept()
    ensures KeptFields(BookDecl.fields, [SelField("name", "a", [])]) == [BookId, BookName]
  {
    var fs := BookDecl.fields;
    var sel := [SelField("name", "a", [])];
    assert Selects(sel, "name") by { assert sel[0].name == "name"; }
    KeptNone(fs, sel);
    KeptOut(fs, sel, 8);
    KeptOut(fs, sel, 7);
    KeptOut(fs, sel, 6);
    KeptOut(fs, sel, 5);
    KeptOut(fs, sel, 4);
    KeptOut(fs, sel, 3);
    KeptOut(fs, sel, 2);
    KeptIn(fs, sel, 1);
    KeptIn(fs, sel, 0);
    KeptAll(fs, sel);
  }

  /** The Book class built for `{a: name}` has the fields id and name. */
  lemma AliasedNameBuilt(st: DaoState)
    ensures FieldNames(BuildMinimalClass(st, Entity(BookDecl), [SelField("name", "a", [])]).1.fields) == ["id", "name"]
  {
    var a := [SelField("name", "a", [])];
    var built := BuildMinimalClass(st, Entity(BookDecl), a);
    assert DeclaredFields(Entity(BookDecl)) == BookDecl.fields;
    ShapedNames(built.1.fields, KeptFields(BookDecl.fields, a), a, built.0.cache);
    AliasedNameKept();
    assert FieldNames([BookId, BookName]) == ["id", "name"];
  }

  /** On a new DAO, `find` with `{a: name}` queries a new Book class whose
      fields are id and name. */
  lemma AliasedNameClass(n: nat, connections: nat)
    ensures FieldNames(Find(Init(DefaultCloseDelayMillis, n, connections), Entity(BookDecl), [SelField("name", "a", [])]).1.fields)
         == ["id", "name"]
  {
    var st := Init(DefaultCloseDelayMillis, n, connections);
    var model := Entity(BookDecl);
    var a := [SelField("name", "a", [])];
    assert Find(st, model, a).1 == GetMinimalClass(st, model, a, true).1;
    LookupMiss(st, model, a, true);
    AliasedNameBuilt(st);
  }

  /** On a new DAO, `{a: name}` and then `{a: isbn}` both reach the Book
      class built for the first request: its fields are id and name, and it
      has no isbn field although the second request selects isbn. */
  lemma AliasedIsbnGetsNameClass(n: nat, connections: nat)
    ensures var r1 := Find(Init(DefaultCloseDelayMillis, n, connections), Entity(BookDecl), [SelField("name", "a", [])]);
            var r2 := Find(r1.0, Entity(BookDecl), [SelField("isbn", "a", [])]);
            && r2.1 == r1.1
            && FieldNames(r2.1.fields) == ["id", "name"]
            && Selects([SelField("isbn", "a", [])], "isbn")
  {
    var model := Entity(BookDecl);
    var a, b := SelField("name", "a", []), SelField("isbn", "a", []);
    OneLeafKey(model, a);
    OneLeafKey(model, b);
    FindSharedKeySameClass(Init(DefaultCloseDelayMillis, n, connections), model, [a], [b]);
    AliasedNameClass(n, connections);
    assert [b][0].name == "isbn";
  }

  lemma FullTokensStep(fields: seq<FieldDecl>, sel: seq<SelField>, i: nat)
    requires i < |fields|
    ensures FullTokens(fields[i..], sel) == FullTokenOf(fields[i], sel) + FullTokens(fields[i + 1..], sel)
  {
    assert fields[i..][0] == fields[i] && fields[i..][1..] == fields[i + 1..];
  }

  /** A field neither selected nor `@Id` has no full-key token. */
  lemma NoTokenUnselected(f: FieldDecl, sel: seq<SelField>)
    requires !Selects(sel, f.name) && !IsMandatory(f)
    ensures FullTokenOf(f, sel) == []
  {
  }

  /** Requesting only a book's name, the fields after `name` contribute no
      full-key token: none is selected or `@Id`. */
  lemma NameOnlyLaterTokens()
    ensures FullTokens(BookDecl.fields[2..], [Leaf("name")]) == []
  {
    var sel := [Leaf("name")];
    var fs := BookDecl.fields;
    assert fs[9..] == [];
    NoTokenUnselected(BookMissing, sel);
    FullTokensStep(fs, sel, 8);
    NoTokenUnselected(BookReviewers, sel);
    FullTokensStep(fs, sel, 7);
    NoTokenUnselected(BookQuotes, sel);
    FullTokensStep(fs, sel, 6);
    NoTokenUnselected(BookAuthor, sel);
    FullTokensStep(fs, sel, 5);
    NoTokenUnselected(BookColumnB, sel);
    FullTokensStep(fs, sel, 4);
    NoTokenUnselected(BookColumnA, sel);
    FullTokensStep(fs, sel, 3);
    NoTokenUnselected(BookIsbn, sel);
    FullTokensStep(fs, sel, 2);
  }

  /** Requesting only a book's name: the shallow key lists `name` alone,
      while the full key also lists the unrequested `@Id` field, so the two
      keys of this request differ in their tokens. */
  lemma NameOnlyTokens()
    ensures ShallowTokens([Leaf("name")]) == ["name"]
    ensures FullTokens(BookDecl.fields, [Leaf("name")]) == ["id", "name"]
  {
    var sel := [Leaf("name")];
    var fs := BookDecl.fields;
    NameOnlyFirstTokens();
    NameOnlyLaterTokens();
    FullTokensStep(fs, sel, 1);
    FullTokensStep(fs, sel, 0);
    assert fs[0..] == fs;
  }

  /** Requesting only a book's name, the `@Id` field and `name` each give
      their name as token. */
  lemma NameOnlyFirstTokens()
    ensures FullTokenOf(BookId, [Leaf("name")]) == ["id"]
    ensures FullTokenOf(BookName, [Leaf("name")]) == ["name"]
  {
    var sel := [Leaf("name")];
    assert FindByName(sel, "id") == None;
    assert FindByName(sel, "name") == Some(Leaf("name"));
  }

  /** In the schema, `Quote.bookId`, an Integer without `@Id`, becomes `ID`
      by its name. */
  lemma QuoteBookIdIsId()
    ensures Resolve(EmptyTypes, Output, Boxed(IntegerClass), Some(Attribute("bookId", false))).1 == Scalar(GraphQLID)
  {
    assert EndsWith("bookId", "Id");
    ResolveScalar(EmptyTypes, Output, Boxed(IntegerClass), Some(Attribute("bookId", false)));
  }

  /** `Quote.text` stays `String`. */
  lemma QuoteTextIsString()
    ensures Resolve(EmptyTypes, Output, Boxed(StringClass), Some(Attribute("text", false))).1 == Scalar(GraphQLString)
  {
    assert !EndsWith("text", "Id") && !EndsWith("text", "Ids");
    ResolveScalar(EmptyTypes, Output, Boxed(StringClass), Some(Attribute("text", false)));
  }
}

=== FILE: generate.dfy ===
/**
 The query side of GraphQLConfig.generateSchema: every query-mapped method
 becomes a field of the `Query` type, named after its mapping (or the method
 when the mapping name is blank), typed by its resolved return type (a list
 of the element class's type for a collection), with one
 argument per `@Argument` parameter. All methods share one set of
 registries, so a class resolved for one query is reused by the next.

 Finding the methods (classpath scanning, component annotations) and
 printing the schema are not part of this model: the methods are given.
 */
module SchemaGeneration {

  import opened Wrappers
  import opened Strings
  import opened JavaTypes
  import opened TypeNames
  import opened SchemaRules

  /** A method parameter. `argument` is the name given in its `@Argument`
      annotation, `None` when it has no such annotation. */
  datatype Param = Param(name: string, argument: Option<string>, ptype: JavaType, hasIdAnnotation: bool)

  /** A `@QueryMapping` method: its Java name, the mapping's name (blank when
      not given), its generic return type and its parameters. */
  datatype QueryMethod = QueryMethod(name: string, mappingName: string, returnType: JavaType, params: seq<Param>)

  datatype GqlArgument = GqlArgument(name: string, atype: GqlType)

  /** A field of the `Query` type. */
  datatype QueryField = QueryField(name: string, ftype: GqlType, args: seq<GqlArgument>)

  /** The class a return or parameter type resolves through: the element
      class of a collection, otherwise the class itself. */
  function ElementClass(t: JavaType): ClassType
  {
    match t
    case Plain(c) => c
    case Generic(_, a) => a
  }

  /** A name given by an annotation, or the Java name when it is blank. */
  function DefaultName(given: string, javaName: string): string
  {
    if IsBlank(given) then javaName else given
  }

  /** The `@Argument` parameters, in declaration order. */
  function Annotated(params: seq<Param>): (r: seq<Param>)
    ensures forall p :: p in r <==> p in params && p.argument.Some?
    ensures |r| <= |params|
    ensures IsSubsequence(r, params)
  {
    if params == [] then []
    else if params[0].argument.Some? then [params[0]] + Annotated(params[1..])
    else Annotated(params[1..])
  }

  /** The argument name of an `@Argument` parameter. */
  function ArgumentName(p: Param): string
    requires p.argument.Some?
  {
    DefaultName(p.argument.value, p.name)
  }

  /** What an argument says about its `@Argument` parameter: its name follows
      the default rule; its type is the input type its element class resolves
      to against the registries `final` (without changing them), as a list
      when the parameter is a collection; it is a list exactly when the
      parameter is a collection; and it is `ID` only when the parameter names
      an id. */
  predicate ArgumentFor(a: GqlArgument, p: Param, final: ComplexTypes)
  {
    && p.argument.Some?
    && a.name == ArgumentName(p)
    && (var r := Resolve(final, Input, ElementClass(p.ptype), Some(Attribute(p.name, p.hasIdAnnotation)));
        r.0 == final && a.atype == ListedIf(IsCollection(p.ptype), r.1))
    && (a.atype.GqlList? <==> IsCollection(p.ptype))
    && (ElemOf(a.atype) == Scalar(GraphQLID) ==> NamesAnId(Attribute(p.name, p.hasIdAnnotation)))
  }

  /** The arguments follow the parameters one for one. */
  ghost predicate ArgumentsFor(args: seq<GqlArgument>, ps: seq<Param>, final: ComplexTypes)
  {
    && |args| == |ps|
    && (ps != [] ==> ArgumentFor(args[0], ps[0], final) && ArgumentsFor(args[1..], ps[1..], final))
  }

  /** What the arguments say against some registries they still say against
      any typed registries grown from them. */
  lemma {:induction false} ArgumentsForGrows(args: seq<GqlArgument>, ps: seq<Param>, final: ComplexTypes, final': ComplexTypes)
    requires ArgumentsFor(args, ps, final) && Typed(final') && SchemaRules.Grows(final, final')
    ensures ArgumentsFor(args, ps, final')
    decreases |ps|
  {
    if ps != [] {
      var p := ps[0];
      ResolveStable(final, final', Input, ElementClass(p.ptype), Some(Attribute(p.name, p.hasIdAnnotation)));
      ArgumentsForGrows(args[1..], ps[1..], final, final');
    }
  }

  /** Registry facts every step of schema generation keeps. */
  ghost predicate Extends(ct: ComplexTypes, ct': ComplexTypes)
  {
    && SchemaRules.Grows(ct, ct')
    && (UniqueNames(ct) ==> UniqueNames(ct'))
    && (AllNamed(ct) ==> AllNamed(ct'))
    && (Typed(ct) ==> Typed(ct'))
  }

  /** What a `Query` field says against some registries it still says against
      any typed registries grown from them. */
  lemma FieldForGrows(f: QueryField, m: QueryMethod, final: ComplexTypes, final': ComplexTypes)
    requires FieldFor(f, m, final) && Typed(final') && SchemaRules.Grows(final, final')
    ensures FieldFor(f, m, final')
  {
    ResolveStable(final, final', Output, ElementClass(m.returnType), None);
    ArgumentsForGrows(f.args, Annotated(m.params), final, final');
  }

  lemma ExtendsTransitive(a: ComplexTypes, b: ComplexTypes, c: ComplexTypes)
    requires Extends(a, b) && Extends(b, c)
    ensures Extends(a, c)
  {
    GrowsTransitive(a, b, c);
  }

  /** getArguments: one argument per `@Argument` parameter, in order; each
      resolved as input for the parameter (a collection as a list of its
      element class's input type). */
  function Arguments(ct: ComplexTypes, params: seq<Param>): (res: (ComplexTypes, seq<GqlArgument>))
    decreases |params|
    ensures Extends(ct, res.0)
    ensures |res.1| == |Annotated(params)|
  {
    if params == [] then (ct, [])
    else if params[0].argument.None? then Arguments(ct, params[1..])
    else
      var p := params[0];
      var r := Resolve(ct, Input, ElementClass(p.ptype), Some(Attribute(p.name, p.hasIdAnnotation)));
      var aty := ListedIf(IsCollection(p.ptype), r.1);
      var rest := Arguments(r.0, params[1..]);
      ExtendsTransitive(ct, r.0, rest.0);
      (rest.0, [GqlArgument(ArgumentName(p), aty)] + rest.1)
  }

  /** Over registries whose types are named and typed, the arguments follow
      the `@Argument` parameters one for one, against the registries left
      behind: names by the default rule, the resolved input types, lists for
      collections, `ID` only for id names. */
  lemma {:induction false} ArgumentsFollowParams(ct: ComplexTypes, params: seq<Param>)
    requires AllNamed(ct) && Typed(ct)
    ensures var res := Arguments(ct, params);
      ArgumentsFor(res.1, Annotated(params), res.0)
    decreases |params|
  {
    if params == [] {
    } else if params[0].argument.None? {
      ArgumentsFollowParams(ct, params[1..]);
    } else {
      var p := params[0];
      var attr := Some(Attribute(p.name, p.hasIdAnnotation));
      var r := Resolve(ct, Input, ElementClass(p.ptype), attr);
      ArgumentsFollowParams(r.0, params[1..]);
      var res := Arguments(ct, params);
      var rest := Arguments(r.0, params[1..]);
      assert res.0 == rest.0 && res.1[1..] == rest.1;
      assert Annotated(params) == [p] + Annotated(params[1..]);
      ResolveStable(ct, rest.0, Input, ElementClass(p.ptype), attr);
      assert ArgumentFor(res.1[0], p, res.0);
    }
  }

  /** What a `Query` field says about its method, against the registries
      `final`: its name follows the default rule; its type is the output type
      the return type's element class resolves to (without changing the
      registries), as a list when the method returns a collection; its
      arguments follow the `@Argument` parameters; it is a list exactly when
      the method returns a collection; and it is never `ID` (a return type
      has no attribute). */
  ghost predicate FieldFor(f: QueryField, m: QueryMethod, final: ComplexTypes)
  {
    && f.name == DefaultName(m.mappingName, m.name)
    && (var r := Resolve(final, Output, ElementClass(m.returnType), None);
        r.0 == final && f.ftype == ListedIf(IsCollection(m.returnType), r.1))
    && ArgumentsFor(f.args, Annotated(m.params), final)
    && (f.ftype.GqlList? <==> IsCollection(m.returnType))
    && ElemOf(f.ftype) != Scalar(GraphQLID)
  }

  /** One `Query` field: the return type is resolved first (as output, with
      no attribute), then the arguments. */
  function QueryFieldFor(ct: ComplexTypes, m: QueryMethod): (res: (ComplexTypes, QueryField))
    ensures Extends(ct, res.0)
    ensures AllNamed(ct) && Typed(ct) ==> FieldFor(res.1, m, res.0)
  {
    var r := Resolve(ct, Output, ElementClass(m.returnType), None);
    var fty := ListedIf(IsCollection(m.returnType), r.1);
    var args := Arguments(r.0, m.params);
    ExtendsTransitive(ct, r.0, args.0);
    var f := QueryField(DefaultName(m.mappingName, m.name), fty, args.1);
    assert AllNamed(ct) && Typed(ct) ==> FieldFor(f, m, args.0) by {
      if AllNamed(ct) && Typed(ct) {
        ArgumentsFollowParams(r.0, m.params);
        ResolveStable(ct, args.0, Output, ElementClass(m.returnType), None);
      }
    }
    (args.0, f)
  }

  /** The `Query` fields of the given methods, in order, over shared
      registries. */
  function QueryFields(ct: ComplexTypes, methods: seq<QueryMethod>): (res: (ComplexTypes, seq<QueryField>))
    decreases |methods|
    ensures Extends(ct, res.0)
    ensures |res.1| == |methods|
  {
    if methods == [] then (ct, [])
    else
      var f := QueryFieldFor(ct, methods[0]);
      var rest := QueryFields(f.0, methods[1..]);
      ExtendsTransitive(ct, f.0, rest.0);
      (rest.0, [f.1] + rest.1)
  }

  /** Over registries whose types are named and typed, each `Query` field
      follows its method. */
  lemma {:induction false} QueryFieldsFollow(ct: ComplexTypes, methods: seq<QueryMethod>)
    requires AllNamed(ct) && Typed(ct)
    decreases |methods|
    ensures var res := QueryFields(ct, methods);
      forall i :: 0 <= i < |methods| ==> FieldFor(res.1[i], methods[i], res.0)
  {
    if methods != [] {
      var f := QueryFieldFor(ct, methods[0]);
      QueryFieldsFollow(f.0, methods[1..]);
      var res := QueryFields(ct, methods);
      var rest := QueryFields(f.0, methods[1..]);
      assert res.0 == rest.0 && res.1[1..] == rest.1;
      FieldForGrows(f.1, methods[0], f.0, res.0);
      forall i | 1 <= i < |methods|
        ensures FieldFor(res.1[i], methods[i], res.0)
      {
        assert FieldFor(rest.1[i - 1], methods[1..][i - 1], rest.0);
      }
    }
  }

  /** generateSchema: all registered types carry pairwise distinct names and
      each registry holds its own kind of type; there is one `Query` field per
      method, named by the default rule, typed by what its return type
      resolves to in the final registries (a list exactly when the method
      returns a collection, and never `ID`), with its arguments likewise. */
  function GenerateSchema(methods: seq<QueryMethod>): (res: (ComplexTypes, seq<QueryField>))
    ensures UniqueNames(res.0) && Typed(res.0)
    ensures |res.1| == |methods|
    ensures forall i :: 0 <= i < |methods| ==> FieldFor(res.1[i], methods[i], res.0)
  {
    assert UniqueNames(EmptyTypes);
    QueryFieldsFollow(EmptyTypes, methods);
    QueryFields(EmptyTypes, methods)
  }
}

=== FILE: identifiers.dfy ===
/**
 The two canonical cache keys GraphQLDAOImpl derives from a template class
 and a selection tree.

 - The shallow key (buildSelectionIdentifier) covers exactly what was
   requested, spelled with result keys: the class name, then a bracketed,
   sorted, comma-separated list of tokens; a leaf contributes its result key,
   a field with a sub-selection its result key followed by the nested bracket.
 - The full key (buildDeepSelectionIdentifier) ranges over the template's
   declared fields instead: a selected field (matched by name) contributes its
   name, or its name and the nested full bracket of its element class when it
   has a sub-selection; an unselected `@Id` field contributes its name.
   Selected names the template does not declare are dropped.
 */
module ShapeIdentifiers {

  import opened Wrappers
  import opened Strings
  import opened JavaTypes
  import opened Selection

  /* ---------------------------------------------------------------------
     Shallow key
     --------------------------------------------------------------------- */

  function ShallowKey(model: ClassType, sel: seq<SelField>): string
  {
    QualifiedName(model) + ShallowBracket(sel)
  }

  function ShallowBracket(sel: seq<SelField>): string
    decreases sel, 1
  {
    "[" + Join(Sort(ShallowTokens(sel)), ",") + "]"
  }

  function ShallowTokens(sel: seq<SelField>): (r: seq<string>)
    decreases sel, 0
  {
    if sel == [] then [] else [ShallowToken(sel[0])] + ShallowTokens(sel[1..])
  }

  function ShallowToken(f: SelField): string
    decreases f
  {
    if f.sub == [] then f.resultKey else f.resultKey + ShallowBracket(f.sub)
  }

  /** A selection of one leaf is keyed by that leaf's result key alone: the
      field's name does not enter the shallow key. */
  lemma OneLeafKey(model: ClassType, f: SelField)
    requires f.sub == []
    ensures ShallowKey(model, [f]) == QualifiedName(model) + "[" + f.resultKey + "]"
  {
    assert [f][1..] == [];
    assert ShallowTokens([f]) == [f.resultKey];
    assert Sort([f.resultKey]) == Insert(f.resultKey, []);
  }

  /* ---------------------------------------------------------------------
     Full key
     --------------------------------------------------------------------- */

  /** `@Id` fields are mandatory in every projection (isMandatory). */
  predicate IsMandatory(f: FieldDecl)
  {
    f.isId
  }

  function FullKey(model: ClassType, sel: seq<SelField>): string
  {
    QualifiedName(model) + FullBracket(model, sel)
  }

  function FullBracket(model: ClassType, sel: seq<SelField>): string
    decreases sel, 2, 0
  {
    "[" + Join(Sort(FullTokens(DeclaredFields(model), sel)), ",") + "]"
  }

  /** The tokens of `fields`, in declaration order, before sorting. */
  function FullTokens(fields: seq<FieldDecl>, sel: seq<SelField>): seq<string>
    decreases sel, 1, |fields|
  {
    if fields == [] then [] else FullTokenOf(fields[0], sel) + FullTokens(fields[1..], sel)
  }

  /** At most one token for one declared field. */
  function FullTokenOf(field: FieldDecl, sel: seq<SelField>): (r: seq<string>)
    decreases sel, 0, 0
  {
    match FindByName(sel, field.name)
    case Some(s) =>
      assert s in sel;
      if s.sub == [] then [field.name]
      else [field.name + FullBracket(RealFieldType(field), s.sub)]
    case None =>
      if IsMandatory(field) then [field.name] else []
  }

  /* ---------------------------------------------------------------------
     Order independence of the shallow key
     --------------------------------------------------------------------- */

  /** `b` lists the same fields as `a`, possibly in another order, and so do
      their sub-selections at every level. */
  ghost predicate Reorders(a: seq<SelField>, b: seq<SelField>)
    decreases a
  {
    if a == [] then b == []
    else exists j :: 0 <= j < |b| && SameField(a[0], b[j]) && Reorders(a[1..], b[..j] + b[j + 1..])
  }

  ghost predicate SameField(x: SelField, y: SelField)
    decreases x
  {
    x.name == y.name && x.resultKey == y.resultKey && Reorders(x.sub, y.sub)
  }

  lemma ShallowTokensAppend(a: seq<SelField>, b: seq<SelField>)
    ensures ShallowTokens(a + b) == ShallowTokens(a) + ShallowTokens(b)
  {
    if a != [] {
      assert (a + b)[0] == a[0];
      assert (a + b)[1..] == a[1..] + b;
      ShallowTokensAppend(a[1..], b);
      calc {
        ShallowTokens(a + b);
        [ShallowToken(a[0])] + ShallowTokens(a[1..] + b);
        [ShallowToken(a[0])] + (ShallowTokens(a[1..]) + ShallowTokens(b));
        ([ShallowToken(a[0])] + ShallowTokens(a[1..])) + ShallowTokens(b);
      }
    } else {
      assert a + b == b;
    }
  }

  /** Taking one field out of a selection takes its token out of the tokens. */
  lemma ShallowTokensRemove(b: seq<SelField>, j: nat)
    requires j < |b|
    ensures multiset(ShallowTokens(b)) == multiset{ShallowToken(b[j])} + multiset(ShallowTokens(b[..j] + b[j + 1..]))
  {
    var pre, x, post := b[..j], b[j], b[j + 1..];
    assert b == pre + ([x] + post);
    ShallowTokensSplit(pre, x, post);
  }

  lemma ShallowTokensSplit(pre: seq<SelField>, x: SelField, post: seq<SelField>)
    ensures ShallowTokens(pre + ([x] + post)) == ShallowTokens(pre) + ([ShallowToken(x)] + ShallowTokens(post))
    ensures ShallowTokens(pre + post) == ShallowTokens(pre) + ShallowTokens(post)
  {
    ShallowTokensAppend(pre, [x] + post);
    ShallowTokensAppend([x], post);
    ShallowTokensAppend(pre, post);
    assert ShallowTokens([x]) == [ShallowToken(x)];
  }

  lemma {:induction false} ReordersSameTokens(a: seq<SelField>, b: seq<SelField>)
    requires Reorders(a, b)
    ensures multiset(ShallowTokens(a)) == multiset(ShallowTokens(b))
    decreases a
  {
    if a != [] {
      var j :| 0 <= j < |b| && SameField(a[0], b[j]) && Reorders(a[1..], b[..j] + b[j + 1..]);
      SameFieldSameToken(a[0], b[j]);
      ReordersSameTokens(a[1..], b[..j] + b[j + 1..]);
      ShallowTokensRemove(b, j);
      assert ShallowTokens(a) == [ShallowToken(a[0])] + ShallowTokens(a[1..]);
    }
  }

  lemma {:induction false} SameFieldSameToken(x: SelField, y: SelField)
    requires SameField(x, y)
    ensures ShallowToken(x) == ShallowToken(y)
    decreases x
  {
    ReordersSameTokens(x.sub, y.sub);
    SortCanonical(ShallowTokens(x.sub), ShallowTokens(y.sub));
    assert x.sub == [] <==> y.sub == [];
  }

  /** Reordering sibling fields, at any depth, never changes the shallow key. */
  lemma ShallowKeyOrderIndependent(model: ClassType, a: seq<SelField>, b: seq<SelField>)
    requires Reorders(a, b)
    ensures ShallowKey(model, a) == ShallowKey(model, b)
  {
    ReordersSameTokens(a, b);
    SortCanonical(ShallowTokens(a), ShallowTokens(b));
  }

  /* ---------------------------------------------------------------------
     The full key ignores undeclared selections
     --------------------------------------------------------------------- */

  lemma FindIgnoresOtherName(s1: seq<SelField>, x: SelField, s2: seq<SelField>, name: string)
    requires x.name != name
    ensures FindByName(s1 + [x] + s2, name) == FindByName(s1 + s2, name)
  {
    if s1 != [] {
      assert (s1 + [x] + s2)[1..] == s1[1..] + [x] + s2;
      assert (s1 + s2)[1..] == s1[1..] + s2;
      FindIgnoresOtherName(s1[1..], x, s2, name);
    } else {
      assert s1 + [x] + s2 == [x] + s2;
      assert ([x] + s2)[1..] == s2;
      assert s1 + s2 == s2;
    }
  }

  predicate Declares(fields: seq<FieldDecl>, name: string)
  {
    exists k :: 0 <= k < |fields| && fields[k].name == name
  }

  lemma {:induction false} FullTokensIgnoreField(fields: seq<FieldDecl>, s1: seq<SelField>, x: SelField, s2: seq<SelField>)
    requires !Declares(fields, x.name)
    ensures FullTokens(fields, s1 + [x] + s2) == FullTokens(fields, s1 + s2)
    decreases |fields|
  {
    if fields != [] {
      FindIgnoresOtherName(s1, x, s2, fields[0].name);
      assert !Declares(fields[1..], x.name) by {
        forall k | 0 <= k < |fields[1..]| ensures fields[1..][k].name != x.name {
          assert fields[1..][k] == fields[k + 1];
        }
      }
      FullTokensIgnoreField(fields[1..], s1, x, s2);
    }
  }

  /** A selected field the template does not declare leaves the full key as it
      was: there is no unknown-field error, the name is silently dropped. */
  lemma FullKeyDropsUndeclared(model: ClassType, s1: seq<SelField>, x: SelField, s2: seq<SelField>)
    requires !Declares(DeclaredFields(model), x.name)
    ensures FullKey(model, s1 + [x] + s2) == FullKey(model, s1 + s2)
  {
    FullTokensIgnoreField(DeclaredFields(model), s1, x, s2);
  }

  /* ---------------------------------------------------------------------
     When the two keys coincide
     --------------------------------------------------------------------- */

  predicate FieldNamesDistinct(fields: seq<FieldDecl>)
  {
    forall k, l :: 0 <= k < l < |fields| ==> fields[k].name != fields[l].name
  }

  predicate SelNamesDistinct(sel: seq<SelField>)
  {
    forall i, j :: 0 <= i < j < |sel| ==> sel[i].name != sel[j].name
  }

  /** At every level the selection names each field once, without alias,
      only declared fields, and all `@Id` fields of the class at that level. */
  ghost predicate Canonical(model: ClassType, sel: seq<SelField>)
    decreases sel, 1
  {
    MatchesFields(DeclaredFields(model), sel)
  }

  ghost predicate MatchesFields(fields: seq<FieldDecl>, sel: seq<SelField>)
    decreases sel, 0
  {
    && FieldNamesDistinct(fields)
    && SelNamesDistinct(sel)
    && (forall i :: 0 <= i < |sel| ==> sel[i].resultKey == sel[i].name)
    && (forall i :: 0 <= i < |sel| ==> Declares(fields, sel[i].name))
    && (forall k :: 0 <= k < |fields| && IsMandatory(fields[k]) ==> Selects(sel, fields[k].name))
    && (forall i, k :: 0 <= i < |sel| && 0 <= k < |fields| && sel[i].name == fields[k].name && sel[i].sub != [] ==>
          Canonical(RealFieldType(fields[k]), sel[i].sub))
  }

  lemma SizeOfAppend(a: seq<SelField>, b: seq<SelField>)
    ensures SizeOf(a + b) == SizeOf(a) + SizeOf(b)
  {
    if a != [] {
      assert (a + b)[0] == a[0];
      assert (a + b)[1..] == a[1..] + b;
      SizeOfAppend(a[1..], b);
      assert SizeOf(a + b) == 1 + SizeOf(a[0].sub) + SizeOf(a[1..] + b);
    } else {
      assert a + b == b;
    }
  }

  lemma {:induction false} CanonicalKeysAgree(model: ClassType, sel: seq<SelField>)
    requires Canonical(model, sel)
    ensures ShallowBracket(sel) == FullBracket(model, sel)
    decreases SizeOf(sel), 1, 0
  {
    TokensAgree(DeclaredFields(model), sel);
    SortCanonical(ShallowTokens(sel), FullTokens(DeclaredFields(model), sel));
  }

  lemma FindDistinct(sel: seq<SelField>, j: nat)
    requires SelNamesDistinct(sel) && j < |sel|
    ensures FindByName(sel, sel[j].name) == Some(sel[j])
  {
    var r := FindByName(sel, sel[j].name);
    var i :| 0 <= i < |sel| && sel[i] == r.value;
  }

  lemma OtherFieldNames(fields: seq<FieldDecl>)
    requires fields != [] && FieldNamesDistinct(fields)
    ensures FieldNamesDistinct(fields[1..])
    ensures !Declares(fields[1..], fields[0].name)
  {
    forall k | 0 <= k < |fields[1..]| ensures fields[1..][k].name != fields[0].name {
      assert fields[1..][k] == fields[k + 1];
    }
  }

  /** Matching the field selected at `j` leaves the other declared fields
      matching the other selected fields. */
  lemma RestMatchesSelected(fields: seq<FieldDecl>, sel: seq<SelField>, j: nat)
    requires MatchesFields(fields, sel) && fields != []
    requires j < |sel| && sel[j].name == fields[0].name
    ensures MatchesFields(fields[1..], sel[..j] + sel[j + 1..])
  {
    OtherFieldNames(fields);
    RestDeclaresOthers(fields, sel, j);
    RestMandatorySelected(fields, sel, j);
    RestSubsCanonical(fields, sel, j);
  }

  /** The selection without entry `j`: entry `i` is the old entry `i`
      before `j` and `i + 1` from `j` on. */
  function Without(sel: seq<SelField>, j: nat): (r: seq<SelField>)
    requires j < |sel|
    ensures |r| == |sel| - 1
    ensures forall i :: 0 <= i < |r| ==> r[i] == sel[if i < j then i else i + 1]
  {
    sel[..j] + sel[j + 1..]
  }

  lemma RestDeclaresOthers(fields: seq<FieldDecl>, sel: seq<SelField>, j: nat)
    requires MatchesFields(fields, sel) && fields != []
    requires j < |sel| && sel[j].name == fields[0].name
    ensures SelNamesDistinct(Without(sel, j))
    ensures forall i :: 0 <= i < |sel| - 1 ==> Without(sel, j)[i].resultKey == Without(sel, j)[i].name
    ensures forall i :: 0 <= i < |sel| - 1 ==> Declares(fields[1..], Without(sel, j)[i].name)
  {
    var rest := fields[1..];
    var sel' := Without(sel, j);
    forall i | 0 <= i < |sel'|
      ensures Declares(rest, sel'[i].name)
    {
      var i0 := if i < j then i else i + 1;
      var k :| 0 <= k < |fields| && fields[k].name == sel[i0].name;
      assert k != 0;
      assert rest[k - 1] == fields[k];
    }
  }

  lemma RestMandatorySelected(fields: seq<FieldDecl>, sel: seq<SelField>, j: nat)
    requires MatchesFields(fields, sel) && fields != []
    requires j < |sel| && sel[j].name == fields[0].name
    ensures forall k :: 0 <= k < |fields| - 1 && IsMandatory(fields[1..][k]) ==> Selects(Without(sel, j), fields[1..][k].name)
  {
    var rest := fields[1..];
    var sel' := Without(sel, j);
    forall k | 0 <= k < |rest| && IsMandatory(rest[k])
      ensures Selects(sel', rest[k].name)
    {
      assert rest[k] == fields[k + 1];
      var i :| 0 <= i < |sel| && sel[i].name == rest[k].name;
      if i < j { assert sel'[i] == sel[i]; } else { assert sel'[i - 1] == sel[i]; }
    }
  }

  lemma RestSubsCanonical(fields: seq<FieldDecl>, sel: seq<SelField>, j: nat)
    requires MatchesFields(fields, sel) && fields != []
    requires j < |sel| && sel[j].name == fields[0].name
    ensures forall i, k :: 0 <= i < |sel| - 1 && 0 <= k < |fields| - 1 && Without(sel, j)[i].name == fields[1..][k].name && Without(sel, j)[i].sub != [] ==>
        Canonical(RealFieldType(fields[1..][k]), Without(sel, j)[i].sub)
  {
    var rest := fields[1..];
    var sel' := Without(sel, j);
    forall i, k | 0 <= i < |sel'| && 0 <= k < |rest| && sel'[i].name == rest[k].name && sel'[i].sub != []
      ensures Canonical(RealFieldType(rest[k]), sel'[i].sub)
    {
      assert rest[k] == fields[k + 1];
    }
  }

  /** An unselected declared field is not mandatory, and skipping it leaves
      the selection matching the remaining fields. */
  lemma {:induction false} RestMatchesUnselected(fields: seq<FieldDecl>, sel: seq<SelField>)
    requires MatchesFields(fields, sel) && fields != []
    requires !Selects(sel, fields[0].name)
    ensures !IsMandatory(fields[0])
    ensures MatchesFields(fields[1..], sel)
  {
    var rest := fields[1..];
    OtherFieldNames(fields);
    forall i | 0 <= i < |sel|
      ensures Declares(rest, sel[i].name)
    {
      var k :| 0 <= k < |fields| && fields[k].name == sel[i].name;
      assert k != 0;
      assert rest[k - 1] == fields[k];
    }
    forall k | 0 <= k < |rest| && IsMandatory(rest[k])
      ensures Selects(sel, rest[k].name)
    {
      assert rest[k] == fields[k + 1];
    }
    forall i, k | 0 <= i < |sel| && 0 <= k < |rest| && sel[i].name == rest[k].name && sel[i].sub != []
      ensures Canonical(RealFieldType(rest[k]), sel[i].sub)
    {
      assert rest[k] == fields[k + 1];
    }
  }

  lemma SubSizeBelow(sel: seq<SelField>, j: nat)
    requires j < |sel|
    ensures SizeOf(sel[j].sub) < SizeOf(sel)
    ensures SizeOf(sel[..j] + sel[j + 1..]) < SizeOf(sel)
  {
    var pre, x, post := sel[..j], sel[j], sel[j + 1..];
    assert sel == pre + ([x] + post);
    SizeOfSplit(pre, x, post);
  }

  lemma SizeOfSplit(pre: seq<SelField>, x: SelField, post: seq<SelField>)
    ensures SizeOf(pre + ([x] + post)) == SizeOf(pre) + 1 + SizeOf(x.sub) + SizeOf(post)
    ensures SizeOf(pre + post) == SizeOf(pre) + SizeOf(post)
  {
    SizeOfAppend(pre, [x] + post);
    SizeOfAppend([x], post);
    SizeOfAppend(pre, post);
    assert ([x] + post)[1..] == post;
  }

  /** The multiset step of the selected case of TokensAgree. */
  lemma {:induction false} CombineSelected(fields: seq<FieldDecl>, sel: seq<SelField>, j: nat)
    requires fields != [] && j < |sel|
    requires !Declares(fields[1..], sel[j].name)
    requires FullTokenOf(fields[0], sel) == [ShallowToken(sel[j])]
    requires multiset(FullTokens(fields[1..], sel[..j] + sel[j + 1..]))
          == multiset(ShallowTokens(sel[..j] + sel[j + 1..]))
    ensures multiset(FullTokens(fields, sel)) == multiset(ShallowTokens(sel))
  {
    var x := sel[j];
    assert sel == sel[..j] + [x] + sel[j + 1..];
    FullTokensIgnoreField(fields[1..], sel[..j], x, sel[j + 1..]);
    ShallowTokensRemove(sel, j);
    assert FullTokens(fields, sel) == [ShallowToken(x)] + FullTokens(fields[1..], sel);
  }

  /** Only declared fields may be selected, so with no fields nothing is. */
  lemma SelectionNeedsFields(sel: seq<SelField>)
    requires sel != []
    ensures !MatchesFields([], sel)
  {
    assert !Declares([], sel[0].name);
  }

  /** The shallow tokens of a canonical selection are, up to order, the full
      tokens of the declared fields. */
  lemma {:induction false} TokensAgree(fields: seq<FieldDecl>, sel: seq<SelField>)
    requires MatchesFields(fields, sel)
    ensures multiset(FullTokens(fields, sel)) == multiset(ShallowTokens(sel))
    decreases SizeOf(sel), 0, |fields|
  {
    if fields == [] {
      if sel != [] {
        SelectionNeedsFields(sel);
        assert false;
      }
    } else {
      var d := fields[0];
      if Selects(sel, d.name) {
        var j :| 0 <= j < |sel| && sel[j].name == d.name;
        var x := sel[j];
        FindDistinct(sel, j);
        SubSizeBelow(sel, j);
        if x.sub != [] {
          assert Canonical(RealFieldType(d), x.sub);
          CanonicalKeysAgree(RealFieldType(d), x.sub);
        }
        assert FullTokenOf(d, sel) == [ShallowToken(x)];
        OtherFieldNames(fields);
        RestMatchesSelected(fields, sel, j);
        TokensAgree(fields[1..], sel[..j] + sel[j + 1..]);
        CombineSelected(fields, sel, j);
      } else {
        RestMatchesUnselected(fields, sel);
        assert FullTokenOf(d, sel) == [];
        TokensAgree(fields[1..], sel);
      }
    }
  }

  /** When every level already selects all `@Id` fields, only declared names,
      each once and without aliases, the shallow key is the full key, so the
      cache writes no separate alias entry. */
  lemma CanonicalSelectionKeysCoincide(model: ClassType, sel: seq<SelField>)
    requires Canonical(model, sel)
    ensures ShallowKey(model, sel) == FullKey(model, sel)
  {
    CanonicalKeysAgree(model, sel);
  }
}

=== FILE: javatypes.dfy ===
/**
 The fragment of the Java type system the core inspects through reflection:
 boxed scalars, temporal classes, primitives, enums, entity classes with their
 declared fields, and collections parameterised by one class.

 An entity class embeds its own declaration, so a value of `ClassType` is a
 finite tree: class graphs are acyclic by construction.
 */
module JavaTypes {

  /** The boxed classes that appear as keys of the scalar translation table. */
  datatype BoxedKind = LongClass | IntegerClass | DoubleClass | FloatClass | BooleanClass | StringClass

  /** The raw class of a parameterised collection field (`Set<X>`, `List<X>`). */
  datatype Container = SetOf | ListOf

  datatype ClassType =
    | Boxed(kind: BoxedKind)
      /** a class implementing `java.time.temporal.Temporal` */
    | TemporalClass(name: string, simpleName: string)
      /** `int`, `long`, ...: not assignable to any boxed class */
    | Primitive(name: string)
    | EnumClass(name: string, simpleName: string, constants: seq<string>)
    | Entity(decl: ClassDecl)
      /** the raw collection interface itself (`java.util.Set`, `java.util.List`) */
    | CollectionClass(container: Container)

  /** A class with its declared fields, in declaration order. */
  datatype ClassDecl = ClassDecl(name: string, simpleName: string, fields: seq<FieldDecl>)

  /** A declared field; `isId` records the `@Id` annotation. */
  datatype FieldDecl = FieldDecl(name: string, ftype: JavaType, isId: bool)

  /** A field's generic type: a plain class, or a collection of one class. */
  datatype JavaType = Plain(cls: ClassType) | Generic(container: Container, arg: ClassType)

  function BoxedName(k: BoxedKind): string
  {
    match k
    case LongClass => "java.lang.Long"
    case IntegerClass => "java.lang.Integer"
    case DoubleClass => "java.lang.Double"
    case FloatClass => "java.lang.Float"
    case BooleanClass => "java.lang.Boolean"
    case StringClass => "java.lang.String"
  }

  function ContainerName(k: Container): string
  {
    match k
    case SetOf => "Set"
    case ListOf => "List"
  }

  /** `Class.getName()`. */
  function QualifiedName(c: ClassType): string
  {
    match c
    case Boxed(k) => BoxedName(k)
    case TemporalClass(n, _) => n
    case Primitive(n) => n
    case EnumClass(n, _, _) => n
    case Entity(d) => d.name
    case CollectionClass(k) => "java.util." + ContainerName(k)
  }

  /** `Class.getSimpleName()`. */
  function SimpleName(c: ClassType): string
  {
    match c
    case Boxed(k) => BoxedName(k)[10..]
    case TemporalClass(_, s) => s
    case Primitive(n) => n
    case EnumClass(_, s, _) => s
    case Entity(d) => d.simpleName
    case CollectionClass(k) => ContainerName(k)
  }

  /** `Class.getDeclaredFields()` for the classes whose fields the core walks;
      the other classes are only ever consulted for their name. */
  function DeclaredFields(c: ClassType): seq<FieldDecl>
  {
    if c.Entity? then c.decl.fields else []
  }

  /** `Collection.class.isAssignableFrom(field.getType())` for the field
      types of templates, whose collections are always parameterised. */
  function IsCollection(t: JavaType): bool
  {
    t.Generic?
  }

  /** `Field.getType()`: the raw class of a field's type. A parameterised
      collection loses its element class; any other type is its own class. */
  function RawType(t: JavaType): (r: JavaType)
    ensures r.Plain?
    ensures t.Plain? ==> r == t
    ensures t.Generic? ==> r.cls == CollectionClass(t.container)
  {
    match t
    case Plain(_) => t
    case Generic(k, _) => Plain(CollectionClass(k))
  }

  /** The element class of a collection field, or the field's own class
      (getRealFieldType in GraphQLDAOImpl). */
  function RealFieldType(f: FieldDecl): ClassType
  {
    match f.ftype
    case Plain(c) => c
    case Generic(_, a) => a
  }
}

=== FILE: projection.dfy ===
/**
 The projection cache of GraphQLDAOImpl, as a sequential state machine.

 A request names a template class and a selection tree. The cache answers
 with a minimal class that declares only the template's fields that are
 selected or `@Id`, with related entities narrowed recursively. A new class
 is registered as a managed class of the persistence unit, and a top-level
 request that built one rebuilds the persistence context (the
 `EntityManagerFactory`) from every managed class, scheduling the previous
 context for close after a delay.

 Generated classes are modelled by their declaration (`ClassDecl`): a name
 and a typed field list. The persistence context is modelled by the set of
 class names it was built with.
 */
module ProjectionCache {

  import opened Wrappers
  import opened Strings
  import opened JavaTypes
  import opened Selection
  import opened ShapeIdentifiers

  /** `graphql-dao.connection.close-delay` defaults to PT4S. */
  const DefaultCloseDelayMillis: nat := 4000

  /** A persistence context: its connection number, the managed classes it
      was built with, and whether it has been closed through the DAO. */
  datatype Context = Context(number: nat, known: set<string>, closed: bool)

  /** A close of context `number`, handed to the scheduler with a delay. */
  datatype ScheduledClose = ScheduledClose(number: nat, delayMillis: nat)

  datatype DaoState = DaoState(
    cache: map<string, ClassDecl>,  // entityDefinitionCache
    managed: seq<string>,           // managed class names of the persistence unit
    entityCounter: nat,             // suffix of the next generated class name
    connectionBase: nat,            // connection counter when this DAO was created
    connectionCounter: nat,         // number of contexts opened so far in the JVM
    contexts: seq<Context>,         // every context opened; the last one is current
    scheduled: seq<ScheduledClose>, // closes handed to the scheduler, in order
    closeDelayMillis: nat)

  /** A new DAO. Both counters are static in the source, so a DAO starts
      from whatever values earlier DAOs of the same JVM left behind. */
  function Init(closeDelayMillis: nat, entityCounter: nat, connectionCounter: nat): (st: DaoState)
    ensures st.cache == map[] && st.managed == [] && st.contexts == []
    ensures st.entityCounter == entityCounter && st.connectionCounter == connectionCounter
    ensures Valid(st)
  {
    DaoState(map[], [], entityCounter, connectionCounter, connectionCounter, [], [], closeDelayMillis)
  }

  function Last<T>(s: seq<T>): T
    requires s != []
  {
    s[|s| - 1]
  }

  ghost function ManagedSet(st: DaoState): set<string>
  {
    set i | 0 <= i < |st.managed| :: st.managed[i]
  }

  /* ---------------------------------------------------------------------
     Invariants and the relation between successive states
     --------------------------------------------------------------------- */

  /** Every cached class has been added to the managed classes. */
  ghost predicate CacheManaged(st: DaoState)
  {
    forall k :: k in st.cache ==> st.cache[k].name in st.managed
  }

  /** Every cached class is managed, and the current context (when there is
      one) was built with exactly the managed classes. */
  ghost predicate Valid(st: DaoState)
  {
    && CacheManaged(st)
    && (st.contexts == [] ==> st.managed == [])
    && (st.contexts != [] ==> Last(st.contexts).known == ManagedSet(st))
    && st.connectionCounter == st.connectionBase + |st.contexts|
  }

  /** The cache only grows and never overwrites an entry; the managed list,
      the context history and the scheduled closes only grow at the end. */
  ghost predicate Grows(st: DaoState, st': DaoState)
  {
    && (forall k :: k in st.cache ==> k in st'.cache && st'.cache[k] == st.cache[k])
    && st.managed <= st'.managed
    && st.entityCounter <= st'.entityCounter
    && st.contexts <= st'.contexts
    && st.scheduled <= st'.scheduled
    && st.connectionCounter <= st'.connectionCounter
    && st'.closeDelayMillis == st.closeDelayMillis
    && st'.connectionBase == st.connectionBase
  }

  /** The persistence context was left alone. */
  ghost predicate SameContexts(st: DaoState, st': DaoState)
  {
    st'.contexts == st.contexts && st'.scheduled == st.scheduled && st'.connectionCounter == st.connectionCounter
  }

  lemma GrowsTransitive(a: DaoState, b: DaoState, c: DaoState)
    requires Grows(a, b) && Grows(b, c)
    ensures Grows(a, c)
  {
  }

  /* ---------------------------------------------------------------------
     The shape of a minimal class
     --------------------------------------------------------------------- */

  /** The declared fields a minimal class keeps: selected or mandatory, in
      declaration order. */
  function KeptFields(fields: seq<FieldDecl>, sel: seq<SelField>): (r: seq<FieldDecl>)
  {
    if fields == [] then []
    else if Selects(sel, fields[0].name) || IsMandatory(fields[0]) then [fields[0]] + KeptFields(fields[1..], sel)
    else KeptFields(fields[1..], sel)
  }

  /** The minimal class keeps a declared field exactly when it is selected
      or mandatory, and nothing else. */
  lemma {:induction false} KeptFieldsMembers(fields: seq<FieldDecl>, sel: seq<SelField>)
    ensures forall d :: d in KeptFields(fields, sel) <==> d in fields && (Selects(sel, d.name) || IsMandatory(d))
  {
    if fields != [] {
      KeptFieldsMembers(fields[1..], sel);
      assert fields == [fields[0]] + fields[1..];
    }
  }

  /** The kept fields come in declaration order: they form a subsequence of
      the declared ones. */
  lemma {:induction false} KeptFieldsInOrder(fields: seq<FieldDecl>, sel: seq<SelField>)
    ensures IsSubsequence(KeptFields(fields, sel), fields)
  {
    if fields != [] {
      KeptFieldsInOrder(fields[1..], sel);
    }
  }

  /** `now` is `orig` with its element class replaced by the generated class
      `m`: a plain field becomes `m`, a collection stays the same collection
      of `m`. */
  predicate NarrowedTo(orig: JavaType, now: JavaType, m: ClassDecl)
  {
    match orig
    case Plain(_) => now == Plain(Entity(m))
    case Generic(c, _) => now == Generic(c, Entity(m))
  }

  /** The typing rule of appendField: an unselected mandatory field, or a
      selected field without sub-selection, gets the raw class of its
      template type (`Field.getType()`, so `Set<X>` becomes `Set`); a field
      selected with a sub-selection gets the minimal class the cache holds
      for its element class and that sub-selection. */
  ghost predicate Retyped(template: FieldDecl, built: FieldDecl, sel: seq<SelField>, cache: map<string, ClassDecl>)
  {
    && built.name == template.name
    && built.isId == template.isId
    && match FindByName(sel, template.name)
       case None => built.ftype == RawType(template.ftype)
       case Some(s) =>
         if s.sub == [] then built.ftype == RawType(template.ftype)
         else
           var key := ShallowKey(RealFieldType(template), s.sub);
           key in cache && NarrowedTo(template.ftype, built.ftype, cache[key])
  }

  /** `built` is `kept`, field by field, retyped by the rule above. */
  ghost predicate ShapedAs(built: seq<FieldDecl>, kept: seq<FieldDecl>, sel: seq<SelField>, cache: map<string, ClassDecl>)
  {
    |built| == |kept| && (kept != [] ==> Retyped(kept[0], built[0], sel, cache) && ShapedAs(built[1..], kept[1..], sel, cache))
  }

  lemma RetypedStable(template: FieldDecl, built: FieldDecl, sel: seq<SelField>, c: map<string, ClassDecl>, c': map<string, ClassDecl>)
    requires Retyped(template, built, sel, c)
    requires forall k :: k in c ==> k in c' && c'[k] == c[k]
    ensures Retyped(template, built, sel, c')
  {
  }

  lemma ShapedPrepend(template: FieldDecl, built: FieldDecl, kept: seq<FieldDecl>, rest: seq<FieldDecl>,
                      sel: seq<SelField>, cache: map<string, ClassDecl>)
    requires Retyped(template, built, sel, cache) && ShapedAs(rest, kept, sel, cache)
    ensures ShapedAs([built] + rest, [template] + kept, sel, cache)
  {
    assert ([built] + rest)[1..] == rest && ([template] + kept)[1..] == kept;
  }

  function CopyName(model: ClassType, n: nat): string
  {
    QualifiedName(model) + "$copy" + NatToString(n)
  }

  /* ---------------------------------------------------------------------
     getMinimalClass / buildMinimalClass / appendField
     --------------------------------------------------------------------- */

  /** Returns the minimal class for `model` and `sel`, and the state after
      the lookup. `firstEntry` marks the top-level call of a request. */
  function GetMinimalClass(st: DaoState, model: ClassType, sel: seq<SelField>, firstEntry: bool): (res: (DaoState, ClassDecl))
    decreases SizeOf(sel), 3, 0
    ensures Grows(st, res.0)
    ensures CacheManaged(st) ==> CacheManaged(res.0)
    ensures ShallowKey(model, sel) in res.0.cache && res.0.cache[ShallowKey(model, sel)] == res.1
    ensures !firstEntry ==> SameContexts(st, res.0)
  {
    var shallow := ShallowKey(model, sel);
    if shallow in st.cache then
      (st, st.cache[shallow])
    else
      var full := FullKey(model, sel);
      if full != shallow && full in st.cache then
        // new alias for the same class
        (st.(cache := st.cache[shallow := st.cache[full]]), st.cache[full])
      else
        // (the source re-checks the full key under a lock here; sequentially
        // that re-check can only miss, since both keys were just found absent)
        var built := BuildMinimalClass(st, model, sel);
        RegisterGrows(st, built.0, full, shallow, built.1, firstEntry);
        (Register(built.0, full, shallow, built.1, firstEntry), built.1)
  }

  /** Registering under two keys the earlier state did not hold keeps
      everything that state had. */
  lemma RegisterGrows(st: DaoState, mid: DaoState, full: string, shallow: string, cls: ClassDecl, firstEntry: bool)
    requires Grows(st, mid) && full !in st.cache && shallow !in st.cache
    ensures Grows(st, Register(mid, full, shallow, cls, firstEntry))
  {
  }

  /** A shallow-key hit returns the cached class and leaves the state untouched. */
  lemma LookupHit(st: DaoState, model: ClassType, sel: seq<SelField>, firstEntry: bool)
    requires ShallowKey(model, sel) in st.cache
    ensures GetMinimalClass(st, model, sel, firstEntry) == (st, st.cache[ShallowKey(model, sel)])
  {
  }

  /** A new shallow key whose full key is already cached (under another
      shallow key) becomes an alias of that class: nothing is built, no
      counter moves, and only the shallow key is added. */
  lemma LookupAlias(st: DaoState, model: ClassType, sel: seq<SelField>, firstEntry: bool)
    requires ShallowKey(model, sel) !in st.cache
    requires FullKey(model, sel) != ShallowKey(model, sel) && FullKey(model, sel) in st.cache
    ensures var res := GetMinimalClass(st, model, sel, firstEntry);
            && res.1 == st.cache[FullKey(model, sel)]
            && res.0 == st.(cache := st.cache[ShallowKey(model, sel) := res.1])
  {
  }

  /** Otherwise exactly one class is built for this level: it is named after
      the counter value at entry, stored under the full key, added to the
      managed classes, and a top-level request rebuilds the context from the
      managed classes (the new one included) exactly once. */
  lemma LookupMiss(st: DaoState, model: ClassType, sel: seq<SelField>, firstEntry: bool)
    requires ShallowKey(model, sel) !in st.cache
    requires FullKey(model, sel) == ShallowKey(model, sel) || FullKey(model, sel) !in st.cache
    ensures var res := GetMinimalClass(st, model, sel, firstEntry);
            var built := BuildMinimalClass(st, model, sel);
            && res.1 == built.1
            && res.1.name == CopyName(model, st.entityCounter)
            && res.0.entityCounter == built.0.entityCounter > st.entityCounter
            && FullKey(model, sel) in res.0.cache && res.0.cache[FullKey(model, sel)] == res.1
            && res.0.managed == built.0.managed + [res.1.name]
            && (firstEntry ==> && res.0.connectionCounter == st.connectionCounter + 1
                               && res.0.contexts != []
                               && res.1.name in Last(res.0.contexts).known)
  {
    var res := GetMinimalClass(st, model, sel, firstEntry);
    assert res.0.managed[|res.0.managed| - 1] == res.1.name;
  }

  /** Asking again for the same template and selection is a hit: the same
      class comes back and nothing changes. */
  lemma RepeatedRequestHits(st: DaoState, model: ClassType, sel: seq<SelField>, firstEntry: bool, again: bool)
    ensures var first := GetMinimalClass(st, model, sel, firstEntry);
            GetMinimalClass(first.0, model, sel, again) == first
  {
    var first := GetMinimalClass(st, model, sel, firstEntry);
    LookupHit(first.0, model, sel, again);
  }

  /** Listing the requested fields in another order (at any depth) is also a
      hit on the class built for the first order. */
  lemma ReorderedRequestHits(st: DaoState, model: ClassType, a: seq<SelField>, b: seq<SelField>, again: bool)
    requires Reorders(a, b)
    ensures var first := GetMinimalClass(st, model, a, true);
            GetMinimalClass(first.0, model, b, again) == first
  {
    var first := GetMinimalClass(st, model, a, true);
    ShallowKeyOrderIndependent(model, a, b);
    LookupHit(first.0, model, b, again);
  }

  /** Two requests with one shallow key share one class: after the first,
      the second is a hit that returns the first's class and state. */
  lemma SharedShallowKeyHits(st: DaoState, model: ClassType, a: seq<SelField>, b: seq<SelField>,
                             firstEntry: bool, again: bool)
    requires ShallowKey(model, a) == ShallowKey(model, b)
    ensures var r1 := GetMinimalClass(st, model, a, firstEntry);
            GetMinimalClass(r1.0, model, b, again) == r1
  {
    var r1 := GetMinimalClass(st, model, a, firstEntry);
    LookupHit(r1.0, model, b, again);
  }

  /** The shallow key spells result keys, not field names: two one-leaf
      requests that give the same result key to different fields have one
      shallow key, so the second is a hit on the class built for the first,
      whatever field it names. */
  lemma AliasedLeavesShareClass(st: DaoState, model: ClassType, first: string, second: string, key: string,
                                firstEntry: bool, again: bool)
    ensures var r1 := GetMinimalClass(st, model, [SelField(first, key, [])], firstEntry);
            GetMinimalClass(r1.0, model, [SelField(second, key, [])], again) == r1
  {
    OneLeafKey(model, SelField(first, key, []));
    OneLeafKey(model, SelField(second, key, []));
    SharedShallowKeyHits(st, model, [SelField(first, key, [])], [SelField(second, key, [])], firstEntry, again);
  }

  /** A top-level request keeps the DAO in sync: every cached class is
      managed and the current context knows all of them. */
  lemma TopLevelKeepsValid(st: DaoState, model: ClassType, sel: seq<SelField>)
    requires Valid(st)
    ensures Valid(GetMinimalClass(st, model, sel, true).0)
  {
  }

  /** The tail of a miss in getMinimalClass: stores the new class under its
      full key and (when different) its shallow key, adds it to the managed
      classes, and rebuilds the context for a top-level request. Only the
      two keys are written; every other entry is kept. */
  function Register(st: DaoState, full: string, shallow: string, cls: ClassDecl, firstEntry: bool): (st': DaoState)
    ensures forall k :: k in st.cache && k != full && k != shallow ==> k in st'.cache && st'.cache[k] == st.cache[k]
    ensures st'.entityCounter == st.entityCounter && st'.closeDelayMillis == st.closeDelayMillis
    ensures st'.connectionBase == st.connectionBase
    ensures st.contexts <= st'.contexts && st.scheduled <= st'.scheduled && st.connectionCounter <= st'.connectionCounter
    ensures full in st'.cache && st'.cache[full] == cls
    ensures shallow in st'.cache && st'.cache[shallow] == cls
    ensures st'.managed == st.managed + [cls.name]
    ensures !firstEntry ==> SameContexts(st, st')
    ensures firstEntry ==> st'.connectionCounter == st.connectionCounter + 1 && st'.contexts != [] && Last(st'.contexts).known == ManagedSet(st')
    ensures CacheManaged(st) ==> CacheManaged(st')
    ensures firstEntry && CacheManaged(st) && st.connectionCounter == st.connectionBase + |st.contexts| ==> Valid(st')
  {
    var cache' := if full != shallow then st.cache[full := cls][shallow := cls] else st.cache[full := cls];
    var st2 := st.(cache := cache', managed := st.managed + [cls.name]);
    assert CacheManaged(st) ==> CacheManaged(st2) by {
      if CacheManaged(st) {
        forall k | k in st2.cache ensures st2.cache[k].name in st2.managed {
          if k != full && k != shallow {
            assert st2.cache[k] == st.cache[k];
          }
        }
      }
    }
    if firstEntry then RefreshEntityManager(st2) else st2
  }

  /** Builds the minimal class itself: takes the next counter value for its
      name, then appends the kept fields in declaration order. */
  function BuildMinimalClass(st: DaoState, model: ClassType, sel: seq<SelField>): (res: (DaoState, ClassDecl))
    decreases SizeOf(sel), 2, 0
    ensures Grows(st, res.0) && SameContexts(st, res.0)
    ensures CacheManaged(st) ==> CacheManaged(res.0)
    ensures res.0.entityCounter > st.entityCounter
    ensures res.1.name == CopyName(model, st.entityCounter)
    ensures ShapedAs(res.1.fields, KeptFields(DeclaredFields(model), sel), sel, res.0.cache)
  {
    var className := CopyName(model, st.entityCounter);
    var st0 := st.(entityCounter := st.entityCounter + 1);
    var appended := AppendFields(st0, DeclaredFields(model), sel);
    (appended.0, ClassDecl(className, SimpleName(model) + "$copy" + NatToString(st.entityCounter), appended.1))
  }

  /** The loop of buildMinimalClass over the remaining declared fields. */
  function AppendFields(st: DaoState, fields: seq<FieldDecl>, sel: seq<SelField>): (res: (DaoState, seq<FieldDecl>))
    decreases SizeOf(sel), 1, |fields|
    ensures Grows(st, res.0) && SameContexts(st, res.0)
    ensures CacheManaged(st) ==> CacheManaged(res.0)
    ensures ShapedAs(res.1, KeptFields(fields, sel), sel, res.0.cache)
  {
    if fields == [] then (st, [])
    else
      var field := fields[0];
      var selected := FindByName(sel, field.name);
      if selected.Some? || IsMandatory(field) then
        assert selected.Some? ==> OptionSize(selected) <= SizeOf(sel) by {
          if selected.Some? { FieldSizeBound(sel, selected.value); }
        }
        var head := AppendField(st, field, selected, sel);
        var tail := AppendFields(head.0, fields[1..], sel);
        RetypedStable(field, head.1, sel, head.0.cache, tail.0.cache);
        ShapedPrepend(field, head.1, KeptFields(fields[1..], sel), tail.1, sel, tail.0.cache);
        (tail.0, [head.1] + tail.1)
      else
        AppendFields(st, fields[1..], sel)
  }

  /** appendField: copies a field, narrowing a related entity that carries a
      sub-selection to its own minimal class. */
  function AppendField(st: DaoState, field: FieldDecl, selected: Option<SelField>, ghost sel: seq<SelField>): (res: (DaoState, FieldDecl))
    requires selected == FindByName(sel, field.name)
    decreases OptionSize(selected), 0, 0
    ensures Grows(st, res.0) && SameContexts(st, res.0)
    ensures CacheManaged(st) ==> CacheManaged(res.0)
    ensures Retyped(field, res.1, sel, res.0.cache)
  {
    if selected.None? || selected.value.sub == [] then
      // simple field
      (st, FieldDecl(field.name, RawType(field.ftype), field.isId))
    else
      var sub := GetMinimalClass(st, RealFieldType(field), selected.value.sub, false);
      match field.ftype
      case Generic(c, _) => (sub.0, FieldDecl(field.name, Generic(c, Entity(sub.1)), field.isId))
      case Plain(_) => (sub.0, FieldDecl(field.name, Plain(Entity(sub.1)), field.isId))
  }

  /* ---------------------------------------------------------------------
     refreshEntityManager / getEntityManager / close / find
     --------------------------------------------------------------------- */

  /** Schedules the current context (if any) for close after the configured
      delay, opens a new one built from every managed class, and counts it. */
  function RefreshEntityManager(st: DaoState): (st': DaoState)
    ensures st'.cache == st.cache && st'.managed == st.managed && st'.entityCounter == st.entityCounter
    ensures st'.connectionBase == st.connectionBase
    ensures st'.connectionCounter == st.connectionCounter + 1
    ensures st'.contexts == st.contexts + [Context(st.connectionCounter + 1, ManagedSet(st), false)]
    ensures st.contexts != [] ==>
              st'.scheduled == st.scheduled + [ScheduledClose(Last(st.contexts).number, st.closeDelayMillis)]
    ensures st.contexts == [] ==> st'.scheduled == st.scheduled
  {
    var scheduled := if st.contexts != [] then st.scheduled + [ScheduledClose(Last(st.contexts).number, st.closeDelayMillis)]
                     else st.scheduled;
    var n := st.connectionCounter + 1;
    st.(scheduled := scheduled,
        contexts := st.contexts + [Context(n, set i | 0 <= i < |st.managed| :: st.managed[i], false)],
        connectionCounter := n)
  }

  /** Returns the current context when it is open, and refreshes otherwise. */
  function GetEntityManager(st: DaoState): (res: (DaoState, Context))
    ensures res.0.contexts != [] && res.1 == Last(res.0.contexts) && !res.1.closed
    ensures Valid(st) ==> Valid(res.0)
    ensures Valid(st) ==> res.1.known == ManagedSet(st)
    ensures st.contexts != [] && !Last(st.contexts).closed ==> res.0 == st
    ensures res.0.cache == st.cache && res.0.managed == st.managed && res.0.entityCounter == st.entityCounter
    ensures st.contexts <= res.0.contexts
  {
    if st.contexts != [] && !Last(st.contexts).closed then (st, Last(st.contexts))
    else
      var st' := RefreshEntityManager(st);
      (st', Last(st'.contexts))
  }

  /** close(): closes the current context, if any. Nothing else changes:
      the closes already handed to the scheduler stay as they are, and the
      earlier contexts keep their flags. */
  function Close(st: DaoState): (st': DaoState)
    ensures st.contexts != [] ==> st'.contexts != [] && Last(st'.contexts).closed
    ensures Valid(st) ==> Valid(st')
    ensures st.contexts == [] ==> st' == st
    ensures && st'.cache == st.cache && st'.managed == st.managed && st'.entityCounter == st.entityCounter
            && st'.connectionCounter == st.connectionCounter && st'.scheduled == st.scheduled
            && st'.connectionBase == st.connectionBase && st'.closeDelayMillis == st.closeDelayMillis
    ensures |st'.contexts| == |st.contexts|
    ensures st.contexts != [] ==>
              && st'.contexts[..|st.contexts| - 1] == st.contexts[..|st.contexts| - 1]
              && Last(st'.contexts).number == Last(st.contexts).number
              && Last(st'.contexts).known == Last(st.contexts).known
  {
    if st.contexts == [] then st
    else
      var c := Last(st.contexts);
      st.(contexts := st.contexts[..|st.contexts| - 1] + [c.(closed := true)])
  }

  /** find: the minimal class of a top-level request, which is the class
      the cache now holds under the request's shallow key, and the context
      the lookup by primary key runs in, which always knows that class. */
  function Find(st: DaoState, model: ClassType, sel: seq<SelField>): (res: (DaoState, ClassDecl, Context))
    requires Valid(st)
    ensures Valid(res.0)
    ensures res.1.name in res.2.known && !res.2.closed
    ensures res.0.contexts != [] && res.2 == Last(res.0.contexts)
    ensures ShallowKey(model, sel) in res.0.cache && res.0.cache[ShallowKey(model, sel)] == res.1
  {
    var found := GetMinimalClass(st, model, sel, true);
    var em := GetEntityManager(found.0);
    assert found.1.name in found.0.managed;
    (em.0, found.1, em.1)
  }

  /** Two `find` calls whose requests share a shallow key query the same
      class. */
  lemma FindSharedKeySameClass(st: DaoState, model: ClassType, a: seq<SelField>, b: seq<SelField>)
    requires Valid(st)
    requires ShallowKey(model, a) == ShallowKey(model, b)
    ensures var r1 := Find(st, model, a);
            Find(r1.0, model, b).1 == r1.1
  {
    var r1 := Find(st, model, a);
    LookupHit(r1.0, model, b, true);
  }
}

=== FILE: schema.dfy ===
/**
 The schema rules of GraphQLConfig: which GraphQL type a Java class gets.

 A class is resolved in a fixed order: a type already registered for it in
 the requested direction (output or input), then an enum type, then a
 scalar from the translation table (turned into `ID` by the naming rule),
 and otherwise a new object or input object type built from its declared
 fields. Collection-typed returns, parameters and fields become lists of
 their element class's type. Built types are registered per class and per
 direction; enum types are registered once and serve both directions.
 */
module SchemaRules {

  import opened Wrappers
  import opened Strings
  import opened JavaTypes
  import opened TypeNames

  /* ---------------------------------------------------------------------
     Scalar translation (typetranslation / getBestScalar)
     --------------------------------------------------------------------- */

  /** A key class of the translation table: a boxed class, or the
      `Temporal` interface. */
  datatype TableKey = BoxedKey(kind: BoxedKind) | TemporalKey

  /** `key.isAssignableFrom(type)`: the boxed classes are final, so only the
      class itself; every temporal class implements `Temporal`. */
  predicate AssignableFrom(key: TableKey, t: ClassType)
  {
    match key
    case BoxedKey(k) => t == Boxed(k)
    case TemporalKey => t.TemporalClass?
  }

  /** The table's entries. `Map.of` gives no iteration order, so this is one
      order among many; `TableOrderIrrelevant` shows the order never matters. */
  const TypeTranslation: seq<(TableKey, ScalarKind)> := [
    (BoxedKey(LongClass), GraphQLInt),
    (BoxedKey(IntegerClass), GraphQLInt),
    (BoxedKey(DoubleClass), GraphQLFloat),
    (BoxedKey(FloatClass), GraphQLFloat),
    (BoxedKey(BooleanClass), GraphQLBoolean),
    (BoxedKey(StringClass), GraphQLString),
    (TemporalKey, GraphQLString)
  ]

  /** The stream over the table: the first entry whose key is assignable. */
  function FirstMatch(table: seq<(TableKey, ScalarKind)>, t: ClassType): (r: Option<ScalarKind>)
    ensures r.Some? ==> exists i :: 0 <= i < |table| && AssignableFrom(table[i].0, t) && table[i].1 == r.value
    ensures r.None? ==> forall i :: 0 <= i < |table| ==> !AssignableFrom(table[i].0, t)
  {
    if table == [] then None
    else if AssignableFrom(table[0].0, t) then Some(table[0].1)
    else
      var r := FirstMatch(table[1..], t);
      assert forall i :: 1 <= i < |table| ==> table[i] == table[1..][i - 1];
      r
  }

  /** Reference scalar mapping, class by class. */
  function ScalarOf(t: ClassType): Option<ScalarKind>
  {
    match t
    case Boxed(LongClass) => Some(GraphQLInt)
    case Boxed(IntegerClass) => Some(GraphQLInt)
    case Boxed(DoubleClass) => Some(GraphQLFloat)
    case Boxed(FloatClass) => Some(GraphQLFloat)
    case Boxed(BooleanClass) => Some(GraphQLBoolean)
    case Boxed(StringClass) => Some(GraphQLString)
    case TemporalClass(_, _) => Some(GraphQLString)
    case _ => None
  }

  /** At most one table entry accepts any given class. */
  lemma AtMostOneEntryMatches(t: ClassType, i: nat, j: nat)
    requires i < |TypeTranslation| && j < |TypeTranslation|
    requires AssignableFrom(TypeTranslation[i].0, t) && AssignableFrom(TypeTranslation[j].0, t)
    ensures i == j
  {
  }

  /** Every class the reference mapping translates has an entry. */
  lemma TableCovers(t: ClassType)
    requires ScalarOf(t).Some?
    ensures exists i :: 0 <= i < |TypeTranslation| && AssignableFrom(TypeTranslation[i].0, t) && TypeTranslation[i].1 == ScalarOf(t).value
  {
    match t
    case Boxed(k) =>
      match k {
        case LongClass => assert AssignableFrom(TypeTranslation[0].0, t);
        case IntegerClass => assert AssignableFrom(TypeTranslation[1].0, t);
        case DoubleClass => assert AssignableFrom(TypeTranslation[2].0, t);
        case FloatClass => assert AssignableFrom(TypeTranslation[3].0, t);
        case BooleanClass => assert AssignableFrom(TypeTranslation[4].0, t);
        case StringClass => assert AssignableFrom(TypeTranslation[5].0, t);
      }
    case TemporalClass(_, _) => assert AssignableFrom(TypeTranslation[6].0, t);
  }

  /** Whatever order the table is walked in, the first match is the
      reference mapping. */
  lemma TableOrderIrrelevant(table: seq<(TableKey, ScalarKind)>, t: ClassType)
    requires forall e :: e in table <==> e in TypeTranslation
    ensures FirstMatch(table, t) == ScalarOf(t)
  {
    var r := FirstMatch(table, t);
    if ScalarOf(t).Some? {
      TableCovers(t);
      var i :| 0 <= i < |TypeTranslation| && AssignableFrom(TypeTranslation[i].0, t) && TypeTranslation[i].1 == ScalarOf(t).value;
      assert TypeTranslation[i] in table;
    }
    if r.Some? {
      var i :| 0 <= i < |table| && AssignableFrom(table[i].0, t) && table[i].1 == r.value;
      assert table[i] in TypeTranslation;
    }
  }

  /** An attribute: the field or `@Argument` parameter a type is resolved
      for. Top-level return types have none. */
  datatype Attribute = Attribute(name: string, hasIdAnnotation: bool)

  /** The ID naming rule. */
  predicate NamesAnId(a: Attribute)
  {
    a.name == "id" || a.name == "ids" || EndsWith(a.name, "Id") || EndsWith(a.name, "Ids") || a.hasIdAnnotation
  }

  /** getBestScalar(type, attribute). */
  function BestScalar(t: ClassType, attr: Option<Attribute>): (r: Option<ScalarKind>)
    ensures r.None? <==> ScalarOf(t).None?
    ensures r == Some(GraphQLID) <==> ScalarOf(t).Some? && attr.Some? && NamesAnId(attr.value)
    ensures r.Some? && r != Some(GraphQLID) ==> r == ScalarOf(t)
  {
    match FirstMatch(TypeTranslation, t)
    case None =>
      TableOrderIrrelevant(TypeTranslation, t);
      None
    case Some(s) =>
      TableOrderIrrelevant(TypeTranslation, t);
      if attr.Some? && NamesAnId(attr.value) then Some(GraphQLID) else Some(s)
  }

  /* ---------------------------------------------------------------------
     Type resolution (getOrBuildOutputType / getOrBuildInputType /
     getOrBuildEnumType)
     --------------------------------------------------------------------- */

  datatype Direction = Output | Input

  function SlotOf(dir: Direction): Slot
  {
    if dir == Output then OutputSlot else InputSlot
  }

  /** Size of a class's field tree: the termination measure of resolution. */
  function ClassSize(c: ClassType): nat
  {
    if c.Entity? then 1 + FieldsSize(c.decl.fields) else 1
  }

  function FieldsSize(fs: seq<FieldDecl>): nat
  {
    if fs == [] then 0
    else
      ClassSize(RealFieldType(fs[0])) + FieldsSize(fs[1..])
  }

  /** The registries only grow, and no registered type is replaced. */
  ghost predicate Grows(ct: ComplexTypes, ct': ComplexTypes)
  {
    forall s, k :: k in Registry(ct, s) ==> k in Registry(ct', s) && Registry(ct', s)[k] == Registry(ct, s)[k]
  }

  /** Every class newly registered between `ct` and `ct'` is no larger than
      `bound`: resolving a class registers only classes of its own field tree. */
  ghost predicate AddsOnlyBelow(ct: ComplexTypes, ct': ComplexTypes, bound: nat)
  {
    forall s, k :: k in Registry(ct', s) && k !in Registry(ct, s) ==> ClassSize(k) <= bound
  }

  /** The type a list wraps, or the type itself. */
  function ElemOf(ty: GqlType): GqlType
  {
    if ty.GqlList? then ty.elem else ty
  }

  lemma GrowsTransitive(a: ComplexTypes, b: ComplexTypes, c: ComplexTypes)
    requires Grows(a, b) && Grows(b, c)
    ensures Grows(a, c)
  {
  }

  /** A class that resolution builds a type for: neither an enum nor mapped
      to a scalar. */
  predicate ObjectClass(t: ClassType)
  {
    !t.EnumClass? && ScalarOf(t).None?
  }

  /** Each registry holds the kind of type it is named for, under the kind of
      class it is built for: enum types under enum classes, input object and
      object types under object classes. */
  ghost predicate Typed(ct: ComplexTypes)
  {
    && (forall k :: k in ct.enums ==> k.EnumClass? && ct.enums[k].EnumType?)
    && (forall k :: k in ct.inputs ==> ObjectClass(k) && ct.inputs[k].InputObjectType?)
    && (forall k :: k in ct.outputs ==> ObjectClass(k) && ct.outputs[k].ObjectType?)
  }

  /** A collection's type is the list of its element class's type. */
  function ListedIf(collection: bool, elem: GqlType): (ty: GqlType)
    ensures ty.GqlList? <==> collection || elem.GqlList?
    ensures ElemOf(ty) == (if collection then elem else ElemOf(elem))
  {
    if collection then GqlList(elem) else elem
  }

  /** The registry kind of each direction. */
  predicate OfDirection(dir: Direction, ty: GqlType)
  {
    if dir == Output then ty.ObjectType? else ty.InputObjectType?
  }

  lemma TypedLookup(ct: ComplexTypes, dir: Direction, t: ClassType)
    requires Typed(ct) && t in Registry(ct, SlotOf(dir))
    ensures OfDirection(dir, Registry(ct, SlotOf(dir))[t])
  {
  }

  /** getOrBuildEnumType: the registered enum type, or a new one whose values
      are the constants in declaration order. */
  function EnumTypeFor(ct: ComplexTypes, t: ClassType): (res: (ComplexTypes, GqlType))
    requires t.EnumClass?
    ensures Grows(ct, res.0)
    ensures t in res.0.enums && res.0.enums[t] == res.1
    ensures res.0.inputs == ct.inputs && res.0.outputs == ct.outputs
    ensures t !in ct.enums ==> res.1.EnumType? && res.1.values == t.constants && res.1.name !in UsedNames(ct)
    ensures UniqueNames(ct) ==> UniqueNames(res.0)
    ensures AllNamed(ct) ==> AllNamed(res.0) && IsNamed(res.1)
    ensures Typed(ct) ==> Typed(res.0) && res.1.EnumType?
  {
    if t in ct.enums then
      assert AllNamed(ct) ==> IsNamed(Registry(ct, EnumSlot)[t]);
      (ct, ct.enums[t])
    else
      var ty := EnumType(FreshName(ct, SimpleName(t)), t.constants);
      StoreNewEnum(ct, t, ty);
      (Store(ct, EnumSlot, t, ty), ty)
  }

  /** Registering a new enum type under a fresh name. */
  lemma StoreNewEnum(ct: ComplexTypes, t: ClassType, ty: GqlType)
    requires t.EnumClass? && t !in ct.enums
    requires ty == EnumType(FreshName(ct, SimpleName(t)), t.constants)
    ensures Grows(ct, Store(ct, EnumSlot, t, ty))
    ensures Store(ct, EnumSlot, t, ty).enums == ct.enums[t := ty]
    ensures Store(ct, EnumSlot, t, ty).inputs == ct.inputs && Store(ct, EnumSlot, t, ty).outputs == ct.outputs
    ensures ty.name !in UsedNames(ct)
    ensures UniqueNames(ct) ==> UniqueNames(Store(ct, EnumSlot, t, ty))
    ensures AllNamed(ct) ==> AllNamed(Store(ct, EnumSlot, t, ty)) && IsNamed(ty)
    ensures Typed(ct) ==> Typed(Store(ct, EnumSlot, t, ty))
  {
    StoreNewEnumKeeps(ct, t, ty);
  }

  lemma StoreNewEnumKeeps(ct: ComplexTypes, t: ClassType, ty: GqlType)
    requires t.EnumClass? && t !in ct.enums
    requires ty == EnumType(FreshName(ct, SimpleName(t)), t.constants)
    ensures UniqueNames(ct) ==> UniqueNames(Store(ct, EnumSlot, t, ty))
    ensures AllNamed(ct) ==> AllNamed(Store(ct, EnumSlot, t, ty)) && IsNamed(ty)
  {
    if UniqueNames(ct) { StoreFreshKeepsUnique(ct, EnumSlot, t, ty); }
    if AllNamed(ct) { StoreKeepsAllNamed(ct, EnumSlot, t, ty); }
  }

  /** getOrBuildOutputType (dir = Output) and getOrBuildInputType (dir = Input). */
  function Resolve(ct: ComplexTypes, dir: Direction, t: ClassType, attr: Option<Attribute>): (res: (ComplexTypes, GqlType))
    decreases ClassSize(t), 2
    ensures Grows(ct, res.0)
    ensures UniqueNames(ct) ==> UniqueNames(res.0)
    ensures AllNamed(ct) ==> AllNamed(res.0) && IsNamed(res.1)
    ensures AddsOnlyBelow(ct, res.0, ClassSize(t))
    ensures Typed(ct) ==> Typed(res.0)
    ensures Typed(ct) && res.1 == Scalar(GraphQLID) ==> ScalarOf(t).Some? && attr.Some? && NamesAnId(attr.value)
  {
    var cache := Registry(ct, SlotOf(dir));
    if t in cache then
      assert AllNamed(ct) ==> IsNamed(cache[t]);
      (ct, cache[t])
    else if t.EnumClass? then EnumTypeFor(ct, t)
    else match BestScalar(t, attr)
      case Some(s) => (ct, Scalar(s))
      case None => BuildType(ct, dir, t)
  }

  /** A new object (Output) or input object (Input) type for `t`, built from
      its declared fields and registered under a fresh name. */
  function BuildType(ct: ComplexTypes, dir: Direction, t: ClassType): (res: (ComplexTypes, GqlType))
    requires t !in Registry(ct, SlotOf(dir)) && ObjectClass(t)
    decreases ClassSize(t), 1
    ensures Grows(ct, res.0)
    ensures UniqueNames(ct) ==> UniqueNames(res.0)
    ensures AllNamed(ct) ==> AllNamed(res.0)
    ensures IsNamed(res.1)
    ensures AddsOnlyBelow(ct, res.0, ClassSize(t))
    ensures t in Registry(res.0, SlotOf(dir)) && Registry(res.0, SlotOf(dir))[t] == res.1
    ensures OfDirection(dir, res.1)
    ensures Typed(ct) ==> Typed(res.0)
  {
    var built := ResolveFields(ct, dir, DeclaredFields(t));
    var name := FreshName(built.0, SimpleName(t));
    var ty := if dir == Output then ObjectType(name, built.1) else InputObjectType(name, built.1);
    RegisterBuilt(ct, built.0, dir, t, ty);
    (Store(built.0, SlotOf(dir), t, ty), ty)
  }

  /** Registering a freshly built type after its fields were resolved: what
      BuildType promises follows from what field resolution promised. */
  lemma RegisterBuilt(ct: ComplexTypes, built: ComplexTypes, dir: Direction, t: ClassType, ty: GqlType)
    requires Grows(ct, built) && t !in Registry(ct, SlotOf(dir)) && ObjectClass(t)
    requires AddsOnlyBelow(ct, built, ClassSize(t) - 1)
    requires IsNamed(ty) && NameOf(ty) !in UsedNames(built) && OfDirection(dir, ty)
    ensures var ct' := Store(built, SlotOf(dir), t, ty);
      && Grows(ct, ct')
      && (UniqueNames(built) ==> UniqueNames(ct'))
      && (AllNamed(built) ==> AllNamed(ct'))
      && AddsOnlyBelow(ct, ct', ClassSize(t))
      && (Typed(built) ==> Typed(ct'))
  {
    var ct' := Store(built, SlotOf(dir), t, ty);
    StoreAbsentGrows(ct, built, SlotOf(dir), t, ty);
    StoreAddsOnlyBelow(ct, built, SlotOf(dir), t, ty, ClassSize(t));
    if UniqueNames(built) { StoreFreshKeepsUnique(built, SlotOf(dir), t, ty); }
    if AllNamed(built) { StoreKeepsAllNamed(built, SlotOf(dir), t, ty); }
    if Typed(built) { StoreKeepsTyped(built, dir, t, ty); }
  }

  lemma StoreAbsentGrows(ct: ComplexTypes, built: ComplexTypes, s: Slot, t: ClassType, ty: GqlType)
    requires Grows(ct, built) && t !in Registry(ct, s)
    ensures Grows(ct, Store(built, s, t, ty))
  {
    var ct' := Store(built, s, t, ty);
    forall s1, k | k in Registry(ct, s1)
      ensures k in Registry(ct', s1) && Registry(ct', s1)[k] == Registry(ct, s1)[k]
    {
      assert k in Registry(built, s1);
      assert s1 != s || k != t;
    }
  }

  lemma StoreAddsOnlyBelow(ct: ComplexTypes, built: ComplexTypes, s: Slot, t: ClassType, ty: GqlType, bound: nat)
    requires AddsOnlyBelow(ct, built, bound) && ClassSize(t) <= bound
    ensures AddsOnlyBelow(ct, Store(built, s, t, ty), bound)
  {
    var ct' := Store(built, s, t, ty);
    forall s1, k | k in Registry(ct', s1) && k !in Registry(ct, s1)
      ensures ClassSize(k) <= bound
    {
      if s1 != s || k != t {
        assert k in Registry(built, s1);
      }
    }
  }

  lemma StoreKeepsTyped(ct: ComplexTypes, dir: Direction, t: ClassType, ty: GqlType)
    requires Typed(ct) && OfDirection(dir, ty) && ObjectClass(t)
    ensures Typed(Store(ct, SlotOf(dir), t, ty))
  {
  }

  /** The fields of a new object or input object type, in declaration order:
      each named after its Java field, a collection field as a list of its
      element class's type. */
  function ResolveFields(ct: ComplexTypes, dir: Direction, fields: seq<FieldDecl>): (res: (ComplexTypes, seq<GqlField>))
    decreases FieldsSize(fields), 3
    ensures Grows(ct, res.0)
    ensures UniqueNames(ct) ==> UniqueNames(res.0)
    ensures AllNamed(ct) ==> AllNamed(res.0)
    ensures AddsOnlyBelow(ct, res.0, FieldsSize(fields))
    ensures Typed(ct) ==> Typed(res.0)
    ensures |res.1| == |fields|
  {
    if fields == [] then (ct, [])
    else
      var f := fields[0];
      var elem := RealFieldType(f);
      var r := Resolve(ct, dir, elem, Some(Attribute(f.name, f.isId)));
      var fty := ListedIf(IsCollection(f.ftype), r.1);
      var rest := ResolveFields(r.0, dir, fields[1..]);
      (rest.0, [GqlField(f.name, fty)] + rest.1)
  }

  /** What a resolved field says about its declared field: the same name; the
      type that resolving its element class against the registries `final`
      answers (without changing them), as a list when the declared field is
      a collection; `ID` only for a scalar-mapped class under an id name. */
  ghost predicate FieldFollows(g: GqlField, f: FieldDecl, final: ComplexTypes, dir: Direction, typed: bool, named: bool)
  {
    && g.name == f.name
    && (typed ==>
          var r := Resolve(final, dir, RealFieldType(f), Some(Attribute(f.name, f.isId)));
          r.0 == final && g.ftype == ListedIf(IsCollection(f.ftype), r.1))
    && (typed && ElemOf(g.ftype) == Scalar(GraphQLID) ==>
          ScalarOf(RealFieldType(f)).Some? && NamesAnId(Attribute(f.name, f.isId)))
    && (named ==> (g.ftype.GqlList? <==> IsCollection(f.ftype)))
  }

  /** The resolved fields follow the declared fields one for one; the `ID`
      rule needs registries that hold their own kinds of type, the list rule
      registries whose types are named. */
  lemma {:induction false} ResolvedFieldsFollow(ct: ComplexTypes, dir: Direction, fields: seq<FieldDecl>)
    decreases |fields|
    ensures var res := ResolveFields(ct, dir, fields);
      forall i :: 0 <= i < |fields| ==> FieldFollows(res.1[i], fields[i], res.0, dir, Typed(ct), AllNamed(ct))
  {
    if fields != [] {
      var f := fields[0];
      var attr := Some(Attribute(f.name, f.isId));
      var r := Resolve(ct, dir, RealFieldType(f), attr);
      ResolvedFieldsFollow(r.0, dir, fields[1..]);
      var res := ResolveFields(ct, dir, fields);
      var rest := ResolveFields(r.0, dir, fields[1..]);
      assert res.0 == rest.0 && res.1[1..] == rest.1;
      if Typed(ct) {
        ResolveStable(ct, rest.0, dir, RealFieldType(f), attr);
      }
      assert FieldFollows(res.1[0], f, res.0, dir, Typed(ct), AllNamed(ct));
      forall i | 1 <= i < |fields|
        ensures FieldFollows(res.1[i], fields[i], res.0, dir, Typed(ct), AllNamed(ct))
      {
        assert FieldFollows(rest.1[i - 1], fields[1..][i - 1], rest.0, dir, Typed(r.0), AllNamed(r.0));
      }
    }
  }

  /** A resolved class stays resolved: against any typed registries grown
      from the ones its resolution left, it resolves to the same type and
      changes nothing. */
  lemma ResolveStable(ct: ComplexTypes, ct': ComplexTypes, dir: Direction, t: ClassType, attr: Option<Attribute>)
    requires Typed(ct') && Grows(Resolve(ct, dir, t, attr).0, ct')
    ensures Resolve(ct', dir, t, attr) == (ct', Resolve(ct, dir, t, attr).1)
  {
    var r := Resolve(ct, dir, t, attr);
    var slot := SlotOf(dir);
    if t in Registry(ct, slot) {
      assert t in Registry(ct', slot);
    } else if t.EnumClass? {
      assert r == EnumTypeFor(ct, t);
      assert t in Registry(r.0, EnumSlot) && Registry(r.0, EnumSlot)[t] == r.1;
      assert t !in Registry(ct', slot) by { assert slot != EnumSlot; }
      assert t in ct'.enums by { assert t in Registry(ct', EnumSlot); }
    } else if BestScalar(t, attr).Some? {
      assert t !in Registry(ct', slot);
    } else {
      assert r == BuildType(ct, dir, t);
      assert t in Registry(ct', slot);
    }
  }

  /** What a field says against some registries it still says against any
      typed registries grown from them. */
  lemma FieldFollowsGrows(g: GqlField, f: FieldDecl, final: ComplexTypes, final': ComplexTypes, dir: Direction, named: bool)
    requires FieldFollows(g, f, final, dir, true, named) && Typed(final') && Grows(final, final')
    ensures FieldFollows(g, f, final', dir, true, named)
  {
    ResolveStable(final, final', dir, RealFieldType(f), Some(Attribute(f.name, f.isId)));
  }

  /* ---------------------------------------------------------------------
     Properties of resolution
     --------------------------------------------------------------------- */

  /** A class already registered for the direction is returned as is. */
  lemma ResolveHit(ct: ComplexTypes, dir: Direction, t: ClassType, attr: Option<Attribute>)
    requires t in Registry(ct, SlotOf(dir))
    ensures Resolve(ct, dir, t, attr) == (ct, Registry(ct, SlotOf(dir))[t])
  {
  }

  /** An enum class not registered for the direction gets the shared enum
      type: its values are the constants in declaration order, and only the
      enum registry may change. */
  lemma ResolveEnum(ct: ComplexTypes, dir: Direction, t: ClassType, attr: Option<Attribute>)
    requires Typed(ct) && t.EnumClass? && t !in Registry(ct, SlotOf(dir))
    ensures var res := Resolve(ct, dir, t, attr);
      && res.1.EnumType?
      && (t !in ct.enums ==> res.1.values == t.constants)
      && t in res.0.enums && res.0.enums[t] == res.1
      && res.0.inputs == ct.inputs && res.0.outputs == ct.outputs
      && (t in ct.enums ==> res == (ct, ct.enums[t]))
  {
  }

  /** An enum class resolved once as output and once as input (or the other
      way round) yields one and the same GraphQL type. */
  lemma EnumSharedAcrossDirections(ct: ComplexTypes, t: ClassType, first: Direction, a1: Option<Attribute>, a2: Option<Attribute>)
    requires Typed(ct) && t.EnumClass? && t !in ct.inputs && t !in ct.outputs
    ensures var r1 := Resolve(ct, first, t, a1);
      var other := if first == Output then Input else Output;
      Resolve(r1.0, other, t, a2) == r1
  {
    var r1 := Resolve(ct, first, t, a1);
    ResolveEnum(ct, first, t, a1);
    var other := if first == Output then Input else Output;
    assert t !in Registry(r1.0, SlotOf(other));
    ResolveEnum(r1.0, other, t, a2);
  }

  /** A scalar-mapped class not registered for the direction becomes its
      scalar, turned into `ID` exactly when the attribute names an id; the
      registries do not change. */
  lemma ResolveScalar(ct: ComplexTypes, dir: Direction, t: ClassType, attr: Option<Attribute>)
    requires ScalarOf(t).Some? && t !in Registry(ct, SlotOf(dir))
    ensures var res := Resolve(ct, dir, t, attr);
      && res.0 == ct
      && res.1.Scalar?
      && (res.1.kind == GraphQLID <==> attr.Some? && NamesAnId(attr.value))
      && (res.1.kind != GraphQLID ==> Some(res.1.kind) == ScalarOf(t))
  {
  }

  /** A class neither registered, nor an enum, nor scalar-mapped is never
      turned into `ID`, and a top-level return type never is. */
  lemma NeverIdWithoutScalarOrAttribute(ct: ComplexTypes, dir: Direction, t: ClassType, attr: Option<Attribute>)
    requires Typed(ct) && t !in Registry(ct, SlotOf(dir))
    requires ScalarOf(t).None? || attr.None?
    ensures Resolve(ct, dir, t, attr).1 != Scalar(GraphQLID)
  {
    if t.EnumClass? {
      ResolveEnum(ct, dir, t, attr);
    }
  }

  /** Resolving twice is resolving once: the second request returns the same
      type and leaves the registries, and so every name, as they were. */
  lemma ResolveIdempotent(ct: ComplexTypes, dir: Direction, t: ClassType, attr: Option<Attribute>)
    requires Typed(ct)
    ensures var r1 := Resolve(ct, dir, t, attr);
      Resolve(r1.0, dir, t, attr) == r1
  {
    var r1 := Resolve(ct, dir, t, attr);
    var cache := Registry(ct, SlotOf(dir));
    if t in cache {
    } else if t.EnumClass? {
      ResolveEnum(ct, dir, t, attr);
      ResolveEnum(r1.0, dir, t, attr);
    } else if BestScalar(t, attr).Some? {
    } else {
      assert t in Registry(r1.0, SlotOf(dir));
    }
  }

  /** Names already in use stay in use as the registries grow. */
  lemma GrowsKeepsNames(ct: ComplexTypes, ct': ComplexTypes)
    requires Grows(ct, ct')
    ensures UsedNames(ct) <= UsedNames(ct')
  {
    forall n | n in UsedNames(ct)
      ensures n in UsedNames(ct')
    {
      var s: Slot, k: ClassType :| k in Registry(ct, s) && IsNamed(Registry(ct, s)[k]) && NameOf(Registry(ct, s)[k]) == n
        by {
          if n in NamesIn(ct.enums) {
            var k :| k in ct.enums && IsNamed(ct.enums[k]) && NameOf(ct.enums[k]) == n;
            assert k in Registry(ct, EnumSlot);
          } else if n in NamesIn(ct.inputs) {
            var k :| k in ct.inputs && IsNamed(ct.inputs[k]) && NameOf(ct.inputs[k]) == n;
            assert k in Registry(ct, InputSlot);
          } else {
            var k :| k in ct.outputs && IsNamed(ct.outputs[k]) && NameOf(ct.outputs[k]) == n;
            assert k in Registry(ct, OutputSlot);
          }
        }
      UsedNamesMember(ct', s, k);
    }
  }

  /** A class neither registered, nor an enum, nor scalar-mapped becomes a new
      object type (Output) or input object type (Input): its fields are the
      declared fields, in declaration order, under their Java names; it gets
      a name no registered type had, starting with the class's simple name;
      and it is registered for the direction. Over typed registries, each
      field has the type its element class resolves to in the registries
      left behind, as a list for a collection field. */
  lemma ResolveObject(ct: ComplexTypes, dir: Direction, t: ClassType, attr: Option<Attribute>)
    requires t !in Registry(ct, SlotOf(dir)) && !t.EnumClass? && ScalarOf(t).None?
    ensures var res := Resolve(ct, dir, t, attr);
      && OfDirection(dir, res.1)
      && |res.1.fields| == |DeclaredFields(t)|
      && (forall i :: 0 <= i < |DeclaredFields(t)| ==> res.1.fields[i].name == DeclaredFields(t)[i].name)
      && (Typed(ct) ==> forall i :: 0 <= i < |DeclaredFields(t)| ==>
            FieldFollows(res.1.fields[i], DeclaredFields(t)[i], res.0, dir, true, AllNamed(ct)))
      && res.1.name !in UsedNames(ct)
      && NamePrefixed(res.1.name, SimpleName(t))
      && t in Registry(res.0, SlotOf(dir)) && Registry(res.0, SlotOf(dir))[t] == res.1
  {
    var fields := DeclaredFields(t);
    var built := ResolveFields(ct, dir, fields);
    ResolvedFieldsFollow(ct, dir, fields);
    GrowsKeepsNames(ct, built.0);
    if Typed(ct) {
      BuiltFieldsFollow(ct, dir, t);
    }
  }

  /** Over typed registries, the fields of a built type follow the declared
      fields against the registries left after the type is registered. */
  lemma BuiltFieldsFollow(ct: ComplexTypes, dir: Direction, t: ClassType)
    requires t !in Registry(ct, SlotOf(dir)) && ObjectClass(t) && Typed(ct)
    ensures var res := BuildType(ct, dir, t);
      forall i :: 0 <= i < |DeclaredFields(t)| ==>
        FieldFollows(res.1.fields[i], DeclaredFields(t)[i], res.0, dir, true, AllNamed(ct))
  {
    var fields := DeclaredFields(t);
    var built := ResolveFields(ct, dir, fields);
    ResolvedFieldsFollow(ct, dir, fields);
    var res := BuildType(ct, dir, t);
    assert ClassSize(t) > FieldsSize(fields);
    assert t !in Registry(built.0, SlotOf(dir));
    StoreAbsentGrows(built.0, built.0, SlotOf(dir), t, res.1);
    forall i | 0 <= i < |fields|
      ensures FieldFollows(res.1.fields[i], fields[i], res.0, dir, true, AllNamed(ct))
    {
      FieldFollowsGrows(res.1.fields[i], fields[i], built.0, res.0, dir, AllNamed(ct));
    }
  }
}

=== FILE: selection.dfy ===
/**
 The field-selection tree a GraphQL request carries
 (`DataFetchingFieldSelectionSet` / `SelectedField`).
 */
module Selection {

  import opened Wrappers

  /** A selected field: its schema name, its result key (the alias when one
      is given, the name otherwise) and its own immediate sub-selection.
      An empty sub-selection marks a leaf. */
  datatype SelField = SelField(name: string, resultKey: string, sub: seq<SelField>)

  /** Number of nodes of a selection forest: the termination measure of the
      recursive walks over it. */
  function SizeOf(sel: seq<SelField>): nat
  {
    if sel == [] then 0 else 1 + SizeOf(sel[0].sub) + SizeOf(sel[1..])
  }

  function FieldSize(f: SelField): nat
  {
    1 + SizeOf(f.sub)
  }

  function OptionSize(f: Option<SelField>): nat
  {
    if f.Some? then FieldSize(f.value) else 0
  }

  lemma FieldSizeBound(sel: seq<SelField>, f: SelField)
    requires f in sel
    ensures FieldSize(f) <= SizeOf(sel)
  {
    if sel[0] != f {
      FieldSizeBound(sel[1..], f);
    }
  }

  predicate IsLeaf(f: SelField)
  {
    f.sub == []
  }

  /** `getImmediateFields().stream().filter(name equals).findFirst()`. */
  function FindByName(sel: seq<SelField>, name: string): (r: Option<SelField>)
    ensures r.Some? <==> exists i :: 0 <= i < |sel| && sel[i].name == name
    ensures r.Some? ==> r.value in sel && r.value.name == name
    ensures r.Some? ==> exists i :: 0 <= i < |sel| && sel[i] == r.value
                                 && forall j :: 0 <= j < i ==> sel[j].name != name
  {
    if sel == [] then None
    else if sel[0].name == name then Some(sel[0])
    else
      var r := FindByName(sel[1..], name);
      assert r.Some? ==> exists i :: 0 <= i < |sel| && sel[i] == r.value
                                  && forall j :: 0 <= j < i ==> sel[j].name != name by {
        if r.Some? {
          var i :| 0 <= i < |sel[1..]| && sel[1..][i] == r.value
                 && forall j :: 0 <= j < i ==> sel[1..][j].name != name;
          assert sel[i + 1] == r.value;
          assert forall j :: 0 <= j < i + 1 ==> sel[j].name != name by {
            forall j | 0 <= j < i + 1 ensures sel[j].name != name {
              if j > 0 { assert sel[j] == sel[1..][j - 1]; }
            }
          }
        }
      }
      r
  }

  predicate Selects(sel: seq<SelField>, name: string)
  {
    exists i :: 0 <= i < |sel| && sel[i].name == name
  }
}

=== FILE: strings.dfy ===
/**
 Java string operations the core relies on, stated over `string` (= `seq<char>`):
 `String.compareTo` as a lexicographic order, sorting and joining of tokens,
 decimal rendering of counters, and the prefix/suffix/blank tests; also the
 order-preserving subsequence relation that filtering a list keeps.
 */
module Strings {

  /* ---------------------------------------------------------------------
     Lexicographic order (java.lang.String.compareTo)
     --------------------------------------------------------------------- */

  /** `a` sorts before or equal to `b`: the first differing character decides,
      and a proper prefix sorts first. (Dafny's `<` on sequences means
      "proper prefix", so the order is written out here.) */
  predicate LexLe(a: string, b: string)
  {
    if a == [] then true
    else if b == [] then false
    else if a[0] != b[0] then a[0] < b[0]
    else LexLe(a[1..], b[1..])
  }

  lemma LexLeReflexive(a: string)
    ensures LexLe(a, a)
  {
  }

  lemma LexLeTotal(a: string, b: string)
    ensures LexLe(a, b) || LexLe(b, a)
  {
  }

  lemma LexLeAntisymmetric(a: string, b: string)
    requires LexLe(a, b) && LexLe(b, a)
    ensures a == b
  {
    if a != [] && b != [] && a[0] == b[0] {
      LexLeAntisymmetric(a[1..], b[1..]);
      assert a == [a[0]] + a[1..];
      assert b == [b[0]] + b[1..];
    }
  }

  lemma LexLeTransitive(a: string, b: string, c: string)
    requires LexLe(a, b) && LexLe(b, c)
    ensures LexLe(a, c)
  {
    if a != [] && b != [] && c != [] && a[0] == b[0] && b[0] == c[0] {
      LexLeTransitive(a[1..], b[1..], c[1..]);
    }
  }

  /* ---------------------------------------------------------------------
     Sorting (Collections.sort / Stream.sorted on strings)
     --------------------------------------------------------------------- */

  ghost predicate Sorted(s: seq<string>)
  {
    forall i, j :: 0 <= i < j < |s| ==> LexLe(s[i], s[j])
  }

  /** Inserts `x` before the first element it sorts before. */
  function Insert(x: string, s: seq<string>): (r: seq<string>)
    requires Sorted(s)
    ensures Sorted(r)
    ensures multiset(r) == multiset(s) + multiset{x}
    ensures |r| == |s| + 1
  {
    if s == [] then [x]
    else if LexLe(x, s[0]) then
      assert forall j :: 0 <= j < |s| ==> LexLe(x, s[j]) by {
        forall j | 0 <= j < |s| ensures LexLe(x, s[j]) {
          if j > 0 { LexLeTransitive(x, s[0], s[j]); }
        }
      }
      [x] + s
    else
      LexLeTotal(x, s[0]);
      var rest := Insert(x, s[1..]);
      assert s == [s[0]] + s[1..];
      assert forall j :: 0 <= j < |rest| ==> LexLe(s[0], rest[j]) by {
        forall j | 0 <= j < |rest| ensures LexLe(s[0], rest[j]) {
          assert rest[j] in multiset(rest);
          assert rest[j] == x || rest[j] in multiset(s[1..]);
          if rest[j] != x {
            var k :| 0 <= k < |s[1..]| && s[1..][k] == rest[j];
            assert s[k + 1] == rest[j];
          }
        }
      }
      [s[0]] + rest
  }

  /** Insertion sort: a sorted permutation of `s`. */
  function Sort(s: seq<string>): (r: seq<string>)
    ensures Sorted(r)
    ensures multiset(r) == multiset(s)
    ensures |r| == |s|
  {
    if s == [] then []
    else
      assert s == [s[0]] + s[1..];
      Insert(s[0], Sort(s[1..]))
  }

  lemma MultisetTail(a: seq<string>)
    requires a != []
    ensures multiset(a[1..]) == multiset(a) - multiset{a[0]}
  {
    assert a == [a[0]] + a[1..];
  }

  /** The first element of a sorted sequence is its least element. */
  lemma SortedHeadLeast(a: seq<string>, x: string)
    requires Sorted(a) && x in multiset(a)
    ensures LexLe(a[0], x)
  {
    var j :| 0 <= j < |a| && a[j] == x;
    if j == 0 { LexLeReflexive(x); }
  }

  /** Two sorted sequences holding the same strings are the same sequence:
      sorting is canonical, whatever order the tokens arrived in. */
  lemma {:induction false} SortedUnique(a: seq<string>, b: seq<string>)
    requires Sorted(a) && Sorted(b)
    requires multiset(a) == multiset(b)
    ensures a == b
  {
    assert |a| == |b| by {
      assert |multiset(a)| == |a| && |multiset(b)| == |b|;
    }
    if a != [] {
      assert a[0] in multiset(b) && b[0] in multiset(a);
      SortedHeadLeast(b, a[0]);
      SortedHeadLeast(a, b[0]);
      LexLeAntisymmetric(a[0], b[0]);
      MultisetTail(a);
      MultisetTail(b);
      SortedUnique(a[1..], b[1..]);
      assert a == [a[0]] + a[1..];
      assert b == [b[0]] + b[1..];
    }
  }

  /** The sorted order of a collection of tokens depends only on which tokens
      it holds, not on the order they were listed in. */
  lemma SortCanonical(a: seq<string>, b: seq<string>)
    requires multiset(a) == multiset(b)
    ensures Sort(a) == Sort(b)
  {
    SortedUnique(Sort(a), Sort(b));
  }

  /* ---------------------------------------------------------------------
     Subsequences (what a stream filter or a skipping loop keeps)
     --------------------------------------------------------------------- */

  /** `a` is `b` with some elements left out, the others in their order. */
  predicate IsSubsequence<T(==)>(a: seq<T>, b: seq<T>)
    decreases |b|
  {
    if a == [] then true
    else if b == [] then false
    else (a[0] == b[0] && IsSubsequence(a[1..], b[1..])) || IsSubsequence(a, b[1..])
  }

  /* ---------------------------------------------------------------------
     Joining (Collectors.joining(","))
     --------------------------------------------------------------------- */

  function Join(tokens: seq<string>, sep: string): (r: string)
    ensures tokens == [] ==> r == []
    ensures |tokens| == 1 ==> r == tokens[0]
  {
    if tokens == [] then ""
    else if |tokens| == 1 then tokens[0]
    else tokens[0] + sep + Join(tokens[1..], sep)
  }

  /* ---------------------------------------------------------------------
     Decimal rendering of a counter (Long.toString / string concatenation)
     --------------------------------------------------------------------- */

  predicate IsDigit(c: char)
  {
    '0' <= c <= '9'
  }

  function DigitChar(d: nat): (c: char)
    requires d < 10
    ensures IsDigit(c)
  {
    ['0', '1', '2', '3', '4', '5', '6', '7', '8', '9'][d]
  }

  function DigitValue(c: char): (d: nat)
    requires IsDigit(c)
    ensures d < 10
  {
    (c as int - '0' as int) as nat
  }

  lemma DigitRoundTrip(d: nat)
    requires d < 10
    ensures DigitValue(DigitChar(d)) == d
  {
  }

  /** The decimal digits of `n`, most significant first, without leading zeros. */
  function NatToString(n: nat): (r: string)
    ensures |r| >= 1
    ensures forall i :: 0 <= i < |r| ==> IsDigit(r[i])
  {
    if n < 10 then [DigitChar(n)] else NatToString(n / 10) + [DigitChar(n % 10)]
  }

  /** Reads a string of decimal digits back as a number. */
  function ParseNat(s: string): nat
    requires forall i :: 0 <= i < |s| ==> IsDigit(s[i])
  {
    if s == [] then 0 else ParseNat(s[..|s| - 1]) * 10 + DigitValue(s[|s| - 1])
  }

  lemma {:induction false} ParseNatToString(n: nat)
    ensures ParseNat(NatToString(n)) == n
  {
    var s := NatToString(n);
    if n < 10 {
      DigitRoundTrip(n);
    } else {
      ParseNatToString(n / 10);
      assert s[..|s| - 1] == NatToString(n / 10);
      DigitRoundTrip(n % 10);
    }
  }

  /** Distinct counters render as distinct strings. */
  lemma NatToStringInjective(m: nat, n: nat)
    requires NatToString(m) == NatToString(n)
    ensures m == n
  {
    ParseNatToString(m);
    ParseNatToString(n);
  }

  /* ---------------------------------------------------------------------
     startsWith / endsWith / isBlank / toLowerCase
     --------------------------------------------------------------------- */

  predicate StartsWith(s: string, prefix: string)
  {
    |prefix| <= |s| && s[..|prefix|] == prefix
  }

  predicate EndsWith(s: string, suffix: string)
  {
    |suffix| <= |s| && s[|s| - |suffix|..] == suffix
  }

  /** `Character.isWhitespace`: the Unicode space, line and paragraph
      separators except the non-breaking ones (U+00A0, U+2007, U+202F), the
      tab/line/form-feed controls U+0009-U+000D and the separator controls
      U+001C-U+001F. */
  predicate IsWhitespace(c: char)
  {
    || ('\t' <= c <= '\r') || ('\U{1C}' <= c <= '\U{1F}')
    || c == ' ' || c == '\U{1680}'
    || ('\U{2000}' <= c <= '\U{2006}') || ('\U{2008}' <= c <= '\U{200A}')
    || c == '\U{2028}' || c == '\U{2029}' || c == '\U{205F}' || c == '\U{3000}'
  }

  /** `String.isBlank`: empty or whitespace only. */
  predicate IsBlank(s: string)
  {
    forall i :: 0 <= i < |s| ==> IsWhitespace(s[i])
  }

  /** `Character.toLowerCase` on ASCII letters; every other character is kept. */
  function ToLowerAscii(c: char): (r: char)
    ensures 'A' <= c <= 'Z' ==> 'a' <= r <= 'z' && r as int == c as int + 32
    ensures !('A' <= c <= 'Z') ==> r == c
  {
    if 'A' <= c <= 'Z' then (c as int - 'A' as int + 'a' as int) as char else c
  }
}

=== FILE: typenames.dfy ===
/**
 ComplexTypes: the registry of the enum, input and output types built while
 the GraphQL schema is generated, and the choice of a name for a new type.

 A new type is named after the class's simple name `T`. `nextAvailableName`
 counts the registered types whose name is `T` or starts with `T_` and
 answers `T` when there are none and `T_(count+1)` otherwise. That answer
 can already be taken (see `AsWrittenNameClash`); `FreshName` is the
 corrected choice the schema rules use: the same answer whenever it is free,
 and otherwise the first free `T_k` above it.
 */
module TypeNames {

  import opened Wrappers
  import opened Strings
  import opened JavaTypes

  datatype ScalarKind = GraphQLInt | GraphQLFloat | GraphQLBoolean | GraphQLString | GraphQLID

  /** The GraphQL types the generator produces. Object and input object
      types hold their fields in declaration order. */
  datatype GqlType =
    | Scalar(kind: ScalarKind)
    | EnumType(name: string, values: seq<string>)
    | ObjectType(name: string, fields: seq<GqlField>)
    | InputObjectType(name: string, fields: seq<GqlField>)
    | GqlList(elem: GqlType)

  datatype GqlField = GqlField(name: string, ftype: GqlType)

  function ScalarName(k: ScalarKind): string
  {
    match k
    case GraphQLInt => "Int"
    case GraphQLFloat => "Float"
    case GraphQLBoolean => "Boolean"
    case GraphQLString => "String"
    case GraphQLID => "ID"
  }

  /** A list type is the one kind of type without a name of its own. */
  predicate IsNamed(ty: GqlType)
  {
    !ty.GqlList?
  }

  function NameOf(ty: GqlType): string
    requires IsNamed(ty)
  {
    match ty
    case Scalar(k) => ScalarName(k)
    case EnumType(n, _) => n
    case ObjectType(n, _) => n
    case InputObjectType(n, _) => n
  }

  /** hasNamePrefix: a named type called `prefix` or `prefix_...`. */
  predicate HasNamePrefix(ty: GqlType, prefix: string)
  {
    IsNamed(ty) && NamePrefixed(NameOf(ty), prefix)
  }

  predicate NamePrefixed(name: string, prefix: string)
  {
    name == prefix || StartsWith(name, prefix + "_")
  }

  /* ---------------------------------------------------------------------
     The registry
     --------------------------------------------------------------------- */

  /** The three registries of ComplexTypes. */
  datatype Slot = EnumSlot | InputSlot | OutputSlot

  datatype ComplexTypes = ComplexTypes(
    enums: map<ClassType, GqlType>,
    inputs: map<ClassType, GqlType>,
    outputs: map<ClassType, GqlType>)

  const EmptyTypes := ComplexTypes(map[], map[], map[])

  function Registry(ct: ComplexTypes, s: Slot): map<ClassType, GqlType>
  {
    match s
    case EnumSlot => ct.enums
    case InputSlot => ct.inputs
    case OutputSlot => ct.outputs
  }

  /** addEnumType / addInputType / addOutputType. */
  function Store(ct: ComplexTypes, s: Slot, k: ClassType, ty: GqlType): (ct': ComplexTypes)
    ensures Registry(ct', s) == Registry(ct, s)[k := ty]
    ensures forall s' :: s' != s ==> Registry(ct', s') == Registry(ct, s')
  {
    match s
    case EnumSlot => ct.(enums := ct.enums[k := ty])
    case InputSlot => ct.(inputs := ct.inputs[k := ty])
    case OutputSlot => ct.(outputs := ct.outputs[k := ty])
  }

  /** Registered types are always named. */
  ghost predicate AllNamed(ct: ComplexTypes)
  {
    forall s, k :: k in Registry(ct, s) ==> IsNamed(Registry(ct, s)[k])
  }

  /** Every registered type's name. */
  function UsedNames(ct: ComplexTypes): set<string>
  {
    NamesIn(ct.enums) + NamesIn(ct.inputs) + NamesIn(ct.outputs)
  }

  function NamesIn(m: map<ClassType, GqlType>): set<string>
  {
    set k | k in m && IsNamed(m[k]) :: NameOf(m[k])
  }

  lemma UsedNamesMember(ct: ComplexTypes, s: Slot, k: ClassType)
    requires k in Registry(ct, s) && IsNamed(Registry(ct, s)[k])
    ensures NameOf(Registry(ct, s)[k]) in UsedNames(ct)
  {
  }

  /** No two registered types share a name: the property a GraphQL schema
      needs of its named types. */
  ghost predicate UniqueNames(ct: ComplexTypes)
  {
    && AllNamed(ct)
    && forall s1, k1, s2, k2 ::
         k1 in Registry(ct, s1) && k2 in Registry(ct, s2) && (s1 != s2 || k1 != k2) ==>
           NameOf(Registry(ct, s1)[k1]) != NameOf(Registry(ct, s2)[k2])
  }

  /** Registering a type under a name nobody uses keeps the names unique
      (also when it replaces an entry). */
  lemma StoreFreshKeepsUnique(ct: ComplexTypes, s: Slot, k: ClassType, ty: GqlType)
    requires UniqueNames(ct) && IsNamed(ty) && NameOf(ty) !in UsedNames(ct)
    ensures UniqueNames(Store(ct, s, k, ty))
  {
    var ct' := Store(ct, s, k, ty);
    StoreKeepsAllNamed(ct, s, k, ty);
    forall s1, k1, s2, k2 | k1 in Registry(ct', s1) && k2 in Registry(ct', s2) && (s1 != s2 || k1 != k2)
      ensures NameOf(Registry(ct', s1)[k1]) != NameOf(Registry(ct', s2)[k2])
    {
      if s1 == s && k1 == k {
        StoreOldEntry(ct, s, k, ty, s2, k2);
        UsedNamesMember(ct, s2, k2);
      } else if s2 == s && k2 == k {
        StoreOldEntry(ct, s, k, ty, s1, k1);
        UsedNamesMember(ct, s1, k1);
      } else {
        StoreOldEntry(ct, s, k, ty, s1, k1);
        StoreOldEntry(ct, s, k, ty, s2, k2);
      }
    }
  }

  /** Every entry but the stored one was there before, unchanged. */
  lemma StoreOldEntry(ct: ComplexTypes, s: Slot, k: ClassType, ty: GqlType, s1: Slot, k1: ClassType)
    requires k1 in Registry(Store(ct, s, k, ty), s1) && (s1 != s || k1 != k)
    ensures k1 in Registry(ct, s1) && Registry(Store(ct, s, k, ty), s1)[k1] == Registry(ct, s1)[k1]
  {
  }

  /** Registering a named type keeps every registered type named. */
  lemma StoreKeepsAllNamed(ct: ComplexTypes, s: Slot, k: ClassType, ty: GqlType)
    requires AllNamed(ct) && IsNamed(ty)
    ensures AllNamed(Store(ct, s, k, ty))
  {
    var ct' := Store(ct, s, k, ty);
    forall s1, k1 | k1 in Registry(ct', s1)
      ensures IsNamed(Registry(ct', s1)[k1])
    {
      if s1 != s || k1 != k {
        assert k1 in Registry(ct, s1);
      }
    }
  }

  /* ---------------------------------------------------------------------
     getCount / nextAvailableName, as written
     --------------------------------------------------------------------- */

  function PrefixKeys(m: map<ClassType, GqlType>, prefix: string): set<ClassType>
  {
    set k | k in m && HasNamePrefix(m[k], prefix)
  }

  /** getCount: registered types named `prefix` or `prefix_...`, over all
      three registries. */
  function Count(ct: ComplexTypes, prefix: string): nat
  {
    |PrefixKeys(ct.enums, prefix)| + |PrefixKeys(ct.inputs, prefix)| + |PrefixKeys(ct.outputs, prefix)|
  }

  function Suffixed(t: string, n: nat): (r: string)
    ensures NamePrefixed(r, t)
  {
    assert (t + "_" + NatToString(n))[..|t + "_"|] == t + "_";
    t + "_" + NatToString(n)
  }

  /** nextAvailableName exactly as the source computes it. */
  function NextAvailableName(ct: ComplexTypes, t: string): (r: string)
    ensures NamePrefixed(r, t)
  {
    var count := Count(ct, t);
    if count == 0 then t else Suffixed(t, count + 1)
  }

  lemma PrefixKeysEmpty(m: map<ClassType, GqlType>, t: string)
    requires |PrefixKeys(m, t)| == 0
    ensures forall k :: k in m && IsNamed(m[k]) ==> NameOf(m[k]) != t
  {
    assert PrefixKeys(m, t) == {};
    forall k | k in m && IsNamed(m[k]) ensures NameOf(m[k]) != t {
      assert k !in PrefixKeys(m, t);
    }
  }

  /** With no type sharing the prefix, the answer is the prefix itself and
      it is free. */
  lemma UnsharedPrefixIsFree(ct: ComplexTypes, t: string)
    requires Count(ct, t) == 0
    ensures NextAvailableName(ct, t) == t && t !in UsedNames(ct)
  {
    PrefixKeysEmpty(ct.enums, t);
    PrefixKeysEmpty(ct.inputs, t);
    PrefixKeysEmpty(ct.outputs, t);
  }

  lemma PrefixKeysStore(m: map<ClassType, GqlType>, k: ClassType, ty: GqlType, t: string)
    requires k !in m && HasNamePrefix(ty, t)
    ensures |PrefixKeys(m[k := ty], t)| == |PrefixKeys(m, t)| + 1
  {
    assert PrefixKeys(m[k := ty], t) == PrefixKeys(m, t) + {k};
  }

  /** Registering a new type whose name carries the prefix counts one more:
      so an otherwise unshared prefix is handed out as `T`, `T_2`, `T_3`, ... */
  lemma StoreCountsOneMore(ct: ComplexTypes, s: Slot, k: ClassType, ty: GqlType, t: string)
    requires k !in Registry(ct, s) && HasNamePrefix(ty, t)
    ensures Count(Store(ct, s, k, ty), t) == Count(ct, t) + 1
  {
    PrefixKeysStore(Registry(ct, s), k, ty, t);
  }

  /** The first three types built for an unshared simple name `T`. */
  lemma UnsharedPrefixSequence(ct: ComplexTypes, t: string, s1: Slot, k1: ClassType, s2: Slot, k2: ClassType,
                               mk: string -> GqlType)
    requires Count(ct, t) == 0
    requires forall n :: IsNamed(mk(n)) && NameOf(mk(n)) == n
    requires k1 !in Registry(ct, s1)
    requires k2 !in Registry(Store(ct, s1, k1, mk(t)), s2)
    ensures NextAvailableName(ct, t) == t
    ensures NextAvailableName(Store(ct, s1, k1, mk(t)), t) == t + "_2"
    ensures NextAvailableName(Store(Store(ct, s1, k1, mk(t)), s2, k2, mk(t + "_2")), t) == t + "_3"
  {
    var ct1 := Store(ct, s1, k1, mk(t));
    StoreCountsOneMore(ct, s1, k1, mk(t), t);
    assert NatToString(2) == "2" && NatToString(3) == "3";
    assert NamePrefixed(t + "_2", t) by {
      assert (t + "_2")[..|t + "_"|] == t + "_";
    }
    StoreCountsOneMore(ct1, s2, k2, mk(t + "_2"), t);
  }

  /* ---------------------------------------------------------------------
     The name clash, and the corrected choice
     --------------------------------------------------------------------- */

  /** A class whose simple name is already `Foo_2`, registered first, makes
      the next `Foo` type count one sharer and take `Foo_2` again. */
  lemma AsWrittenNameClash()
    ensures var ct := EmptyTypes.(outputs := map[Entity(ClassDecl("a.Foo_2", "Foo_2", [])) := ObjectType("Foo_2", [])]);
            && NextAvailableName(ct, "Foo") == "Foo_2"
            && "Foo_2" in UsedNames(ct)
  {
    var k := Entity(ClassDecl("a.Foo_2", "Foo_2", []));
    var ct := EmptyTypes.(outputs := map[k := ObjectType("Foo_2", [])]);
    assert StartsWith("Foo_2", "Foo_");
    assert PrefixKeys(ct.outputs, "Foo") == {k};
    assert PrefixKeys(ct.enums, "Foo") == {};
    assert PrefixKeys(ct.inputs, "Foo") == {};
    assert NatToString(2) == "2";
    assert "Foo_2" in NamesIn(ct.outputs);
  }

  /** The candidates `T_j` for j in [lo, lo + n). */
  function Candidates(t: string, lo: nat, n: nat): set<string>
    decreases n
  {
    if n == 0 then {} else {Suffixed(t, lo)} + Candidates(t, lo + 1, n - 1)
  }

  lemma SuffixedInjective(t: string, i: nat, j: nat)
    requires Suffixed(t, i) == Suffixed(t, j)
    ensures i == j
  {
    var p := t + "_";
    assert Suffixed(t, i)[|p|..] == NatToString(i);
    assert Suffixed(t, j)[|p|..] == NatToString(j);
    NatToStringInjective(i, j);
  }

  lemma {:induction false} CandidatesAbove(t: string, lo: nat, n: nat, x: string)
    requires x in Candidates(t, lo, n)
    decreases n
    ensures exists j :: lo <= j < lo + n && x == Suffixed(t, j)
  {
    if x != Suffixed(t, lo) {
      CandidatesAbove(t, lo + 1, n - 1, x);
    }
  }

  /** The candidates are pairwise distinct: there are exactly `n` of them. */
  lemma {:induction false} CandidatesCount(t: string, lo: nat, n: nat)
    decreases n
    ensures |Candidates(t, lo, n)| == n
  {
    if n > 0 {
      CandidatesCount(t, lo + 1, n - 1);
      if Suffixed(t, lo) in Candidates(t, lo + 1, n - 1) {
        CandidatesAbove(t, lo + 1, n - 1, Suffixed(t, lo));
        var j :| lo + 1 <= j < lo + n && Suffixed(t, lo) == Suffixed(t, j);
        SuffixedInjective(t, lo, j);
      }
    }
  }

  /** The first candidate `T_j`, j in [lo, lo + n), that is not in `used`. */
  function FirstFree(t: string, lo: nat, n: nat, used: set<string>): (r: Option<string>)
    decreases n
    ensures r.Some? ==> r.value !in used && NamePrefixed(r.value, t)
    ensures r.None? ==> Candidates(t, lo, n) <= used
  {
    if n == 0 then None
    else if Suffixed(t, lo) !in used then Some(Suffixed(t, lo))
    else FirstFree(t, lo + 1, n - 1, used)
  }

  /** More candidates than used names: one of them is free. */
  lemma FirstFreeFound(t: string, lo: nat, n: nat, used: set<string>)
    requires n > |used|
    ensures FirstFree(t, lo, n, used).Some?
  {
    if FirstFree(t, lo, n, used).None? {
      CandidatesCount(t, lo, n);
      SubsetCard(Candidates(t, lo, n), used);
      assert false;
    }
  }

  lemma SubsetCard(a: set<string>, b: set<string>)
    requires a <= b
    ensures |a| <= |b|
  {
    assert b == a + (b - a);
  }

  /** The corrected nextAvailableName: the source's answer when that name is
      free, and otherwise the first free `T_j` above it. */
  function FreshName(ct: ComplexTypes, t: string): (r: string)
    ensures r !in UsedNames(ct)
    ensures NamePrefixed(r, t)
    ensures NextAvailableName(ct, t) !in UsedNames(ct) ==> r == NextAvailableName(ct, t)
  {
    var n := NextAvailableName(ct, t);
    if n !in UsedNames(ct) then n
    else
      var used := UsedNames(ct);
      FirstFreeFound(t, Count(ct, t) + 2, |used| + 1, used);
      FirstFree(t, Count(ct, t) + 2, |used| + 1, used).value
  }

  /** On an unshared prefix the correction changes nothing. */
  lemma FreshNameAgreesWhenUnshared(ct: ComplexTypes, t: string)
    requires Count(ct, t) == 0
    ensures FreshName(ct, t) == t
  {
    UnsharedPrefixIsFree(ct, t);
  }

  /** In the clash above, the corrected choice moves on to `Foo_3`. */
  lemma CorrectedNameAvoidsClash()
    ensures var ct := EmptyTypes.(outputs := map[Entity(ClassDecl("a.Foo_2", "Foo_2", [])) := ObjectType("Foo_2", [])]);
            FreshName(ct, "Foo") == "Foo_3"
  {
    var k := Entity(ClassDecl("a.Foo_2", "Foo_2", []));
    var ct := EmptyTypes.(outputs := map[k := ObjectType("Foo_2", [])]);
    AsWrittenNameClash();
    assert PrefixKeys(ct.outputs, "Foo") == {k};
    assert PrefixKeys(ct.enums, "Foo") == {};
    assert PrefixKeys(ct.inputs, "Foo") == {};
    assert UsedNames(ct) == {"Foo_2"};
    assert NatToString(3) == "3";
    assert Suffixed("Foo", 3) == "Foo_3";
    assert FirstFree("Foo", 3, 2, {"Foo_2"}) == Some("Foo_3");
  }
}

=== FILE: wrappers.dfy ===
/** `java.util.Optional` and nullable references, as a value type. */
module Wrappers {

  datatype Option<+T> = None | Some(value: T)
}
